=== FILE: README.md ===
# AsyncSpider in Dafny

AsyncSpider is a small asyncio crawling framework. A spider drives
"actions" (async generators) from a FIFO queue. Requests go through a
fetcher and items through a saver. Each spider, fetcher and saver runs
its own event loop on its own thread. The code base holds three
generations of this design side by side:

- the legacy `_*.py` modules: slot records, a `Storage` base, an
  `Action` wrapper, a semaphore-driven spider and a token-bucket fetcher;
- the top-level modules (`base.py`, `spider.py`, `fetsav.py`, `data.py`,
  `reqrep.py`): a five-state executor, a worker-pool spider, and processor
  pipelines;
- the `core/` package: a flag-based executor, item schemas with
  defaults, and a `Controller` that owns one fetcher, one saver and any
  number of spiders.

This project models the core of all three as pure functions over
immutable datatypes. The modules are:

- `PyDict`: Python's insertion-ordered `dict`.
- `Data`: `DefinedKeysDict` and `FrozenDict` with its XOR hash.
- `Item`: core item schemas.
- `Storage`, `LegacyItem` and `ClassTable`: the legacy slot records,
  legacy items and the per-class tables metaclasses fill in.
- `Callbacks`: start and stop callback queues and their drain.
- `Executor` and `FlagExecutor`: the two executors, as event traces.
- `Pipeline` and `RequestProcessors`: processor lists, their owners and
  the shipped request processors.
- `TokenBuckets` and `LegacyFetcher`: the rate limiters and the legacy
  fetcher.
- `ReqRep`: requests and responses, including the encoding ladder.
- `Actions`: the action wrapper and what a scheduler sees of an action.
- `Scheduler` and `LegacyScheduler`: the two spider schedulers, as
  transition systems with a conservation invariant.
- `Controller`: the controller and its run protocol.

Concurrency is reduced to what one event loop does between two `await`s.
Each scheduler step is atomic, and the choice of which enabled step runs
next is left open. Anything the code asks of the outside world is a
parameter of the model:

- the clock;
- the transport;
- `hash()`, which may raise for an unhashable value;
- the MIME parser and the codecs;
- the answers a polled predicate gives.

No processor can quietly drop a request or an item: each processor sees
the value the previous one left, in list order, and the only way out of
the chain is an exception, which ends the whole call
(`AsyncSpider/core/fetsav.py:42-43`, `69-70`).

## Model

| member | source | states |
|---|---|---|
| PyDict.PutAllValues | AsyncSpider/data.py:85 | after `update(pairs)`, keys not mentioned keep their value and each key holds its last written value |
| PyDict.FromPairs | AsyncSpider/data.py:85 | `dict(pairs)` holds exactly the keys the pairs mention |
| PyDict.Update | AsyncSpider/_spider.py:13 | `d.update(e)`: the contents are `d` overridden by `e`, and `d`'s order is a prefix of the result's |
| PyDict.UpdateMap | AsyncSpider/_spider.py:13 | updating from `e.items()` gives the same contents as overriding the map with `e` |
| PyDict.Items | AsyncSpider/data.py:105 | `items()` lists each key once, in insertion order, with its value |
| Data.Blank | AsyncSpider/data.py:26-27 | a new instance declares the class's keys and has none of them set |
| Data.Get | AsyncSpider/data.py:30-36 | a lookup succeeds exactly for a declared and set key and returns its value; otherwise KeyError |
| Data.Set | AsyncSpider/data.py:38-41 | a write succeeds exactly for a declared key, sets it, and changes no other key; otherwise KeyError |
| Data.Del | AsyncSpider/data.py:43-46 | a delete succeeds exactly for a declared key (set or not), unsets it, and changes no other key |
| Data.Len | AsyncSpider/data.py:53-54 | `len` is the number of declared keys, which bounds the number of set ones |
| Data.Iter | AsyncSpider/data.py:48-51 | iteration yields exactly the set keys, each once, in declaration order |
| Data.Pop | AsyncSpider/data.py:59-68 | a set key is returned and unset; an unset key gives the default, or KeyError when there is none; the declared keys never change |
| Data.Clear | AsyncSpider/data.py:70-72 | every key is unset and the declaration is kept |
| Data.Update | AsyncSpider/data.py:26-28 | keyword writes succeed exactly when every keyword is a declared key; otherwise KeyError |
| Data.UpdateContents | AsyncSpider/data.py:26-28 | a successful update leaves the keyword entries over the old contents |
| Data.New | AsyncSpider/data.py:26-28 | construction succeeds exactly when every keyword is declared, and sets exactly the keywords |
| Data.CopyIsEqual | AsyncSpider/data.py:74-75 | `copy()`, rebuilt from the set entries, is an equal instance |
| Data.Freeze | AsyncSpider/data.py:84-86 | a `FrozenDict` holds exactly the keys of its argument pairs and has no cached hash |
| Data.Lookup | AsyncSpider/data.py:94-95 | a lookup returns the stored value, or KeyError for an absent key |
| Data.Hash | AsyncSpider/data.py:97-107 | as written: a cached value is returned untouched; otherwise the cache is filled with the XOR of the items that hashed before the first failure, and the result is that failure's error, or the XOR of all item hashes when every item hashed |
| Data.FirstFailure | AsyncSpider/data.py:105-106 | the index of the first item whose hash fails, or the length when none does; every earlier item hashes |
| Data.XorScanError | AsyncSpider/data.py:105-106 | the loop ends in an error exactly when some item fails to hash, and the error is that of the first such item |
| Data.XorScanAcc | AsyncSpider/data.py:104-106 | the value the loop leaves in `_hash` is the XOR of the item hashes before the first failure |
| Data.HashFailureIsCached | AsyncSpider/data.py:103-107 | as written, after a failed hash the next call succeeds, with a cache that is not the hash of the contents |
| Data.UnhashableValueHashesToZero | AsyncSpider/data.py:103-107 | as written, `FrozenDict(a=[1])` raises TypeError on the first `hash()` and gives 0 on the second |
| Data.HashFixed | AsyncSpider/data.py:97-107 | corrected: the call succeeds exactly when every item hashes, gives the XOR of the item hashes and caches it; a failure leaves the instance unchanged |
| Data.FixedHashFailsAgain | AsyncSpider/data.py:103-107 | corrected, a failing hash fails again on the next call, with the same error |
| Data.HashesAgreeWhenHashable | AsyncSpider/data.py:103-107 | when every item hashes, the code as written and the corrected reading give the same result and state |
| Data.XorAllPermutation | AsyncSpider/data.py:103-107 | the XOR of item hashes does not depend on the order the items are visited in |
| Data.HashIgnoresInsertionOrder | AsyncSpider/data.py:103-107 | (corrected hash) two frozen dicts with equal contents both hash or both fail, and hash alike, whatever their insertion order |
| Data.HashIsStable | AsyncSpider/data.py:103-107 | (corrected hash) hashing a second time gives the same result and state |
| Item.RootClass | AsyncSpider/core/item.py:41 | the root item class has an empty field table |
| Item.BodyFields | AsyncSpider/core/item.py:23 | the fields of a class body are exactly its `Field`-valued attributes, with their values |
| Item.DefineClass | AsyncSpider/core/item.py:11-26 | a subclass's table starts from the `fields` dict its body binds, or an empty one, and holds that dict's entries, the parent's fields and the body's own; the body's `Field`s win, then the parent's entries; the starting dict's key order (the parent's when there is none) is a prefix |
| Item.OwnFieldsComeFirst | AsyncSpider/core/item.py:13-21 | a key of the `fields` dict a body binds that the parent also declares, and that the body does not declare as a `Field`, keeps its place in the key order but takes the parent's entry |
| Item.WithDefaults | AsyncSpider/core/item.py:44-50 | the keywords are kept and every declared key with a default that is missing gets its default |
| Item.New | AsyncSpider/core/item.py:43-51 | construction fails with KeyError exactly on an undeclared keyword; keywords are set, missing keys with defaults take them, the rest stay unset |
| Item.CopyRestoresDefaults | AsyncSpider/core/item.py:43-51 | `copy()` always succeeds, and gives back an equal item exactly when no key with a default was deleted |
| Item.CopyRestoresOne | AsyncSpider/core/item.py:43-51 | a deleted key that has a default is set again in the copy |
| Storage.Init | AsyncSpider/_utils.py:7-9 | a new record has every slot set to `None` and nothing else |
| Storage.Get | AsyncSpider/_utils.py:38-42 | a lookup returns the attribute, or KeyError when it is missing |
| Storage.Set | AsyncSpider/_utils.py:44-48 | a write succeeds for a slot (any name on an open record), and then reads back; other names are unchanged |
| Storage.Update | AsyncSpider/_utils.py:16-18 | `update` completes exactly when every name is settable; otherwise KeyError |
| Storage.UpdateWrites | AsyncSpider/_utils.py:16-18 | a complete update leaves unnamed attributes alone and each name holds its last written value |
| Storage.Copy | AsyncSpider/_utils.py:11-14 | `copy(**kw)` is the record with the writes applied; names not written keep their value; an empty `kw` gives the record back |
| Storage.Values | AsyncSpider/_utils.py:26-27 | `values()` lists each slot's value in slot order |
| Storage.ItemPairs | AsyncSpider/_utils.py:29-30 | `items()` pairs each slot with its value, in slot order |
| Storage.AsDict | AsyncSpider/_utils.py:32-33 | `as_dict()` has the slots in slot order, with their values |
| Storage.GetOr | AsyncSpider/_base.py:154-158 | `get` returns the attribute, or the default when it is missing |
| Storage.UpdateRaw | AsyncSpider/_base.py:163-165 | the same writes as `_utils` update, but an unknown name is an AttributeError |
| Storage.IsTruthy | AsyncSpider/_base.py:147-152 | a record is truthy exactly when some slot value is truthy |
| LegacyItem.MakeField | AsyncSpider/_item.py:4-6 | a field holds `default` first and then the metadata; passing `default` twice is a TypeError |
| LegacyItem.FieldEntries | AsyncSpider/_item.py:15-19 | the fields of a class body are exactly its `Field` attributes |
| LegacyItem.DefineClass | AsyncSpider/_item.py:10-21 | as written: the slots are the body's own fields, once each; the table is the body's own `fields` dict or else the parent's shared table object, plus the body's fields, and every class sharing it sees them; no table at all is an AttributeError |
| LegacyItem.DefineOwnClass | AsyncSpider/_item.py:10-21 | corrected: the same class table and slots, but a class without its own `fields` gets a table of its own and no other class's table changes |
| LegacyItem.SameClassTable | AsyncSpider/_item.py:14-17 | both readings give the defined class the same table and slots; they differ only in what other classes see |
| LegacyItem.DefaultWritesFacts | AsyncSpider/_item.py:29-30 | the default writes name each table key exactly once |
| LegacyItem.New | AsyncSpider/_item.py:27-31 | keywords win; other table keys hold their field's default; other slots hold `None`; other names are absent |
| ClassTable.DeclareRoot | AsyncSpider/_item.py:25 | a class assigning a fresh table gets exactly those entries and other tables are untouched |
| ClassTable.DefineShared | AsyncSpider/_item.py:14-17 | as written: the subclass shares its parent's table object, which gains the subclass's entries for every sharer |
| ClassTable.SharedTableLeaks | AsyncSpider/_item.py:14-17 | as written, a sibling's entry shows up in another sibling's table and in the root's |
| ClassTable.DefineOwn | AsyncSpider/core/item.py:16-26 | corrected: the subclass gets a copy of the parent's table plus its own entries; no other table changes |
| ClassTable.OwnTablesAreIsolated | AsyncSpider/_item.py:14-17 | corrected, each sibling's table holds exactly its own entry and the root's stays empty |
| Actions.ActionStep | AsyncSpider/_base.py:58-73 | every operation on the wrapper keeps its name |
| Actions.RunGenAppend | AsyncSpider/_base.py:58-73 | driving a generator through two lists of operations in turn is driving it through their concatenation |
| Actions.RunGenOutcomeAt | AsyncSpider/_base.py:58-73 | each outcome is the generator's answer to that operation in the state the earlier operations left |
| Actions.ActionIsTransparent | AsyncSpider/_base.py:58-73 | any sequence of operations gives the same outcomes and final state through the wrapper as on the bare generator |
| Actions.NextIsSendNone | AsyncSpider/_base.py:63-64 | `__anext__` is `asend(None)` |
| Actions.ActionMethod | AsyncSpider/_base.py:80-87 | the decorator marks the function; the wrapper keeps name and mark and wraps each call's generator in an `Action` of that name |
| Actions.DecoratedRunsAsPlain | AsyncSpider/_base.py:80-87 | running a decorated method's action gives the outcomes of the plain method's generator |
| Callbacks.Call | AsyncSpider/base.py:53-55 | `call_on_start` / `call_on_stop` append to one queue and leave the other alone |
| Callbacks.DrainIsFifo | AsyncSpider/base.py:57-73 | the callbacks queued when a drain begins run first, in queue order |
| Callbacks.FailuresAreRaising | AsyncSpider/base.py:69-73 | exactly the raising callbacks are logged, each no more often than it ran |
| Callbacks.AfterDrain | AsyncSpider/base.py:57-73 | after a drain the drained queue is empty and the other holds what the run callbacks queued onto it, in order |
| Callbacks.ExecAll | AsyncSpider/base.py:57-73 | `_exec_all` runs the reference drain order, logs exactly the failures, and leaves the queues as `AfterDrain` says |
| Callbacks.DrainWithoutRequeue | AsyncSpider/base.py:57-73 | when no callback re-queues onto the drained queue, exactly the queued callbacks run, in order |
| Callbacks.DrainTwoLevels | AsyncSpider/core/base.py:35-50 | callbacks queued during a drain run after the original ones, in the order they were queued |
| Callbacks.DrainIgnoresFailures | AsyncSpider/base.py:69-73 | whether callbacks raise does not change which callbacks run or their order |
| Executor.Rank | AsyncSpider/base.py:13-18 | `initial`, `starting`, `running`, `stopping`, `stopped` are numbered 0, 1, 2, 3, 4, each number naming exactly one state |
| Executor.Predicates | AsyncSpider/base.py:28-41 | exactly one of the five state predicates holds: the one for the current state |
| Executor.ReplayOrdered | AsyncSpider/base.py:100-113 | in every trace `_run` can produce, states are entered in increasing order; callbacks run only while starting or stopping; none runs after cleanup |
| Executor.ReplayRan | AsyncSpider/base.py:100-111 | running callbacks in the starting or stopping state does not move the state |
| Executor.New | AsyncSpider/base.py:22-23 | a new executor is initial with empty queues and no tasks |
| Executor.NewThreaded | AsyncSpider/base.py:156-159 | a thread executor starts with `set_event_loop` as its only start callback |
| Executor.CallOn | AsyncSpider/base.py:75-79 | callbacks can be queued in any state, on the chosen queue only |
| Executor.CheckBeforeStop | AsyncSpider/base.py:123-124 | the guard passes exactly before stopping begins; otherwise AssertionError |
| Executor.Schedule | AsyncSpider/base.py:126-152 | scheduling is refused once stopping; otherwise the state is kept and coroutine calls add one task |
| Executor.RequestStop | AsyncSpider/base.py:170-172 | `stop()` has the same guard and records the stop request |
| Executor.Begin | AsyncSpider/base.py:161-164 | only an initial executor starts; it runs the start queue in drain order and reaches running |
| Executor.BeginTrace | AsyncSpider/base.py:100-105 | the start phase's events are accepted and end in the running state |
| Executor.LoopEnds | AsyncSpider/base.py:106-113 | after the loop ends the executor is stopped with no tasks; stop callbacks ran in drain order unless the loop raised; cleanup happened |
| Executor.LoopEndsTrace | AsyncSpider/base.py:106-113 | the stop phase's events are accepted and end stopped and closed |
| Executor.RanInNotYet | AsyncSpider/base.py:100-109 | no stop callback runs before the stopping state is entered |
| Executor.Join | AsyncSpider/base.py:166-168 | `join()` is refused unless the executor is running |
| Executor.Lifecycle | AsyncSpider/base.py:100-113 | start, stop and loop end enter the states in order; start callbacks run only while starting and stop callbacks only while stopping |
| Executor.StopPhaseHasNoStartCallbacks | AsyncSpider/base.py:102-111 | the stop phase runs no start-time callbacks |
| FlagExecutor.ExactlyOneFlag | AsyncSpider/core/base.py:87-98 | exactly one of the initial, running and stopped flags is set |
| FlagExecutor.New | AsyncSpider/core/base.py:142-145 | a new thread executor is initial, neither running nor closed, with `set_event_loop` queued |
| FlagExecutor.CallOn | AsyncSpider/core/base.py:29-33 | callbacks can be queued in any state, on the chosen queue only |
| FlagExecutor.Schedule | AsyncSpider/core/base.py:110-126 | scheduling is refused when stopped (AssertionError) or the loop is closed (RuntimeError); otherwise coroutines add one task |
| FlagExecutor.RequestStop | AsyncSpider/core/base.py:155-157 | `stop()` succeeds exactly on a running executor |
| FlagExecutor.Begin | AsyncSpider/core/base.py:87-91 | `start()` succeeds exactly on an unstarted thread (a finished thread is a RuntimeError); start callbacks run in drain order before running |
| FlagExecutor.LoopEnds | AsyncSpider/core/base.py:92-98 | the executor ends closed; when the loop did not raise, cleanup precedes every stop callback and those run in drain order |
| FlagExecutor.StopTrace | AsyncSpider/core/base.py:92-96 | the callbacks stamped as stopped are exactly the stop queue's drain |
| FlagExecutor.Join | AsyncSpider/core/base.py:151-153 | `join()` succeeds exactly on a live thread |
| FlagExecutor.StatusOverLife | AsyncSpider/core/base.py:134-157 | over a whole life, `is_running` and `is_closed` go from false/false to true/false to false/true; a second start is refused, and a closed executor refuses stop and scheduling |
| Pipeline.Add | AsyncSpider/core/base.py:164-167 | adding appends the processor, or is a ValueError when it is already there |
| Pipeline.Remove | AsyncSpider/core/base.py:169-174 | removing takes out the first occurrence and the others keep their order, or is a ValueError when it is absent |
| Pipeline.AddRemoveRoundTrip | AsyncSpider/core/base.py:164-174 | adding a new processor and removing it gives the list back; adding keeps the list duplicate-free |
| Pipeline.RemoveDrops | AsyncSpider/core/base.py:169-174 | removing from a duplicate-free list keeps exactly the other processors |
| Pipeline.GatedAdd | AsyncSpider/core/fetsav.py:16-18 | an owner's `add_processor` is an AssertionError once it has started; before that it is the plain add |
| Pipeline.GatedRemove | AsyncSpider/core/fetsav.py:20-22 | likewise for `remove_processor` |
| Pipeline.ListFrozenAfterStart | AsyncSpider/core/fetsav.py:16-22 | once either kind of executor has started, every add and remove is refused |
| Pipeline.LegacyAdd | AsyncSpider/fetsav.py:40-42 | a legacy add is refused after start or for a duplicate; a processor without the right back-reference is appended and then fails with AttributeError |
| Pipeline.LegacyRemove | AsyncSpider/fetsav.py:44-46 | a legacy remove takes the processor out and clears its back-reference |
| Pipeline.CheckRef | AsyncSpider/fetsav.py:99-100 | the reference check passes exactly when the back-reference points at an owner of the right kind |
| Pipeline.BackReferenceFollowsMembership | AsyncSpider/fetsav.py:40-46 | after an add the processor refers to its owner; after removing it again the list and the reference are as before |
| Pipeline.Hooks | AsyncSpider/core/fetsav.py:9-12 | there is one hook per processor |
| Pipeline.RegistrationDrain | AsyncSpider/core/fetsav.py:9-12 | registration queues each processor's start hook to run after the rest of the start queue, and its stop hook, in list order |
| Pipeline.RegistrationStartDrain | AsyncSpider/fetsav.py:13-18 | the start drain is the queue followed by the processors' start hooks in list order |
| Pipeline.RegistrationStopQueue | AsyncSpider/fetsav.py:13-18 | after the start drain the stop queue ends with the processors' stop hooks in list order |
| Pipeline.CoreFetcher | AsyncSpider/core/fetsav.py:24-38 | a core fetcher is initial, cancels pending tasks, and queues loop, session and registration in that order |
| Pipeline.CoreFetcherLife | AsyncSpider/core/fetsav.py:30-38 | the session exists before any processor's start hook, and is closed before the processors' stop hooks |
| Pipeline.CoreSaver | AsyncSpider/core/fetsav.py:57-66 | a core saver is initial, waits for pending tasks, and queues loop and registration |
| Pipeline.CoreSaverLife | AsyncSpider/core/fetsav.py:57-66 | processor hooks run in list order after the saver's own start callbacks |
| Pipeline.CoreLife | AsyncSpider/core/fetsav.py:9-12 | a core owner's life runs its start queue and then the processors' start hooks, and its stop queue and then their stop hooks |
| Pipeline.LegacyFetcher | AsyncSpider/fetsav.py:48-59 | a legacy fetcher queues loop, registration and session in that order |
| Pipeline.LegacyFetcherLife | AsyncSpider/fetsav.py:48-59 | legacy processors' start hooks run after the session is set |
| Pipeline.LegacySaver | AsyncSpider/fetsav.py:78-81 | a legacy saver is initial and waits for pending tasks |
| Pipeline.LegacySaverLife | AsyncSpider/fetsav.py:78-81 | its stop callbacks are the processors' stop hooks, in list order |
| Pipeline.LegacyLife | AsyncSpider/fetsav.py:13-18 | a legacy owner's life runs its start queue and then the processors' start hooks while starting, and its stop queue and then their stop hooks while stopping |
| Pipeline.ApplyAll | AsyncSpider/core/fetsav.py:42-43 | the processor loop: an empty list hands the value back, one processor is just that processor, and an error is always one a processor of the list raised |
| Pipeline.ApplyAllAppend | AsyncSpider/fetsav.py:63-64 | running two lists one after the other is running their concatenation; an error from the first list is the result |
| Pipeline.ApplyAllVisitsInOrder | AsyncSpider/core/fetsav.py:42-43 | each processor is applied exactly once, in list order |
| Pipeline.RaiseStopsChain | AsyncSpider/core/fetsav.py:42-43 | a processor that raises ends the chain with its error, and no later processor runs |
| Pipeline.Fetch | AsyncSpider/core/fetsav.py:40-45 | corrected: the transport gets the request after the same chain a saved item passes; a raising processor ends the call before the transport |
| Pipeline.Save | AsyncSpider/core/fetsav.py:68-70 | saving applies the processors in list order, splittable at any processor; once a prefix has raised, that error is the result |
| RequestProcessors.SetUserAgent | AsyncSpider/implements/rp.py:44-47 | the header map gains the User-Agent and other options are unchanged; a non-map `headers` is a TypeError |
| RequestProcessors.SentAsWritten | AsyncSpider/core/fetsav.py:40-45 | as written: the options sent are the caller's own, and without `headers` exactly the caller's options |
| RequestProcessors.UserAgentLostWithoutHeaders | AsyncSpider/core/fetsav.py:40-45 | as written, a call without `headers` sends no User-Agent, while the processed request has one |
| RequestProcessors.SentProcessed | AsyncSpider/core/fetsav.py:40-45 | corrected: the options sent always carry a header map with the User-Agent |
| RequestProcessors.UserAgentAlwaysSent | AsyncSpider/core/fetsav.py:40-45 | the two readings send the same headers when the caller passed some; as written nothing otherwise |
| RequestProcessors.ProcessWithBucket | AsyncSpider/implements/rp.py:37-38 | processing takes exactly one token and leaves the request alone |
| RequestProcessors.LaunchRefill | AsyncSpider/implements/rp.py:34-35 | starting the processor adds one refill task unless the fetcher is stopped or closed |
| TokenBuckets.NewBucket | AsyncSpider/_fetcher.py:43-50 | a bucket is made exactly when `1 <= qps <= size`, empty and with no task |
| TokenBuckets.Start | AsyncSpider/_fetcher.py:52-54 | `start()` fills the bucket and launches one refill task |
| TokenBuckets.Stop | AsyncSpider/_fetcher.py:56-59 | `stop()` cancels the recorded task and empties the bucket; without a task it is an AttributeError |
| TokenBuckets.Tick | AsyncSpider/_fetcher.py:61-68 | a refill adds `qps` or fills the bucket, and never lowers the count |
| TokenBuckets.TicksSaturate | AsyncSpider/_fetcher.py:61-68 | after `n` refills the count is the old count plus `n * qps`, capped at the size |
| TokenBuckets.TryAcquire | AsyncSpider/_fetcher.py:70-77 | an acquire succeeds exactly with a token left, and takes one |
| TokenBuckets.AcquireAfterTick | AsyncSpider/_fetcher.py:70-77 | a waiting acquire is served by the next refill |
| TokenBuckets.AcquireNCounts | AsyncSpider/_fetcher.py:70-77 | `n` acquires without refill succeed exactly when `n` tokens are there, and take `n` |
| TokenBuckets.FetcherBucket | AsyncSpider/_fetcher.py:86-92 | the fetcher's rates default to 100 and 200 |
| TokenBuckets.NewRP | AsyncSpider/implements/rp.py:9-14 | both rate settings are required (KeyError otherwise); the bucket starts full |
| TokenBuckets.RPTick | AsyncSpider/implements/rp.py:18-25 | a refill never exceeds `max_qps`, and with non-negative rates never lowers the count |
| TokenBuckets.RPTryAcquire | AsyncSpider/implements/rp.py:29-32 | an acquire succeeds exactly with a token left and takes one |
| TokenBuckets.RPNegativeQpsBreaksBound | AsyncSpider/implements/rp.py:12-25 | the rates are never checked: a negative `qps` drives the count negative and blocks acquires |
| TokenBuckets.BucketsAgree | AsyncSpider/implements/rp.py:18-32 | with equal rates both buckets refill and serve alike |
| LegacyFetcher.Build | AsyncSpider/_fetcher.py:11-13 | a closed record built from distinct writes holds exactly them, `None` elsewhere; a non-slot name is a KeyError |
| LegacyFetcher.NewRequest | AsyncSpider/_fetcher.py:7-13 | a request holds method, URL and keywords; a repeated `method` or `url` is a TypeError and an unknown option a KeyError |
| LegacyFetcher.WritesFacts | AsyncSpider/_fetcher.py:11-13 | the constructor's writes are distinct and cover method, URL and every keyword |
| LegacyFetcher.BuildAll | AsyncSpider/_fetcher.py:21-25 | writing every slot once in order gives back the written values |
| LegacyFetcher.NewResponse | AsyncSpider/_fetcher.py:16-25 | a response holds its seven arguments in slot order |
| LegacyFetcher.Text | AsyncSpider/_fetcher.py:27-29 | `text` decodes the content with the encoding; a missing content or encoding raises |
| LegacyFetcher.ResponseText | AsyncSpider/_fetcher.py:21-29 | a built response decodes its own content with its own encoding |
| LegacyFetcher.Fetch | AsyncSpider/_fetcher.py:100-111 | no request is a RuntimeError; one request gives one response; several give one response per request, in order |
| LegacyFetcher.HandleRequests | AsyncSpider/_fetcher.py:113-121 | whatever order tasks complete in, response `i` belongs to request `i` |
| LegacyFetcher.FetchConcurrently | AsyncSpider/_fetcher.py:100-121 | concurrent handling gives exactly the sequential result |
| LegacyFetcher.NewFetcher | AsyncSpider/_fetcher.py:81-87 | the rates come from the settings, 100 and 200 by default; no session, no bucket |
| LegacyFetcher.Open | AsyncSpider/_fetcher.py:89-92 | the session is opened first; the bucket then starts full, or the rate check fails and leaves it unset |
| LegacyFetcher.Close | AsyncSpider/_fetcher.py:94-98 | the session is dropped; closing without a started bucket is an AttributeError |
| LegacyFetcher.OpenCloseRoundTrip | AsyncSpider/_fetcher.py:89-98 | open succeeds exactly when the rates are valid, and then close gives back the new fetcher; otherwise a direct close fails with AttributeError |
| ReqRep.NewRequest | AsyncSpider/reqrep.py:9-12 | method and URL come first; passing either again as a keyword is a TypeError |
| ReqRep.RequestRoundTrip | AsyncSpider/reqrep.py:9-12 | a request gives back exactly its method, URL and options |
| ReqRep.NewResponse | AsyncSpider/reqrep.py:27-68 | each accessor returns its constructor argument; no encoding is cached |
| ReqRep.HeaderIndex | AsyncSpider/reqrep.py:77 | the header consulted is the first whose name matches once both are case-folded, and no earlier one matches |
| ReqRep.HeaderValueFacts | AsyncSpider/reqrep.py:77 | a header found under any spelling gives its value; a missing one reads as the empty string |
| ReqRep.UsableCharset | AsyncSpider/reqrep.py:77-85 | the charset counts exactly when present, non-empty and a known codec |
| ReqRep.Derive | AsyncSpider/reqrep.py:77-93 | the derived encoding is never empty and is utf-8, the usable charset, or (for non-JSON content without one) the detected encoding |
| ReqRep.DerivePriorities | AsyncSpider/reqrep.py:77-93 | with the MIME type read from the Content-Type header under any spelling of its name, a usable charset wins; without one, JSON is utf-8 and anything else takes the detected encoding, or utf-8 when detection finds none |
| ReqRep.Encoding | AsyncSpider/reqrep.py:71-96 | a truthy cached encoding is returned; otherwise the derived one is cached and returned |
| ReqRep.EncodingIsCached | AsyncSpider/reqrep.py:71-74 | asking again returns the same encoding and changes nothing |
| ReqRep.Text | AsyncSpider/reqrep.py:102-107 | an explicit encoding is stored and used; otherwise the `encoding` property's; the `errors` handler goes to the decoder |
| ReqRep.TextSetsEncoding | AsyncSpider/reqrep.py:98-107 | after `text(e)` the property reports `e` |
| Scheduler.NewCore | AsyncSpider/core/spider.py:17-20 | a missing `concurrency` is a KeyError and one below 1 an AssertionError; `stop_when_empty` defaults to true |
| Scheduler.NewTopLevel | AsyncSpider/spider.py:15-24 | construction succeeds exactly for `concurrency >= 1` |
| Scheduler.StartCallbacks | AsyncSpider/spider.py:29-33 | the reference checks (top-level only) and the start action come first, then one worker launch per unit of concurrency |
| Scheduler.Boot | AsyncSpider/spider.py:29-33 | after the start callbacks only the start action is queued, every worker idles, and each failed reference check was logged |
| Scheduler.BusyBounded | AsyncSpider/core/spider.py:56-62 | the busy counter never leaves `0..concurrency` |
| Scheduler.Claim | AsyncSpider/core/spider.py:53-56 | a worker takes the queue's head and the busy count goes up; with an empty queue it keeps waiting |
| Scheduler.ClaimConserves | AsyncSpider/core/spider.py:53-56 | claiming keeps every enqueued action queued, held or finished |
| Scheduler.Dispatch | AsyncSpider/core/spider.py:67-76 | a yielded generator joins the queue; an item goes to the saver; anything else is one warning; only the top-level spider counts fetches and items |
| Scheduler.Perform | AsyncSpider/core/spider.py:67-76 | one step of driving moves the worker on, or marks it raised on a failed step |
| Scheduler.Advance | AsyncSpider/core/spider.py:67-76 | a step of a running action keeps the invariant |
| Scheduler.Finish | AsyncSpider/core/spider.py:59-65 | the action is finished and logged if it raised; the loop stops exactly when `stop_when_empty` holds, nobody is busy and the queue is empty |
| Scheduler.StoppedMeansAllFinished | AsyncSpider/core/spider.py:52-65 | once the loop has stopped, every enqueued action has finished and every worker idles |
| Scheduler.DriveRest | AsyncSpider/core/spider.py:67-76 | driving keeps the worker on its action until it is done or has raised |
| Scheduler.DriveRestQueue | AsyncSpider/spider.py:70-79 | driving appends the executed steps' generators to the queue, in order |
| Scheduler.DriveRestHanded | AsyncSpider/spider.py:70-79 | driving hands the executed steps' items to the saver, in order |
| Scheduler.DriveRestRaised | AsyncSpider/spider.py:55-68 | driving ends raised exactly when the last executed step failed |
| Scheduler.Serve | AsyncSpider/core/spider.py:52-76 | serving the queue's head finishes it, queues its children and hands its items in order, and logs it exactly when it raised |
| Scheduler.ServeKeepsInv | AsyncSpider/core/spider.py:52-76 | a worker can serve again from the state serving leaves: every enqueued action is still queued, driven or finished, and `busy` still counts the driving workers |
| Scheduler.StartActionRuns | AsyncSpider/core/spider.py:78-79 | the start action runs its one step and yields nothing kept |
| Scheduler.ServeStartAction | AsyncSpider/core/spider.py:64-65 | a spider holding only the start action stops once it is served |
| Scheduler.StartActionAloneStops | AsyncSpider/core/spider.py:20-27 | a freshly booted spider with `stop_when_empty` stops after its start action, whatever its concurrency |
| LegacyScheduler.Marked | AsyncSpider/_spider.py:13 | the action methods of a class body are exactly its marked attributes |
| LegacyScheduler.RegisterActions | AsyncSpider/_spider.py:9-14 | as written: a body that binds its own `actions` gets that dict plus its action methods, and no other table changes; otherwise the class shares its parent's `actions` dict, which gains its action methods for every sharer |
| LegacyScheduler.SpiderActionsLeak | AsyncSpider/_spider.py:9-14 | as written, one spider class lists a sibling's actions, and so does the root |
| LegacyScheduler.SharedSiblings | AsyncSpider/_spider.py:9-14 | two siblings registered as written share one table holding both bodies' actions |
| LegacyScheduler.RegisterOwnActions | AsyncSpider/_spider.py:9-14 | corrected: each class gets its own table, copied from the parent and extended; others unchanged |
| LegacyScheduler.SpiderActionsIsolated | AsyncSpider/_spider.py:9-14 | corrected, each spider class lists exactly its own actions |
| LegacyScheduler.NewLegacy | AsyncSpider/_spider.py:20-33 | `max_current_actions` defaults to 10 and must be an int of at least 1; the start action is queued |
| LegacyScheduler.SemaphoreBounds | AsyncSpider/_spider.py:81-89 | at most `max_current_actions` actions are driven at once |
| LegacyScheduler.Open | AsyncSpider/_spider.py:52-53 | opening starts the adder, which takes everything queued |
| LegacyScheduler.TakeQueued | AsyncSpider/_spider.py:91-95 | the adder moves every queued action to a pending drive task and counts it |
| LegacyScheduler.Wake | AsyncSpider/_spider.py:96-100 | a woken adder stops the loop exactly when nothing is driven or queued, and otherwise clears the event and takes the queue |
| LegacyScheduler.Acquire | AsyncSpider/_spider.py:81 | a pending drive takes a semaphore slot |
| LegacyScheduler.AcquireConserves | AsyncSpider/_spider.py:81 | acquiring keeps every enqueued action queued, pending, driven or finished |
| LegacyScheduler.LPerform | AsyncSpider/_spider.py:66-75 | one legacy step: the slot moves on, or is marked raised on a failing step; the step's action is queued and its item handed over; nothing else changes |
| LegacyScheduler.LAdvance | AsyncSpider/_spider.py:66-84 | a step keeps the invariant |
| LegacyScheduler.LFinish | AsyncSpider/_spider.py:77-86 | a drive ends by decrementing the count, setting the event and releasing the slot |
| LegacyScheduler.LStoppedMeansAllFinished | AsyncSpider/_spider.py:88-100 | once the adder stops the loop, every enqueued action has finished |
| LegacyScheduler.DispatchDiffers | AsyncSpider/_spider.py:67-75 | a bare generator or an unexpected value makes the legacy drive raise, where the later drive queues the generator or warns; `None`, items and wrapped actions are handled alike |
| Controller.FromExecutorAgrees | AsyncSpider/core/base.py:134-140 | the controller's view of an actor's status agrees with the executor's own queries |
| Controller.StartActor | AsyncSpider/core/base.py:147-149 | only a never-started actor starts; a running one is an AssertionError, a closed one a RuntimeError |
| Controller.StopActor | AsyncSpider/core/base.py:155-157 | `stop()` succeeds exactly on a running actor |
| Controller.StartMatchesExecutor | AsyncSpider/core/base.py:142-149 | the actor view of `start()` is what the executor does |
| Controller.StopMatchesExecutor | AsyncSpider/core/base.py:155-157 | the actor view of `stop()` is what the executor does |
| Controller.InitialSettings | AsyncSpider/core/controller.py:21-23 | `None` stays `None`; anything else is frozen with its keys |
| Controller.NewSettings | AsyncSpider/core/controller.py:42-46 | a `FrozenDict` is kept; a mapping is frozen; `None` is a TypeError |
| Controller.SettingsRoutesAgree | AsyncSpider/core/controller.py:42-46 | the constructor and `set_settings` freeze the same contents |
| Controller.Setting | AsyncSpider/core/spider.py:17 | subscripting missing settings is a TypeError; otherwise a `FrozenDict` lookup |
| Controller.NewSpider | AsyncSpider/core/spider.py:13-20 | a spider needs settings with a `concurrency` of at least 1; `stop_when_empty` is read from the settings |
| Controller.NewController | AsyncSpider/core/controller.py:15-34 | the reserved name is refused; otherwise the actors are initial, nothing is constructed, and the runtime callbacks are queued |
| Controller.SetSettings | AsyncSpider/core/controller.py:42-46 | only the settings change |
| Controller.CallLater | AsyncSpider/core/controller.py:36-37 | `call` appends to the runtime queue and changes nothing else |
| Controller.ConstructOne | AsyncSpider/core/controller.py:49-57 | each class goes to exactly one place, or is a warning; a processor needs its owner still initial |
| Controller.Construct | AsyncSpider/core/controller.py:48-57 | the loop over the classes; the controller it leaves keeps the invariant, with or without an error |
| Controller.ConstructRoutes | AsyncSpider/core/controller.py:48-57 | construct raises exactly when some class cannot be placed; it stops at the first such class with that class's error, and every class before it stays placed: the processor and spider lists grow by the classes of each kind among them |
| Controller.AreAllSpidersClosed | AsyncSpider/core/controller.py:66-71 | true exactly when every spider is closed |
| Controller.WaitFor | AsyncSpider/core/controller.py:59-64 | a wait ends exactly when the predicate answers true on some tick |
| Controller.WaitForTicks | AsyncSpider/core/controller.py:59-64 | every tick up to the first true answer runs the arrived runtime calls and then checks the predicate |
| Controller.WaitRuns | AsyncSpider/core/controller.py:59-64 | every finished wait is a run of the reference protocol |
| Controller.StartEach | AsyncSpider/core/controller.py:77-78 | the spiders start exactly when none was started before |
| Controller.RunAll | AsyncSpider/core/controller.py:73-85 | `run_all` goes ahead exactly when every actor is initial and finishes exactly when both waits end |
| Controller.RunAllFollowsProtocol | AsyncSpider/core/controller.py:73-85 | a completed `run_all` is accepted by the reference protocol: start callbacks, starts, wait, stops, wait, stop callbacks |
| Controller.WaitAll | AsyncSpider/core/controller.py:97-100 | `wait_all` finishes exactly when both waits end |
| Controller.WaitAllFollowsProtocol | AsyncSpider/core/controller.py:97-100 | a completed `wait_all` is the protocol's tail from the started state |
| Controller.StopEachMeaning | AsyncSpider/core/controller.py:93-95 | the loop reaches exactly the actors before the first that can be neither stopped nor skipped |
| Controller.Actors | AsyncSpider/core/controller.py:88-91 | the fetcher, the saver, then the spiders |
| Controller.StopAll | AsyncSpider/core/controller.py:87-95 | `stop_all` stops each actor before the first refusal and leaves the rest untouched |
| Trace.RanInEvents | AsyncSpider/base.py:100-111 | the events a drain records give back exactly the drained callbacks |

## Left out

- Threads and event loops are not modelled as such. One spider's loop is
  a sequence of atomic steps, and which enabled step runs next is left
  open.
- Wall-clock time is not modelled: `time.sleep`, `_set_rt` and the float
  `runtime` value.
- The HTTP transport, the MIME parser, the codecs, `chardet` and
  `hash()` are parameters.
- Logging is reduced to counting log entries. The message texts are not
  modelled.
- `AsyncSpider/_saver.py` is not part of this model.
- `AsyncSpider/core/data.py` and `AsyncSpider/core/reqrep.py` are not
  part of this model. The core package takes its `FrozenDict`,
  `DefinedKeysDict`, `Request` and `Response` from them. The model uses
  the classes of `AsyncSpider/data.py` and `AsyncSpider/reqrep.py` in
  their place, on the assumption that the core copies behave the same:
  the core `Item` table (`Item`), the controller settings (`Controller`)
  and the request processors (`RequestProcessors`) are built on them.
- The configuration modules and the tests are not part of this model.
- Controller.WaitFor: the answers the polled predicate gives on each tick
  are a parameter. They are not derived from the actors' threads.
- Controller.RunAll: an actor crashing between its start and its stop is
  not modelled. Every started actor is taken to be running when
  `stop()` is called.
- Controller.RunAll and Controller.StartEach: when a `start()` call fails,
  the result is the error alone. The actors started before it are left
  running in the code; the model does not report their new status.
- Callbacks.ExecAll: the owner is taken to have a `logger` attribute.
  The copy in `AsyncSpider/core/base.py` reads it with `getattr` and no
  default, so an owner without one would raise AttributeError while
  logging a failed callback. That is not modelled.
- Controller.CallLater: a runtime callback that queues further runtime
  calls is not modelled.
- Controller.NewSpider: settings values are integers, booleans or opaque
  values. Floats are not modelled.
- Controller.StopAll: the controller keeps its spiders in a set. The
  model keeps them in a sequence, so the set's iteration order is a
  given order.
- Controller.ConstructOne: a processor constructor is taken never to
  fail.
- Executor.Join and FlagExecutor.Join: only the guard is modelled. The
  blocking wait for the thread is not.
- LegacyScheduler.Acquire: the semaphore's fairness is not modelled. Any
  pending drive may take a free slot.
- Pipeline.CoreLife: start hooks that add processors while the drain is
  running are not modelled.
- Storage.Get: only the record's own attributes are looked up. The code
  uses `getattr`, which also finds what the class defines (`keys`,
  `update`, `copy`, `__slots__`, `fields`, ...); such a name reads here
  as missing (KeyError) where the code returns the class member.
- Storage.GetOr: the same restriction as `Storage.Get`. A class member's
  name gives the default here where the code returns the member.
- Pipeline.ApplyAllAppend: a processor mutates the request in place. It
  is modelled as a function returning the new value, so aliasing between
  processors is not modelled.
- RequestProcessors.SetUserAgent: header names are compared as written.
  Case-insensitive header lookup is not modelled.
- RequestProcessors.ProcessWithBucket: the wait for a token is one
  attempt. A blocked request waiting for a refill is composed from
  `TokenBuckets.RPTick`.
- TokenBuckets.NewRP: the rates are not validated, as in the code.
  `RPNegativeQpsBreaksBound` shows what that allows. The `qps` and
  `max_qps` settings and the token count are taken to be integers. A
  fractional `qps`, which makes the count fractional, and a non-numeric
  setting, which raises TypeError at the first refill, are not modelled.
- TokenBuckets.RPTick and TokenBuckets.RPTryAcquire: the same integer
  restriction as `TokenBuckets.NewRP`.
- Scheduler.Dispatch: whether the saver accepts a save is the step's
  `ok` flag. The saver's own availability is not modelled.
- Item.DefineClass: the order in which a body's new keys are appended is
  body order. Python's class namespace order is taken to be that order.

## Findings

| source | as written | input that shows it | evidently intended | confidence | as-written member | corrected member |
|---|---|---|---|---|---|---|
| AsyncSpider/_item.py:14-17 | `ItemMeta` writes a subclass's fields into the `fields` dict it inherits, so all subclasses of `Item` share the root's one table | `class A(Item): a = Field()` and `class B(Item): b = Field()`: `A.fields` lists `b`, and `Item.fields` lists both | each item class gets its own table: a copy of its parent's plus its own fields | not executed | LegacyItem.DefineClass, ClassTable.DefineShared, ClassTable.SharedTableLeaks | LegacyItem.DefineOwnClass, ClassTable.DefineOwn, ClassTable.OwnTablesAreIsolated |
| AsyncSpider/_spider.py:9-14 | `SpiderMeta` updates the `actions` dict it inherits, so all subclasses of `Spider` share the root's one dict | two sibling spiders `A` with action method `a` and `B` with `b`: `A.actions` lists `b`, and `Spider.actions` lists both | each spider class gets its own `actions` dict | not executed | LegacyScheduler.RegisterActions, LegacyScheduler.SpiderActionsLeak | LegacyScheduler.RegisterOwnActions, LegacyScheduler.SpiderActionsIsolated |
| AsyncSpider/core/fetsav.py:40-45 | `fetch` runs the processors on a `Request` built from its arguments, but then sends the caller's original keyword arguments | `fetch('GET', url)` with no `headers` and a `RandomUserAgentRP`: the request sent carries no User-Agent | the processed request's options are sent | not executed | RequestProcessors.SentAsWritten, RequestProcessors.UserAgentLostWithoutHeaders | RequestProcessors.SentProcessed, RequestProcessors.UserAgentAlwaysSent |
| AsyncSpider/data.py:103-106 | `__hash__` stores 0 in `_hash` before the loop and XORs each item hash into it, so an item that cannot be hashed leaves a partial value cached | `FrozenDict(a=[1])`: the first `hash()` raises TypeError, the second returns 0 without raising | a failed hash leaves `_hash` as `None`, so every call raises | not executed | Data.Hash, Data.HashFailureIsCached, Data.UnhashableValueHashesToZero | Data.HashFixed, Data.FixedHashFailsAgain, Data.HashIsStable |

=== FILE: actions.dfy ===
/** Actions: the async generators a spider drives.

    `Action` and `actionmethod` of AsyncSpider/_base.py wrap a generator
    under a name and pass every operation through to it. A generator is
    modelled by its state `S` and a `Behaviour` giving its answer to each
    operation; the values it is sent are `Option<X>` (`None` is Python's
    `None`).

    The schedulers see an action only through what it does between two
    resumptions, so they drive a `Script`: the values it yields, the
    fetches and saves its body performs, and whether its body raises once
    its steps are done. */
module Actions {
  import opened Wrappers

  /** How a resumption ends: a yielded value, the end of the generator
      (`StopAsyncIteration`, or `aclose` returning), or an exception. */
  datatype Outcome<Y> = Yielded(value: Y) | Exhausted | Raised(error: PyError)

  /** The generator's reaction to `asend`, `athrow` and `aclose`. */
  datatype Behaviour<!S, -X, Y> = Behaviour(
    send: (S, Option<X>) -> (S, Outcome<Y>),
    throw: (S, PyError) -> (S, Outcome<Y>),
    close: S -> (S, Outcome<Y>))

  /** One operation on an async generator; `Next` is `__anext__`. */
  datatype Op<X> = Send(value: Option<X>) | Next | Throw(error: PyError) | Close

  /** The bare generator's answer: `__anext__` of an async generator is
      `asend(None)`. */
  function GenStep<S, X, Y>(b: Behaviour<S, X, Y>, s: S, op: Op<X>): (S, Outcome<Y>) {
    match op
    case Send(v) => b.send(s, v)
    case Next => b.send(s, None)
    case Throw(e) => b.throw(s, e)
    case Close => b.close(s)
  }

  /** `Action(gen, name)`. */
  datatype Action<S> = Action(gen: S, name: string)

  /** `Action.asend`: `await self._gen.asend(value)`. */
  function ASend<S, X, Y>(b: Behaviour<S, X, Y>, a: Action<S>, v: Option<X>): (r: (Action<S>, Outcome<Y>))
    ensures r.0.name == a.name
  {
    var (s', o) := b.send(a.gen, v);
    (Action(s', a.name), o)
  }

  /** `Action.athrow`. */
  function AThrow<S, X, Y>(b: Behaviour<S, X, Y>, a: Action<S>, e: PyError): (r: (Action<S>, Outcome<Y>))
    ensures r.0.name == a.name
  {
    var (s', o) := b.throw(a.gen, e);
    (Action(s', a.name), o)
  }

  /** `Action.aclose`. */
  function AClose<S, X, Y>(b: Behaviour<S, X, Y>, a: Action<S>): (r: (Action<S>, Outcome<Y>))
    ensures r.0.name == a.name
  {
    var (s', o) := b.close(a.gen);
    (Action(s', a.name), o)
  }

  /** One operation on the wrapper; `Action.__anext__` is
      `self.asend(None)`. */
  function ActionStep<S, X, Y>(b: Behaviour<S, X, Y>, a: Action<S>, op: Op<X>): (r: (Action<S>, Outcome<Y>))
    ensures r.0.name == a.name
  {
    match op
    case Send(v) => ASend(b, a, v)
    case Next => ASend(b, a, None)
    case Throw(e) => AThrow(b, a, e)
    case Close => AClose(b, a)
  }

  /** A run of operations on the bare generator: its final state and the
      outcomes, in order. */
  function RunGen<S, X, Y>(b: Behaviour<S, X, Y>, s: S, ops: seq<Op<X>>): (r: (S, seq<Outcome<Y>>))
    ensures |r.1| == |ops|
    decreases |ops|
  {
    if ops == [] then (s, [])
    else
      var (s', o) := GenStep(b, s, ops[0]);
      var (s'', os) := RunGen(b, s', ops[1..]);
      (s'', [o] + os)
  }

  /** Running two lists of operations one after the other is running their
      concatenation: the second run starts from the state the first left,
      and the outcomes follow each other. */
  lemma {:induction false} RunGenAppend<S, X, Y>(b: Behaviour<S, X, Y>, s: S, p: seq<Op<X>>, q: seq<Op<X>>)
    ensures var first := RunGen(b, s, p);
      var second := RunGen(b, first.0, q);
      RunGen(b, s, p + q) == (second.0, first.1 + second.1)
    decreases |p|
  {
    if p == [] {
      assert p + q == q;
      assert RunGen(b, s, p) == (s, []);
      assert [] + RunGen(b, s, q).1 == RunGen(b, s, q).1;
    } else {
      assert (p + q)[0] == p[0];
      assert (p + q)[1..] == p[1..] + q;
      var (s', o) := GenStep(b, s, p[0]);
      RunGenAppend(b, s', p[1..], q);
      var first := RunGen(b, s', p[1..]);
      var second := RunGen(b, first.0, q);
      assert RunGen(b, s, p) == (first.0, [o] + first.1);
      assert RunGen(b, s, p + q) == (second.0, [o] + (first.1 + second.1));
      assert [o] + (first.1 + second.1) == ([o] + first.1) + second.1;
    }
  }

  /** The outcome at each position is the generator's answer to that
      operation, in the state the operations before it left. */
  lemma RunGenOutcomeAt<S, X, Y>(b: Behaviour<S, X, Y>, s: S, ops: seq<Op<X>>, i: nat)
    requires i < |ops|
    ensures RunGen(b, s, ops).1[i] == GenStep(b, RunGen(b, s, ops[..i]).0, ops[i]).1
  {
    assert ops == ops[..i] + ops[i..];
    RunGenAppend(b, s, ops[..i], ops[i..]);
    assert ops[i..][0] == ops[i];
  }

  /** The same run on the wrapper. */
  function RunAction<S, X, Y>(b: Behaviour<S, X, Y>, a: Action<S>, ops: seq<Op<X>>): (r: (Action<S>, seq<Outcome<Y>>))
    ensures |r.1| == |ops| && r.0.name == a.name
    decreases |ops|
  {
    if ops == [] then (a, [])
    else
      var (a', o) := ActionStep(b, a, ops[0]);
      var (a'', os) := RunAction(b, a', ops[1..]);
      (a'', [o] + os)
  }

  /** The wrapper is transparent: any run of operations yields the same
      outcomes as on the wrapped generator and leaves it in the same
      state, under the same name. */
  lemma {:induction false} ActionIsTransparent<S, X, Y>(b: Behaviour<S, X, Y>, a: Action<S>, ops: seq<Op<X>>)
    ensures RunAction(b, a, ops).0 == Action(RunGen(b, a.gen, ops).0, a.name)
    ensures RunAction(b, a, ops).1 == RunGen(b, a.gen, ops).1
    decreases |ops|
  {
    if ops != [] {
      var (a', o) := ActionStep(b, a, ops[0]);
      assert (a'.gen, o) == GenStep(b, a.gen, ops[0]);
      ActionIsTransparent(b, a', ops[1..]);
    }
  }

  /** Advancing an action is sending it `None`. */
  lemma NextIsSendNone<S, X, Y>(b: Behaviour<S, X, Y>, a: Action<S>)
    ensures ActionStep(b, a, Next) == ActionStep(b, a, Send(None))
  {
  }

  /** A function on a spider: its name, what a call returns, and whether it
      carries the `__isactionmethod__` mark. */
  datatype Func<-A, R> = Func(name: string, call: A -> R, marked: bool)

  /** `isactionmethod(func)`: the mark, false when absent. */
  predicate IsActionMethod<A, R>(f: Func<A, R>) {
    f.marked
  }

  /** `actionmethod(func)`: marks `func` itself and returns a wrapper that
      `functools.wraps` gives the function's name and mark, and whose calls
      wrap the generator the function returns in an `Action` named after
      the function. */
  function ActionMethod<A(!new), S>(f: Func<A, S>): (r: (Func<A, S>, Func<A, Action<S>>))
    ensures IsActionMethod(r.0) && r.0.name == f.name
    ensures forall x :: r.0.call(x) == f.call(x)
    ensures IsActionMethod(r.1) && r.1.name == f.name
    ensures forall x :: r.1.call(x).gen == f.call(x) && r.1.call(x).name == f.name
  {
    var marked := f.(marked := true);
    (marked, Func(f.name, x => Action(f.call(x), f.name), true))
  }

  /** Calling a decorated method and running its action gives what running
      the undecorated method's generator gives. */
  lemma DecoratedRunsAsPlain<A(!new), S, X, Y>(f: Func<A, S>, x: A, b: Behaviour<S, X, Y>, ops: seq<Op<X>>)
    ensures var act := ActionMethod(f).1.call(x);
      && act.name == f.name
      && RunAction(b, act, ops).1 == RunGen(b, f.call(x), ops).1
  {
    ActionIsTransparent(b, ActionMethod(f).1.call(x), ops);
  }

  // What the schedulers drive -------------------------------------------

  /** A yielded value: `None`, another generator (`wrapped` when it is an
      `Action`), an item, or anything else. */
  datatype Obj = Nothing | Generator(script: Script, wrapped: bool) | ItemObj(id: nat) | Unexpected(tag: nat)

  /** What an action does between two resumptions: yield a value, await a
      fetch (`ok` when a response comes back), call `save` (`ok` when the
      saver's coroutine succeeds), or call `add_action` itself. */
  datatype Step = Yields(obj: Obj) | Fetches(ok: bool) | Saves(id: nat, wait: bool, ok: bool) | Adds(obj: Obj)

  /** An action as the scheduler sees it; `raises` says whether its body
      raises after its last step. */
  datatype Script = Script(name: string, steps: seq<Step>, raises: bool)

  /** The start action of every spider: `yield` once, i.e. yield `None`. */
  const StartAction := Script("start_action", [Yields(Nothing)], false)
}

=== FILE: callbacks.dfy ===
/** Start and stop callback queues and their drain, shared by
    `CallbackExecutor` (AsyncSpider/base.py) and `CallbackMixin`
    (AsyncSpider/core/base.py).

    A callback is opaque except for what the executor can observe: whether
    it raised (the drain logs the exception and goes on) and which
    callbacks it queued onto the executor's own start and stop queues while
    it ran (processor registration does exactly that). Queued children are
    part of the callback value, which makes every drain finite. */
module Callbacks {
  datatype Callback = Callback(name: string, raises: bool, onStart: seq<Callback>, onStop: seq<Callback>)

  /** The two thread-safe FIFO queues. */
  datatype Queues = Queues(start: seq<Callback>, stop: seq<Callback>)

  datatype Which = Start | Stop

  function EmptyQueues(): Queues {
    Queues([], [])
  }

  function Get(qs: Queues, w: Which): seq<Callback> {
    match w
    case Start => qs.start
    case Stop => qs.stop
  }

  function Other(w: Which): Which {
    match w
    case Start => Stop
    case Stop => Start
  }

  /** `call_on_start` / `call_on_stop`: append to one queue, leave the other. */
  function Call(qs: Queues, w: Which, c: Callback): (r: Queues)
    ensures Get(r, w) == Get(qs, w) + [c]
    ensures Get(r, Other(w)) == Get(qs, Other(w))
  {
    match w
    case Start => Queues(qs.start + [c], qs.stop)
    case Stop => Queues(qs.start, qs.stop + [c])
  }

  /** What running `c` queues onto queue `w`. */
  function Spawn(c: Callback, w: Which): seq<Callback> {
    match w
    case Start => c.onStart
    case Stop => c.onStop
  }

  /** Number of callbacks in `cs`, counting everything they would queue. */
  function Weight(cs: seq<Callback>): nat
    decreases cs
  {
    if cs == [] then 0
    else 1 + Weight(cs[0].onStart) + Weight(cs[0].onStop) + Weight(cs[1..])
  }

  lemma {:induction false} WeightAppend(a: seq<Callback>, b: seq<Callback>)
    ensures Weight(a + b) == Weight(a) + Weight(b)
    decreases |a|
  {
    if a != [] {
      assert (a + b)[0] == a[0];
      assert (a + b)[1..] == a[1..] + b;
      WeightAppend(a[1..], b);
    } else {
      assert a + b == b;
    }
  }

  /** Reference order of a drain of queue `w` that starts from `q`: take the
      head, run it, put what it queues at the back, repeat until empty. */
  function Drain(q: seq<Callback>, w: Which): seq<Callback>
    decreases Weight(q)
  {
    if q == [] then []
    else
      WeightAppend(q[1..], Spawn(q[0], w));
      [q[0]] + Drain(q[1..] + Spawn(q[0], w), w)
  }

  /** FIFO: the callbacks queued when the drain begins run first, in queue
      order, before anything queued during the drain. */
  lemma {:induction false} DrainIsFifo(q: seq<Callback>, w: Which)
    ensures |q| <= |Drain(q, w)| && Drain(q, w)[..|q|] == q
    decreases Weight(q)
  {
    if q != [] {
      DrainStep(q, w);
      var n := q[1..] + Spawn(q[0], w);
      DrainIsFifo(n, w);
      assert Drain(n, w)[..|q| - 1] == n[..|q| - 1] == q[1..];
    }
  }

  /** Everything the callbacks in `ran` queued onto the other queue, in order. */
  function SpawnedOnto(ran: seq<Callback>, w: Which): seq<Callback>
    decreases |ran|
  {
    if ran == [] then [] else SpawnedOnto(ran[..|ran| - 1], w) + Spawn(ran[|ran| - 1], w)
  }

  /** The callbacks among `ran` that raised: one log entry each, in run order. */
  function Failures(ran: seq<Callback>): seq<Callback>
    decreases |ran|
  {
    if ran == [] then []
    else
      var init := Failures(ran[..|ran| - 1]);
      if ran[|ran| - 1].raises then init + [ran[|ran| - 1]] else init
  }

  /** Exactly the raising callbacks are logged, each no more often than it ran. */
  lemma {:induction false} FailuresAreRaising(ran: seq<Callback>)
    ensures forall c :: c in Failures(ran) <==> c in ran && c.raises
    ensures |Failures(ran)| <= |ran|
    decreases |ran|
  {
    if ran != [] {
      FailuresAreRaising(ran[..|ran| - 1]);
      assert forall c :: c in ran <==> c in ran[..|ran| - 1] || c == ran[|ran| - 1];
    }
  }

  /** The state of both queues after draining queue `w`. */
  function AfterDrain(qs: Queues, w: Which): (r: Queues)
    ensures Get(r, w) == []
    ensures Get(r, Other(w)) == Get(qs, Other(w)) + SpawnedOnto(Drain(Get(qs, w), w), Other(w))
  {
    var spawned := SpawnedOnto(Drain(Get(qs, w), w), Other(w));
    match w
    case Start => Queues([], qs.stop + spawned)
    case Stop => Queues(qs.start + spawned, [])
  }

  /** `_exec_all`: pop with `get_nowait` until the queue is empty, running
      each callback; a raising callback is logged and the loop continues.
      AsyncSpider/base.py sets `self.logger` when the queues are made; the
      copy in AsyncSpider/core/base.py looks it up with
      `getattr(self, 'logger')`, which has no default. The owner is taken
      to have a `logger` attribute, so logging itself never raises here. */
  method ExecAll(qs: Queues, w: Which) returns (ran: seq<Callback>, logged: seq<Callback>, qs': Queues)
    ensures ran == Drain(Get(qs, w), w)
    ensures logged == Failures(ran)
    ensures qs' == AfterDrain(qs, w)
  {
    var q := Get(qs, w);
    var other := Get(qs, Other(w));
    ran, logged := [], [];
    while q != []
      invariant DrainLoopInv(qs, w, q, ran, logged, other)
      decreases Weight(q)
    {
      var c := q[0];
      DrainLoopStep(qs, w, q, ran, logged, other);
      if c.raises {
        logged := logged + [c];
      }
      q := q[1..] + Spawn(c, w);
      other := other + Spawn(c, Other(w));
      ran := ran + [c];
    }
    assert ran == Drain(Get(qs, w), w);
    qs' := if w == Start then Queues([], other) else Queues(other, []);
  }

  /** What `_exec_all` has done so far: it ran `ran`, logged the raising
      ones, and what remains to run drains in the reference order. */
  ghost predicate DrainLoopInv(qs: Queues, w: Which, q: seq<Callback>, ran: seq<Callback>, logged: seq<Callback>, other: seq<Callback>) {
    && ran + Drain(q, w) == Drain(Get(qs, w), w)
    && logged == Failures(ran)
    && other == Get(qs, Other(w)) + SpawnedOnto(ran, Other(w))
  }

  lemma DrainLoopStep(qs: Queues, w: Which, q: seq<Callback>, ran: seq<Callback>, logged: seq<Callback>, other: seq<Callback>)
    requires q != [] && DrainLoopInv(qs, w, q, ran, logged, other)
    ensures Weight(q[1..] + Spawn(q[0], w)) < Weight(q)
    ensures DrainLoopInv(qs, w, q[1..] + Spawn(q[0], w), ran + [q[0]],
      if q[0].raises then logged + [q[0]] else logged, other + Spawn(q[0], Other(w)))
  {
    var c, q' := q[0], q[1..] + Spawn(q[0], w);
    DrainStep(q, w);
    SnocFacts(ran, c, Other(w));
    Assoc(ran, [c], Drain(q', w));
    Assoc(Get(qs, Other(w)), SpawnedOnto(ran, Other(w)), Spawn(c, Other(w)));
  }

  lemma Assoc<T>(a: seq<T>, b: seq<T>, c: seq<T>)
    ensures (a + b) + c == a + (b + c)
  {
  }

  /** One step of the drain, and the weight that makes it terminate. */
  lemma DrainStep(q: seq<Callback>, w: Which)
    requires q != []
    ensures Weight(q[1..] + Spawn(q[0], w)) < Weight(q)
    ensures Drain(q, w) == [q[0]] + Drain(q[1..] + Spawn(q[0], w), w)
  {
    WeightAppend(q[1..], Spawn(q[0], w));
  }

  lemma SnocFacts(ran: seq<Callback>, c: Callback, w: Which)
    ensures Failures(ran + [c]) == if c.raises then Failures(ran) + [c] else Failures(ran)
    ensures SpawnedOnto(ran + [c], w) == SpawnedOnto(ran, w) + Spawn(c, w)
  {
    assert (ran + [c])[..|ran|] == ran;
  }

  /** When nothing drained queues onto the drained queue itself, exactly the
      queued callbacks run, in queue order. */
  lemma {:induction false} DrainWithoutRequeue(q: seq<Callback>, w: Which)
    requires forall i :: 0 <= i < |q| ==> Spawn(q[i], w) == []
    ensures Drain(q, w) == q
    decreases |q|
  {
    if q != [] {
      assert q[1..] + Spawn(q[0], w) == q[1..];
      DrainWithoutRequeue(q[1..], w);
    }
  }

  lemma {:induction false} SpawnedOntoAppend(a: seq<Callback>, b: seq<Callback>, w: Which)
    ensures SpawnedOnto(a + b, w) == SpawnedOnto(a, w) + SpawnedOnto(b, w)
    decreases |b|
  {
    if b == [] {
      assert a + b == a;
    } else {
      var b', c := b[..|b| - 1], b[|b| - 1];
      assert b == b' + [c];
      Assoc(a, b', [c]);
      SpawnedOntoAppend(a, b', w);
      SnocFacts(a + b', c, w);
      SnocFacts(b', c, w);
      Assoc(SpawnedOnto(a, w), SpawnedOnto(b', w), Spawn(c, w));
    }
  }

  /** A queue whose callbacks queue only callbacks that queue nothing more
      (processor registration is of this shape): the drain runs the queue,
      then whatever was already behind it, then everything the queue's
      callbacks queued, in the order they queued it. */
  lemma {:induction false} DrainTwoLevels(q: seq<Callback>, x: seq<Callback>, w: Which)
    requires forall i :: 0 <= i < |x| ==> Spawn(x[i], w) == []
    requires forall c :: c in SpawnedOnto(q, w) ==> Spawn(c, w) == []
    ensures Drain(q + x, w) == q + x + SpawnedOnto(q, w)
    decreases |q|
  {
    if q == [] {
      assert q + x == x;
      DrainWithoutRequeue(x, w);
    } else {
      var c, q' := q[0], q[1..];
      var x' := x + Spawn(c, w);
      assert q == [c] + q';
      ConsStep(c, q', x, w);
      NextLevel(c, q', x, w);
      DrainTwoLevels(q', x', w);
      Regroup(c, q', x, SpawnedOnto(q', w), w);
    }
  }

  /** The recursive call's preconditions, one callback further on. */
  lemma NextLevel(c: Callback, q': seq<Callback>, x: seq<Callback>, w: Which)
    requires forall i :: 0 <= i < |x| ==> Spawn(x[i], w) == []
    requires forall d :: d in SpawnedOnto([c] + q', w) ==> Spawn(d, w) == []
    ensures forall i :: 0 <= i < |x + Spawn(c, w)| ==> Spawn((x + Spawn(c, w))[i], w) == []
    ensures forall d :: d in SpawnedOnto(q', w) ==> Spawn(d, w) == []
  {
    SpawnedOntoCons(c, q', w);
    var x' := x + Spawn(c, w);
    forall i | 0 <= i < |x'| ensures Spawn(x'[i], w) == [] {
      if i >= |x| {
        assert x'[i] == Spawn(c, w)[i - |x|];
        assert x'[i] in SpawnedOnto([c] + q', w);
      }
    }
  }

  lemma Regroup(c: Callback, q': seq<Callback>, x: seq<Callback>, s: seq<Callback>, w: Which)
    requires s == SpawnedOnto(q', w)
    ensures [c] + (q' + (x + Spawn(c, w)) + s) == ([c] + q') + x + SpawnedOnto([c] + q', w)
  {
    SpawnedOntoCons(c, q', w);
  }

  lemma ConsStep(c: Callback, q': seq<Callback>, x: seq<Callback>, w: Which)
    ensures Drain([c] + q' + x, w) == [c] + Drain(q' + (x + Spawn(c, w)), w)
  {
    var q := [c] + q' + x;
    assert q[0] == c && q[1..] == q' + x;
    DrainStep(q, w);
    Assoc(q', x, Spawn(c, w));
  }

  lemma SpawnedOntoCons(c: Callback, q': seq<Callback>, w: Which)
    ensures SpawnedOnto([c] + q', w) == Spawn(c, w) + SpawnedOnto(q', w)
  {
    SpawnedOntoAppend([c], q', w);
    assert [c][..0] == [];
  }

  /** Failure isolation: whether callbacks raise does not change which
      callbacks run or what they queue. */
  lemma {:induction false} DrainIgnoresFailures(q: seq<Callback>, q': seq<Callback>, w: Which)
    requires |q| == |q'|
    requires forall i :: 0 <= i < |q| ==> q'[i] == q[i].(raises := q'[i].raises)
    ensures |Drain(q, w)| == |Drain(q', w)|
    ensures forall i :: 0 <= i < |Drain(q, w)| ==> Drain(q', w)[i] == Drain(q, w)[i].(raises := Drain(q', w)[i].raises)
    decreases Weight(q)
  {
    if q != [] {
      WeightAppend(q[1..], Spawn(q[0], w));
      assert Weight(q) == 1 + Weight(q[0].onStart) + Weight(q[0].onStop) + Weight(q[1..]);
      var n := q[1..] + Spawn(q[0], w);
      var n' := q'[1..] + Spawn(q'[0], w);
      assert Spawn(q'[0], w) == Spawn(q[0], w);
      DrainIgnoresFailures(n, n', w);
    }
  }
}

=== FILE: classtable.dfy ===
/** Per-class attribute tables filled in by a metaclass: the legacy item
    `fields` table (AsyncSpider/_item.py) and the legacy spider `actions`
    table (AsyncSpider/_spider.py). Both metaclasses look the table up with
    `getattr(cls, name)` and update the object they find in place. A class
    that does not assign the attribute in its own body finds its parent's
    table object, so every subclass writes into the root class's table.

    A registry maps each class name to a table slot; several classes may
    share one slot, which is how object sharing is represented. */
module ClassTable {
  import opened Wrappers
  import opened PyDict

  type Name = string

  datatype Registry<T> = Registry(tables: seq<Dict<Name, T>>, owner: map<Name, nat>)

  ghost predicate Valid<T>(reg: Registry<T>) {
    && (forall i :: 0 <= i < |reg.tables| ==> PyDict.Valid(reg.tables[i]))
    && (forall c :: c in reg.owner ==> reg.owner[c] < |reg.tables|)
  }

  function Table<T>(reg: Registry<T>, c: Name): (t: Dict<Name, T>)
    requires Valid(reg) && c in reg.owner
    ensures PyDict.Valid(t)
  {
    reg.tables[reg.owner[c]]
  }

  function EmptyRegistry<T>(): (reg: Registry<T>)
    ensures Valid(reg) && reg.owner == map[]
  {
    Registry([], map[])
  }

  /** A class whose body assigns the attribute a fresh `{}` (the root
      `Item`, the root `Spider`), then has its own entries put into it. */
  function DeclareRoot<T>(reg: Registry<T>, c: Name, entries: Dict<Name, T>): (r: Registry<T>)
    requires Valid(reg) && PyDict.Valid(entries)
    ensures Valid(r) && c in r.owner
    ensures Table(r, c) == entries
    ensures forall d :: d in reg.owner && d != c ==> d in r.owner && Table(r, d) == Table(reg, d)
  {
    Registry(reg.tables + [entries], reg.owner[c := |reg.tables|])
  }

  /** The metaclass as written: the subclass is bound to the table object it
      inherits, and its entries are written into that shared object, so
      every class bound to the same object sees them. */
  function DefineShared<T>(reg: Registry<T>, c: Name, parent: Name, entries: Dict<Name, T>): (r: Registry<T>)
    requires Valid(reg) && parent in reg.owner && PyDict.Valid(entries)
    ensures Valid(r) && c in r.owner && r.owner[c] == reg.owner[parent]
    ensures Table(r, c).m == Table(reg, parent).m + entries.m
    ensures forall d :: d in reg.owner && d != c && reg.owner[d] == reg.owner[parent] ==>
      d in r.owner && Table(r, d) == Table(r, c)
  {
    var i := reg.owner[parent];
    Registry(reg.tables[i := Update(reg.tables[i], entries)], reg.owner[c := i])
  }

  /** The evidently intended metaclass (and what the table of
      AsyncSpider/core/item.py does): the subclass gets a table of its own,
      the parent's entries followed by its own, and no other class's table
      changes. */
  function DefineOwn<T>(reg: Registry<T>, c: Name, parent: Name, entries: Dict<Name, T>): (r: Registry<T>)
    requires Valid(reg) && parent in reg.owner && PyDict.Valid(entries)
    ensures Valid(r) && c in r.owner
    ensures Table(r, c).m == Table(reg, parent).m + entries.m
    ensures |Table(reg, parent).order| <= |Table(r, c).order|
    ensures Table(r, c).order[..|Table(reg, parent).order|] == Table(reg, parent).order
    ensures forall d :: d in reg.owner && d != c ==> d in r.owner && Table(r, d) == Table(reg, d)
  {
    var t := Update(Table(reg, parent), entries);
    Registry(reg.tables + [t], reg.owner[c := |reg.tables|])
  }

  function Single<T>(k: Name, v: T): (d: Dict<Name, T>)
    ensures PyDict.Valid(d) && d.m == map[k := v]
  {
    Put(Empty(), k, v)
  }

  /** Two sibling classes `A(Root)` declaring `a` and `B(Root)` declaring
      `b`, defined one after the other. */
  function Siblings<T>(define: bool, x: T, y: T): (reg: Registry<T>)
    ensures Valid(reg) && "Root" in reg.owner && "A" in reg.owner && "B" in reg.owner
  {
    var r0 := DeclareRoot(EmptyRegistry(), "Root", Empty());
    if define then
      var r1 := DefineShared(r0, "A", "Root", Single("a", x));
      DefineShared(r1, "B", "Root", Single("b", y))
    else
      var r1 := DefineOwn(r0, "A", "Root", Single("a", x));
      DefineOwn(r1, "B", "Root", Single("b", y))
  }

  /** As written, `A`'s table lists `B`'s entry, and so does the root's. */
  lemma SharedTableLeaks<T>(x: T, y: T)
    ensures var reg := Siblings(true, x, y);
      "b" in Table(reg, "A").m && "b" in Table(reg, "Root").m && "a" in Table(reg, "B").m
  {
    var r0 := DeclareRoot(EmptyRegistry(), "Root", Empty());
    var r1 := DefineShared(r0, "A", "Root", Single("a", x));
    assert "a" in Table(r1, "Root").m;
    var r2 := DefineShared(r1, "B", "Root", Single("b", y));
    assert Table(r2, "A") == Table(r2, "B");
  }

  /** With a table per class, each sibling holds exactly its own entry. */
  lemma OwnTablesAreIsolated<T>(x: T, y: T)
    ensures var reg := Siblings(false, x, y);
      Table(reg, "A").m == map["a" := x] && Table(reg, "B").m == map["b" := y] && Table(reg, "Root").m == map[]
  {
    var r0 := DeclareRoot(EmptyRegistry(), "Root", Empty());
    var r1 := DefineOwn(r0, "A", "Root", Single("a", x));
    assert Table(r1, "Root") == Table(r0, "Root");
    var r2 := DefineOwn(r1, "B", "Root", Single("b", y));
  }
}

=== FILE: controller.dfy ===
/** The `Controller` of AsyncSpider/core/controller.py: it owns one fetcher,
    one saver and a set of spiders, routes the classes handed to
    `construct`, starts everything in a fixed order, polls until the
    spiders and then the fetcher and saver have closed, and stops its
    actors on request.

    The actors run on threads of their own; the controller sees each one
    only through `is_running`, `is_stopped` and `is_closed`, so an actor is
    modelled by the `Status` those three answers distinguish, and
    `FromExecutor` ties it to the executor model. What the polled
    predicates answer on each tick is a parameter (`obs`), as are the
    runtime callbacks other threads queue between ticks (`arrivals`). */
module Controller {
  import opened Wrappers
  import opened PyDict
  import Data
  import opened Callbacks
  import Pipeline
  import Scheduler
  import FlagExecutor

  // ---------------------------------------------------------------------
  // Actors as the controller sees them
  // ---------------------------------------------------------------------

  /** `Running`: started, thread alive, no stop asked; `StopRequested`:
      `stop()` was called but the loop has not returned yet; `Stopped`: the
      loop returned and the stop flags are set; `Crashed`: the thread ended
      without the loop returning normally. */
  datatype Status = Initial | Running | StopRequested | Stopped | Crashed

  predicate IsRunning(s: Status) {
    s == Running || s == StopRequested
  }

  predicate IsStopped(s: Status) {
    s == Stopped
  }

  predicate IsClosed(s: Status) {
    s == Stopped || s == Crashed
  }

  /** The status of a core executor (an `AioThreadExecutor`). */
  function FromExecutor(e: FlagExecutor.FExec): Status {
    if e.flags.initial then Initial
    else if e.flags.stopped then Stopped
    else if e.thread == FlagExecutor.Alive then (if e.stopRequested then StopRequested else Running)
    else Crashed
  }

  /** The three queries agree with the executor's own. */
  lemma FromExecutorAgrees(e: FlagExecutor.FExec)
    requires FlagExecutor.Inv(e)
    ensures IsRunning(FromExecutor(e)) <==> FlagExecutor.IsRunning(e)
    ensures IsClosed(FromExecutor(e)) <==> FlagExecutor.IsClosed(e)
    ensures IsStopped(FromExecutor(e)) <==> e.flags.stopped
    ensures FromExecutor(e) == Initial <==> e.flags.initial
  {
  }

  /** `start()` on an actor: only an actor that was never started starts;
      a live one fails its assertion, a finished thread cannot be started
      again. */
  function StartActor(s: Status): (r: Result<Status>)
    ensures r.Ok? <==> s == Initial
    ensures r.Ok? ==> IsRunning(r.value) && !IsClosed(r.value)
    ensures IsRunning(s) ==> r == Err(AssertionError)
    ensures IsClosed(s) ==> r == Err(RuntimeError)
  {
    match s
    case Initial => Ok(Running)
    case Running => Err(AssertionError)
    case StopRequested => Err(AssertionError)
    case Stopped => Err(RuntimeError)
    case Crashed => Err(RuntimeError)
  }

  /** `stop()` on an actor: it asserts `is_running`. */
  function StopActor(s: Status): (r: Result<Status>)
    ensures r.Ok? <==> IsRunning(s)
    ensures r.Err? ==> r.error == AssertionError
    ensures r.Ok? ==> r.value == StopRequested && IsRunning(r.value)
  {
    if IsRunning(s) then Ok(StopRequested) else Err(AssertionError)
  }

  /** `StartActor` is what `start()` does to an executor, seen through
      `FromExecutor`. */
  lemma StartMatchesExecutor(e: FlagExecutor.FExec)
    requires FlagExecutor.Inv(e)
    ensures FlagExecutor.Begin(e).Ok? <==> StartActor(FromExecutor(e)).Ok?
    ensures FlagExecutor.Begin(e).Err? ==> FlagExecutor.Begin(e).error == StartActor(FromExecutor(e)).error
    ensures FlagExecutor.Begin(e).Ok? ==> IsRunning(FromExecutor(FlagExecutor.Begin(e).value))
  {
    var r := FlagExecutor.Begin(e);
    if r.Ok? {
      FromExecutorAgrees(r.value);
    }
  }

  /** `StopActor` is what `stop()` does to an executor, seen through
      `FromExecutor`. */
  lemma StopMatchesExecutor(e: FlagExecutor.FExec)
    requires FlagExecutor.Inv(e)
    ensures FlagExecutor.RequestStop(e).Ok? <==> StopActor(FromExecutor(e)).Ok?
    ensures FlagExecutor.RequestStop(e).Ok? ==> FromExecutor(FlagExecutor.RequestStop(e).value) == StopRequested
  {
    FromExecutorAgrees(e);
  }

  // ---------------------------------------------------------------------
  // Settings
  // ---------------------------------------------------------------------

  /** A setting value: an integer, a boolean (Python's `True >= 1` holds),
      or anything else, which cannot be compared with an integer; only its
      truth value is used. */
  datatype SVal = SInt(n: int) | SBool(b: bool) | SOther(truthy: bool)

  /** What is passed as settings: `None`, a plain mapping (its pairs in
      order), or an existing `FrozenDict`. */
  datatype SettingsArg = NoSettings | Pairs(ps: seq<(Data.Key, SVal)>) | AlreadyFrozen(f: Data.FrozenDict<SVal>)

  /** The constructor: `FrozenDict(settings)` unless `None`; a `FrozenDict`
      argument is copied into a fresh one. */
  function InitialSettings(arg: SettingsArg): (r: Option<Data.FrozenDict<SVal>>)
    ensures r.None? <==> arg.NoSettings?
    ensures arg.Pairs? ==> r.value.d.m.Keys == PairKeys(arg.ps) && r.value.cache == None
    ensures arg.AlreadyFrozen? ==> r.value.d == arg.f.d && r.value.cache == None
  {
    match arg
    case NoSettings => None
    case Pairs(ps) => Some(Data.Freeze(ps))
    case AlreadyFrozen(f) => Some(Data.FrozenDict(f.d, None))
  }

  /** `set_settings`: a `FrozenDict` is kept as it is, anything else goes
      through `FrozenDict(...)`, where `dict(None)` raises TypeError. */
  function NewSettings(arg: SettingsArg): (r: Result<Data.FrozenDict<SVal>>)
    ensures r.Ok? <==> !arg.NoSettings?
    ensures r.Err? ==> r.error == TypeError
    ensures arg.AlreadyFrozen? ==> r == Ok(arg.f)
    ensures arg.Pairs? ==> r.value.d.m.Keys == PairKeys(arg.ps)
  {
    match arg
    case NoSettings => Err(TypeError)
    case Pairs(ps) => Ok(Data.Freeze(ps))
    case AlreadyFrozen(f) => Ok(f)
  }

  /** Both routes give the same mapping; only the cached hash of a
      `FrozenDict` argument may differ. */
  lemma SettingsRoutesAgree(arg: SettingsArg)
    requires !arg.NoSettings?
    ensures InitialSettings(arg).Some? && NewSettings(arg).Ok?
    ensures InitialSettings(arg).value.d == NewSettings(arg).value.d
    ensures arg.Pairs? ==> InitialSettings(arg) == Some(NewSettings(arg).value)
  {
  }

  /** `settings[key]`: subscripting `None` is a TypeError. */
  function Setting(settings: Option<Data.FrozenDict<SVal>>, k: Data.Key): (r: Result<SVal>)
    ensures settings.None? ==> r == Err(TypeError)
    ensures settings.Some? ==> r == Data.Lookup(settings.value, k)
  {
    if settings.None? then Err(TypeError) else Data.Lookup(settings.value, k)
  }

  /** A core `Spider(controller)`: `concurrency = settings['concurrency']`
      must compare `>= 1`; `stop_when_empty` defaults to true and is used
      for its truth value. */
  function NewSpider(settings: Option<Data.FrozenDict<SVal>>): (r: Result<Scheduler.Spider>)
    ensures settings.None? ==> r == Err(TypeError)
    ensures settings.Some? && "concurrency" !in settings.value.d.m ==> r == Err(KeyError)
    ensures r.Ok? <==> (settings.Some? && "concurrency" in settings.value.d.m && AtLeastOne(settings.value.d.m["concurrency"]))
    ensures r.Ok? ==> Scheduler.Unstarted(r.value) && r.value.gen == Scheduler.Core
    ensures r.Ok? ==> Ok(r.value.concurrency) == AsInt(settings.value.d.m["concurrency"])
    ensures r.Ok? ==> r.value.stopWhenEmpty == ("stop_when_empty" !in settings.value.d.m || Truthy(settings.value.d.m["stop_when_empty"]))
  {
    var c :- Setting(settings, "concurrency");
    var n :- AsInt(c);
    var stop := if "stop_when_empty" in settings.value.d.m then Truthy(settings.value.d.m["stop_when_empty"]) else true;
    Scheduler.NewCore(Some(n), Some(stop))
  }

  /** `value >= 1`, where it does not raise. */
  predicate AtLeastOne(v: SVal) {
    match v
    case SInt(n) => n >= 1
    case SBool(b) => b
    case SOther(_) => false
  }

  /** A setting compared with an integer: booleans count as 0 and 1. */
  function AsInt(v: SVal): (r: Result<int>)
    ensures r.Ok? <==> !v.SOther?
  {
    match v
    case SInt(n) => Ok(n)
    case SBool(b) => Ok(if b then 1 else 0)
    case SOther(_) => Err(TypeError)
  }

  function Truthy(v: SVal): bool {
    match v
    case SInt(n) => n != 0
    case SBool(b) => b
    case SOther(t) => t
  }

  // ---------------------------------------------------------------------
  // The controller
  // ---------------------------------------------------------------------

  /** A call queued with `controller.call`; `raises` says whether it raises
      when run (it is then logged and the drain goes on). */
  datatype RuntimeCall = RuntimeCall(name: string, raises: bool)

  datatype SpiderEntry = SpiderEntry(spider: Scheduler.Spider, status: Status)

  /** The controller's state: its settings, its fetcher and saver with
      their processor lists, its spiders, its start/stop callback queues,
      the runtime callback queue, the processor identities handed out so
      far, and how many warnings `construct` logged. */
  datatype Ctrl = Ctrl(
    name: string,
    settings: Option<Data.FrozenDict<SVal>>,
    fetcher: Status,
    fetcherProcs: seq<Pipeline.Processor>,
    saver: Status,
    saverProcs: seq<Pipeline.Processor>,
    spiders: seq<SpiderEntry>,
    queues: Queues,
    runtime: seq<RuntimeCall>,
    nextId: nat,
    warnings: nat)

  /** Every processor was created by this controller, so identities are
      below `nextId`. */
  ghost predicate Inv(c: Ctrl) {
    && (forall i :: 0 <= i < |c.fetcherProcs| ==> c.fetcherProcs[i].id < c.nextId)
    && (forall i :: 0 <= i < |c.saverProcs| ==> c.saverProcs[i].id < c.nextId)
  }

  const ReservedName := "AsyncSpider"

  /** `Controller(name, settings)`: the name `AsyncSpider` is refused (it
      is the root logger's); the start callback `st` and stop callback `ed`
      that `_set_rt` returns are queued. */
  function NewController(name: string, arg: SettingsArg, st: Callback, ed: Callback): (r: Result<Ctrl>)
    ensures r.Ok? <==> name != ReservedName
    ensures r.Err? ==> r.error == AssertionError
    ensures r.Ok? ==> Inv(r.value) && r.value.name == name
    ensures r.Ok? ==> r.value.settings == InitialSettings(arg)
    ensures r.Ok? ==> r.value.fetcher == Initial && r.value.saver == Initial
    ensures r.Ok? ==> r.value.fetcherProcs == [] && r.value.saverProcs == [] && r.value.spiders == []
    ensures r.Ok? ==> r.value.queues == Queues([st], [ed]) && r.value.runtime == []
  {
    if name == ReservedName then Err(AssertionError)
    else
      var qs := Call(Call(EmptyQueues(), Start, st), Stop, ed);
      Ok(Ctrl(name, InitialSettings(arg), Initial, [], Initial, [], [], qs, [], 0, 0))
  }

  /** `set_settings`. */
  function SetSettings(c: Ctrl, arg: SettingsArg): (r: Result<Ctrl>)
    ensures r.Ok? <==> !arg.NoSettings?
    ensures r.Ok? ==> r.value == c.(settings := Some(NewSettings(arg).value))
    ensures r.Err? ==> r.error == TypeError
  {
    var f :- NewSettings(arg);
    Ok(c.(settings := Some(f)))
  }

  /** `call`: append to the runtime queue. */
  function CallLater(c: Ctrl, f: RuntimeCall): (r: Ctrl)
    ensures r.runtime == c.runtime + [f] && r == c.(runtime := r.runtime)
  {
    c.(runtime := c.runtime + [f])
  }

  // construct -------------------------------------------------------------

  /** A class handed to `construct`. Processor constructors only store the
      owner, so a processor class is given by the hooks its instances
      carry. */
  datatype Class =
    | RequestProcessorClass(onStart: Callback, onStop: Callback)
    | ItemProcessorClass(onStart: Callback, onStop: Callback)
    | SpiderClass
    | OtherClass(name: string)

  /** One iteration of `construct`: a request processor joins the
      fetcher, an item processor the saver, a spider the spider set, and
      anything else is logged as unexpected. */
  function ConstructOne(c: Ctrl, cls: Class): (r: Result<Ctrl>)
    requires Inv(c)
    ensures cls.RequestProcessorClass? ==> (r.Ok? <==> c.fetcher == Initial)
    ensures cls.ItemProcessorClass? ==> (r.Ok? <==> c.saver == Initial)
    ensures cls.SpiderClass? ==> (r.Ok? <==> NewSpider(c.settings).Ok?)
    ensures cls.OtherClass? ==> r.Ok?
    ensures r.Err? && !cls.SpiderClass? ==> r.error == AssertionError
    ensures r.Err? && cls.SpiderClass? ==> r.error == NewSpider(c.settings).error
    ensures r.Ok? ==> Inv(r.value)
    ensures r.Ok? ==> Routed(c, cls, r.value)
  {
    match cls
    case RequestProcessorClass(on, off) =>
      var p := Pipeline.Processor(c.nextId, Pipeline.FetcherKind, on, off);
      assert p !in c.fetcherProcs by { FreshId(c.fetcherProcs, p, c.nextId); }
      var procs :- Pipeline.GatedAdd(c.fetcher == Initial, c.fetcherProcs, p);
      Ok(c.(fetcherProcs := procs, nextId := c.nextId + 1))
    case ItemProcessorClass(on, off) =>
      var p := Pipeline.Processor(c.nextId, Pipeline.SaverKind, on, off);
      assert p !in c.saverProcs by { FreshId(c.saverProcs, p, c.nextId); }
      var procs :- Pipeline.GatedAdd(c.saver == Initial, c.saverProcs, p);
      Ok(c.(saverProcs := procs, nextId := c.nextId + 1))
    case SpiderClass =>
      var sp :- NewSpider(c.settings);
      Ok(c.(spiders := c.spiders + [SpiderEntry(sp, Initial)]))
    case OtherClass(_) =>
      Ok(c.(warnings := c.warnings + 1))
  }

  lemma FreshId(procs: seq<Pipeline.Processor>, p: Pipeline.Processor, next: nat)
    requires forall i :: 0 <= i < |procs| ==> procs[i].id < next
    requires p.id == next
    ensures p !in procs
  {
  }

  /** Where `cls` went: exactly one of the fetcher's processors, the
      saver's processors, the spiders and the warning count grows, by one
      element at the end, and nothing else changes. */
  ghost predicate Routed(c: Ctrl, cls: Class, r: Ctrl) {
    && r.name == c.name && r.settings == c.settings && r.fetcher == c.fetcher && r.saver == c.saver
    && r.queues == c.queues && r.runtime == c.runtime
    && (cls.RequestProcessorClass? ==>
          && |r.fetcherProcs| == |c.fetcherProcs| + 1 && r.fetcherProcs[..|c.fetcherProcs|] == c.fetcherProcs
          && r.fetcherProcs[|c.fetcherProcs|].kind == Pipeline.FetcherKind
          && r.fetcherProcs[|c.fetcherProcs|].onStart == cls.onStart
          && r.fetcherProcs[|c.fetcherProcs|].onStop == cls.onStop)
    && (!cls.RequestProcessorClass? ==> r.fetcherProcs == c.fetcherProcs)
    && (cls.ItemProcessorClass? ==>
          && |r.saverProcs| == |c.saverProcs| + 1 && r.saverProcs[..|c.saverProcs|] == c.saverProcs
          && r.saverProcs[|c.saverProcs|].kind == Pipeline.SaverKind
          && r.saverProcs[|c.saverProcs|].onStart == cls.onStart
          && r.saverProcs[|c.saverProcs|].onStop == cls.onStop)
    && (!cls.ItemProcessorClass? ==> r.saverProcs == c.saverProcs)
    && (cls.SpiderClass? ==>
          && |r.spiders| == |c.spiders| + 1 && r.spiders[..|c.spiders|] == c.spiders
          && r.spiders[|c.spiders|].status == Initial
          && Ok(r.spiders[|c.spiders|].spider) == NewSpider(c.settings))
    && (!cls.SpiderClass? ==> r.spiders == c.spiders)
    && r.warnings == c.warnings + (if cls.OtherClass? then 1 else 0)
  }

  /** `construct(*classes)`: the classes in order. An exception ends the
      loop, and the classes placed before it stay where they were put, so
      the result is the controller as the loop left it, with the error if
      one was raised. */
  function Construct(c: Ctrl, classes: seq<Class>): (r: (Ctrl, Option<PyError>))
    requires Inv(c)
    ensures Inv(r.0)
    decreases |classes|
  {
    if classes == [] then (c, None)
    else
      match ConstructOne(c, classes[0])
      case Ok(c') => Construct(c', classes[1..])
      case Err(e) => (c, Some(e))
  }

  /** The classes `construct` refuses, read off the controller alone: a
      request processor once the fetcher has left its initial state, an
      item processor likewise for the saver, and a spider when the
      settings do not make one. */
  predicate Blocked(c: Ctrl, cls: Class) {
    || (cls.RequestProcessorClass? && c.fetcher != Initial)
    || (cls.ItemProcessorClass? && c.saver != Initial)
    || (cls.SpiderClass? && NewSpider(c.settings).Err?)
  }

  /** The error a blocked class raises. */
  function BlockError(c: Ctrl, cls: Class): PyError
    requires Blocked(c, cls)
  {
    if cls.SpiderClass? then NewSpider(c.settings).error else AssertionError
  }

  /** The position of the first blocked class, or the length when none is. */
  function FirstBlocked(c: Ctrl, classes: seq<Class>): (k: nat)
    ensures k <= |classes|
    ensures forall i :: 0 <= i < k ==> !Blocked(c, classes[i])
    ensures k < |classes| ==> Blocked(c, classes[k])
  {
    if classes == [] || Blocked(c, classes[0]) then 0 else 1 + FirstBlocked(c, classes[1..])
  }

  function CountRequest(cs: seq<Class>): nat {
    if cs == [] then 0 else (if cs[0].RequestProcessorClass? then 1 else 0) + CountRequest(cs[1..])
  }

  function CountItem(cs: seq<Class>): nat {
    if cs == [] then 0 else (if cs[0].ItemProcessorClass? then 1 else 0) + CountItem(cs[1..])
  }

  function CountSpider(cs: seq<Class>): nat {
    if cs == [] then 0 else (if cs[0].SpiderClass? then 1 else 0) + CountSpider(cs[1..])
  }

  function CountOther(cs: seq<Class>): nat {
    if cs == [] then 0 else (if cs[0].OtherClass? then 1 else 0) + CountOther(cs[1..])
  }

  /** `construct` raises exactly when the fetcher has left its initial
      state and a request processor is given, likewise for the saver, or
      a spider is given and the settings do not make one. It stops at the
      first class `FirstBlocked` names, raising that class's error, and
      every class before it lands in its place: the lists grow by the
      number of those classes of each kind, and unexpected classes among
      them are counted as warnings. */
  lemma ConstructRoutes(c: Ctrl, classes: seq<Class>)
    requires Inv(c)
    ensures Construct(c, classes).1.None? <==>
      && (c.fetcher == Initial || CountRequest(classes) == 0)
      && (c.saver == Initial || CountItem(classes) == 0)
      && (NewSpider(c.settings).Ok? || CountSpider(classes) == 0)
    ensures var k := FirstBlocked(c, classes);
      && (Construct(c, classes).1.None? <==> k == |classes|)
      && (k < |classes| ==> Construct(c, classes).1 == Some(BlockError(c, classes[k])))
    ensures var r := Construct(c, classes).0; var placed := classes[..FirstBlocked(c, classes)];
      && |r.fetcherProcs| == |c.fetcherProcs| + CountRequest(placed)
      && |r.saverProcs| == |c.saverProcs| + CountItem(placed)
      && |r.spiders| == |c.spiders| + CountSpider(placed)
      && r.warnings == c.warnings + CountOther(placed)
      && r.fetcherProcs[..|c.fetcherProcs|] == c.fetcherProcs
      && r.saverProcs[..|c.saverProcs|] == c.saverProcs
      && r.spiders[..|c.spiders|] == c.spiders
      && r.fetcher == c.fetcher && r.saver == c.saver && r.settings == c.settings
      && r.queues == c.queues && r.runtime == c.runtime
  {
    NoneBlocked(c, classes);
    ConstructStops(c, classes);
    ConstructPlaces(c, classes);
  }

  /** Where `construct` stops, and with which error. */
  lemma {:induction false} ConstructStops(c: Ctrl, classes: seq<Class>)
    requires Inv(c)
    ensures var k := FirstBlocked(c, classes);
      && (Construct(c, classes).1.None? <==> k == |classes|)
      && (k < |classes| ==> Construct(c, classes).1 == Some(BlockError(c, classes[k])))
    decreases |classes|
  {
    if classes != [] {
      var one := ConstructOne(c, classes[0]);
      if one.Ok? {
        var c' := one.value;
        assert forall x :: Blocked(c', x) == Blocked(c, x);
        FirstBlockedSame(c, c', classes[1..]);
        ConstructStops(c', classes[1..]);
      }
    }
  }

  /** What the classes before the stop do to the controller. */
  lemma {:induction false} ConstructPlaces(c: Ctrl, classes: seq<Class>)
    requires Inv(c)
    ensures var r := Construct(c, classes).0; var placed := classes[..FirstBlocked(c, classes)];
      && |r.fetcherProcs| == |c.fetcherProcs| + CountRequest(placed)
      && |r.saverProcs| == |c.saverProcs| + CountItem(placed)
      && |r.spiders| == |c.spiders| + CountSpider(placed)
      && r.warnings == c.warnings + CountOther(placed)
      && r.fetcherProcs[..|c.fetcherProcs|] == c.fetcherProcs
      && r.saverProcs[..|c.saverProcs|] == c.saverProcs
      && r.spiders[..|c.spiders|] == c.spiders
      && r.fetcher == c.fetcher && r.saver == c.saver && r.settings == c.settings
      && r.queues == c.queues && r.runtime == c.runtime
    decreases |classes|
  {
    if classes == [] {
      assert classes[..0] == [];
    } else {
      var one := ConstructOne(c, classes[0]);
      if one.Ok? {
        var c' := one.value;
        assert forall x :: Blocked(c', x) == Blocked(c, x);
        FirstBlockedSame(c, c', classes[1..]);
        ConstructPlaces(c', classes[1..]);
        var k := FirstBlocked(c, classes);
        assert classes[..k][1..] == classes[1..][..k - 1];
        var v := Construct(c', classes[1..]).0;
        PrefixOfPrefix(v.fetcherProcs, c'.fetcherProcs, c.fetcherProcs);
        PrefixOfPrefix(v.saverProcs, c'.saverProcs, c.saverProcs);
        PrefixOfPrefix(v.spiders, c'.spiders, c.spiders);
      } else {
        assert classes[..FirstBlocked(c, classes)] == [];
      }
    }
  }

  /** No class is blocked exactly when the fetcher is still initial or no
      request processor is given, likewise for the saver, and the settings
      make a spider or no spider is given. */
  lemma {:induction false} NoneBlocked(c: Ctrl, classes: seq<Class>)
    ensures FirstBlocked(c, classes) == |classes| <==>
      && (c.fetcher == Initial || CountRequest(classes) == 0)
      && (c.saver == Initial || CountItem(classes) == 0)
      && (NewSpider(c.settings).Ok? || CountSpider(classes) == 0)
    decreases |classes|
  {
    if classes != [] {
      NoneBlocked(c, classes[1..]);
    }
  }

  /** Two controllers whose fetcher, saver and settings agree block the
      same classes. */
  lemma {:induction false} FirstBlockedSame(c: Ctrl, d: Ctrl, classes: seq<Class>)
    requires c.fetcher == d.fetcher && c.saver == d.saver && c.settings == d.settings
    ensures FirstBlocked(c, classes) == FirstBlocked(d, classes)
    decreases |classes|
  {
    if classes != [] {
      FirstBlockedSame(c, d, classes[1..]);
    }
  }

  lemma PrefixOfPrefix<T>(a: seq<T>, b: seq<T>, c: seq<T>)
    requires |c| <= |b| <= |a| && a[..|b|] == b && b[..|c|] == c
    ensures a[..|c|] == c
  {
    assert a[..|c|] == a[..|b|][..|c|];
  }

  // are_all_spiders_closed --------------------------------------------------

  /** `are_all_spiders_closed`: the `for ... else` loop returns false at
      the first spider that is not closed, and true after the last. */
  method AreAllSpidersClosed(spiders: seq<SpiderEntry>) returns (r: bool)
    ensures r <==> forall i :: 0 <= i < |spiders| ==> IsClosed(spiders[i].status)
    ensures !r ==> exists i :: 0 <= i < |spiders| && !IsClosed(spiders[i].status)
  {
    var k := 0;
    while k < |spiders|
      invariant 0 <= k <= |spiders|
      invariant forall i :: 0 <= i < k ==> IsClosed(spiders[i].status)
    {
      if !IsClosed(spiders[k].status) {
        return false;
      }
      k := k + 1;
    }
    return true;
  }

  // _wait_for ---------------------------------------------------------------

  /** Who `run_all` starts and stops. */
  datatype ActorId = FetcherId | SaverId | SpiderId(index: nat)

  /** What the controller does, in order: run its start callbacks, start
      or stop an actor, drain the runtime queue, evaluate the polled
      predicate, run its stop callbacks. */
  datatype Event =
    | RanStart(ran: seq<Callback>)
    | Started(who: ActorId)
    | Drained(calls: seq<RuntimeCall>)
    | Checked(done: bool)
    | StopSent(who: ActorId)
    | RanStop(ran: seq<Callback>)

  /** `_wait_for(predicate)`: each tick sleeps, runs every runtime call
      queued so far, then evaluates the predicate; `pending` is the queue
      when the wait begins, `arrivals[i]` what other threads queue before
      tick `i`'s drain, `obs[i]` the predicate's answer at tick `i`. `None`
      when no answer in `obs` is true: the wait has not ended. */
  function WaitFor(pending: seq<RuntimeCall>, arrivals: seq<seq<RuntimeCall>>, obs: seq<bool>): (r: Option<seq<Event>>)
    requires |arrivals| == |obs|
    ensures r.Some? <==> true in obs
    decreases |obs|
  {
    if obs == [] then None
    else
      var tick := [Drained(pending + arrivals[0]), Checked(obs[0])];
      if obs[0] then Some(tick)
      else
        var rest := WaitFor([], arrivals[1..], obs[1..]);
        assert true in obs <==> true in obs[1..] by { assert obs == [obs[0]] + obs[1..]; }
        if rest.None? then None else Some(tick + rest.value)
  }

  /** The index of the first true answer. */
  function FirstTrue(obs: seq<bool>): (k: nat)
    requires true in obs
    ensures k < |obs| && obs[k] && forall j :: 0 <= j < k ==> !obs[j]
  {
    if obs[0] then 0 else FirstTrue(obs[1..]) + 1
  }

  /** A wait that ends takes ticks up to the first true answer: tick `j`
      drains what was queued (the initial queue on the first tick) and then
      checks, and the predicate holds at the last check only. */
  lemma {:induction false} WaitForTicks(pending: seq<RuntimeCall>, arrivals: seq<seq<RuntimeCall>>, obs: seq<bool>)
    requires |arrivals| == |obs| && true in obs
    ensures |WaitFor(pending, arrivals, obs).value| == 2 * (FirstTrue(obs) + 1)
    ensures forall j :: 0 <= j <= FirstTrue(obs) ==>
      WaitFor(pending, arrivals, obs).value[2 * j] == Drained((if j == 0 then pending else []) + arrivals[j])
    ensures forall j :: 0 <= j <= FirstTrue(obs) ==>
      WaitFor(pending, arrivals, obs).value[2 * j + 1] == Checked(obs[j])
    decreases |obs|
  {
    var tick := [Drained(pending + arrivals[0]), Checked(obs[0])];
    if !obs[0] {
      assert true in obs[1..] by { assert obs == [obs[0]] + obs[1..]; }
      WaitForTicks([], arrivals[1..], obs[1..]);
      var rest := WaitFor([], arrivals[1..], obs[1..]).value;
      assert WaitFor(pending, arrivals, obs).value == tick + rest;
      var k := FirstTrue(obs);
      assert k == FirstTrue(obs[1..]) + 1;
      forall j | 1 <= j <= k
        ensures (tick + rest)[2 * j] == Drained(arrivals[j])
        ensures (tick + rest)[2 * j + 1] == Checked(obs[j])
      {
        TickShift(tick, rest, j);
      }
    } else {
      assert WaitFor(pending, arrivals, obs).value == tick;
    }
  }

  /** Past the first tick, tick `j` of a wait is tick `j - 1` of the rest. */
  lemma TickShift<E>(tick: seq<E>, rest: seq<E>, j: nat)
    requires |tick| == 2 && 1 <= j && 2 * j + 1 < |tick| + |rest|
    ensures (tick + rest)[2 * j] == rest[2 * (j - 1)]
    ensures (tick + rest)[2 * j + 1] == rest[2 * (j - 1) + 1]
  {
  }

  // run_all -----------------------------------------------------------------

  /** Ticks of the protocol `run_all` and `wait_all` follow. `InWait(w,
      drained)`: inside the `w`-th wait, after a drain when `drained`. */
  datatype Phase =
    | Begin
    | CallbacksRan
    | FetcherStarted
    | SpidersStarting(k: nat)
    | InWait(w: nat, drained: bool)
    | WaitDone(w: nat)
    | FetcherStopping
    | Finished

  /** The reference protocol for `n` spiders: start callbacks; start the
      fetcher, the saver and the spiders in order; wait (drain, then
      check, until a check succeeds) for the spiders to close; when
      `stops`, stop the fetcher then the saver; wait for the fetcher and
      saver to close; run the stop callbacks. */
  function Next(n: nat, stops: bool, ph: Phase, ev: Event): Option<Phase> {
    match ph
    case Begin => if ev.RanStart? then Some(CallbacksRan) else None
    case CallbacksRan => if ev == Started(FetcherId) then Some(FetcherStarted) else None
    case FetcherStarted => if ev == Started(SaverId) then Some(SpidersStarting(0)) else None
    case SpidersStarting(k) =>
      if k < n && ev == Started(SpiderId(k)) then Some(SpidersStarting(k + 1))
      else if k == n && ev.Drained? then Some(InWait(1, true))
      else None
    case InWait(w, drained) =>
      if !drained && ev.Drained? then Some(InWait(w, true))
      else if drained && ev.Checked? then Some(if ev.done then WaitDone(w) else InWait(w, false))
      else None
    case WaitDone(w) =>
      if w == 1 && stops && ev == StopSent(FetcherId) then Some(FetcherStopping)
      else if w == 1 && !stops && ev.Drained? then Some(InWait(2, true))
      else if w == 2 && ev.RanStop? then Some(Finished)
      else None
    case FetcherStopping => if ev == StopSent(SaverId) then Some(InWait(2, false)) else None
    case Finished => None
  }

  function Run(n: nat, stops: bool, ph: Phase, t: seq<Event>): Option<Phase>
    decreases |t|
  {
    if t == [] then Some(ph)
    else
      match Next(n, stops, ph, t[0])
      case None => None
      case Some(p) => Run(n, stops, p, t[1..])
  }

  lemma {:induction false} RunAppend(n: nat, stops: bool, ph: Phase, a: seq<Event>, b: seq<Event>)
    ensures Run(n, stops, ph, a + b) == if Run(n, stops, ph, a).Some? then Run(n, stops, Run(n, stops, ph, a).value, b) else None
    decreases |a|
  {
    if a == [] {
      assert a + b == b;
    } else {
      assert (a + b)[0] == a[0];
      assert (a + b)[1..] == a[1..] + b;
      match Next(n, stops, ph, a[0])
      case None =>
      case Some(p) => RunAppend(n, stops, p, a[1..], b);
    }
  }

  lemma RunOne(n: nat, stops: bool, ph: Phase, e: Event)
    ensures Run(n, stops, ph, [e]) == Next(n, stops, ph, e)
  {
    assert [e][1..] == [];
  }

  /** Running two events is running one after the other. */
  lemma RunTwo(n: nat, stops: bool, ph: Phase, a: Event, b: Event)
    ensures Run(n, stops, ph, [a, b]) == if Next(n, stops, ph, a).Some? then Next(n, stops, Next(n, stops, ph, a).value, b) else None
  {
    assert [a, b] == [a] + [b];
    RunAppend(n, stops, ph, [a], [b]);
    RunOne(n, stops, ph, a);
    if Next(n, stops, ph, a).Some? {
      RunOne(n, stops, Next(n, stops, ph, a).value, b);
    }
  }

  /** Every finished wait is a run of the protocol inside a wait. */
  lemma {:induction false} WaitRuns(n: nat, stops: bool, w: nat, pending: seq<RuntimeCall>, arrivals: seq<seq<RuntimeCall>>, obs: seq<bool>)
    requires |arrivals| == |obs| && true in obs
    ensures Run(n, stops, InWait(w, false), WaitFor(pending, arrivals, obs).value) == Some(WaitDone(w))
    decreases |obs|
  {
    var tick := [Drained(pending + arrivals[0]), Checked(obs[0])];
    RunTwo(n, stops, InWait(w, false), tick[0], tick[1]);
    if !obs[0] {
      assert true in obs[1..] by { assert obs == [obs[0]] + obs[1..]; }
      WaitRuns(n, stops, w, [], arrivals[1..], obs[1..]);
      RunAppend(n, stops, InWait(w, false), tick, WaitFor([], arrivals[1..], obs[1..]).value);
    }
  }

  /** A wait begun right after the spiders were started (or right after a
      first wait, when nothing is stopped) runs the same way, its first
      drain leaving that phase. */
  lemma WaitRunsFrom(n: nat, stops: bool, ph: Phase, w: nat, pending: seq<RuntimeCall>, arrivals: seq<seq<RuntimeCall>>, obs: seq<bool>)
    requires |arrivals| == |obs| && true in obs
    requires (ph == SpidersStarting(n) && w == 1) || (ph == WaitDone(1) && !stops && w == 2)
    ensures Run(n, stops, ph, WaitFor(pending, arrivals, obs).value) == Some(WaitDone(w))
  {
    var t := WaitFor(pending, arrivals, obs).value;
    WaitRuns(n, stops, w, pending, arrivals, obs);
    assert t[0].Drained? by {
      WaitForTicks(pending, arrivals, obs);
    }
    assert Next(n, stops, ph, t[0]) == Next(n, stops, InWait(w, false), t[0]) == Some(InWait(w, true));
  }

  /** The `Started` events of spiders `k..n-1`, in order. */
  function SpiderStarts(k: nat, n: nat): (t: seq<Event>)
    requires k <= n
    ensures |t| == n - k
    decreases n - k
  {
    if k == n then [] else [Started(SpiderId(k))] + SpiderStarts(k + 1, n)
  }

  lemma {:induction false} SpiderStartsRun(n: nat, stops: bool, k: nat)
    requires k <= n
    ensures Run(n, stops, SpidersStarting(k), SpiderStarts(k, n)) == Some(SpidersStarting(n))
    decreases n - k
  {
    if k < n {
      SpiderStartsRun(n, stops, k + 1);
      assert SpiderStarts(k, n)[1..] == SpiderStarts(k + 1, n);
    }
  }

  /** `spd.start()` for each spider, in order; the first failure ends the
      loop. */
  function StartEach(xs: seq<Status>): (r: Result<seq<Status>>)
    ensures r.Ok? <==> forall i :: 0 <= i < |xs| ==> xs[i] == Initial
    ensures r.Ok? ==> |r.value| == |xs| && forall i :: 0 <= i < |xs| ==> r.value[i] == Running
    decreases |xs|
  {
    if xs == [] then Ok([])
    else
      var s :- StartActor(xs[0]);
      var rest :- StartEach(xs[1..]);
      assert forall i :: 1 <= i < |xs| ==> xs[i] == xs[1..][i - 1];
      Ok([s] + rest)
  }

  function Statuses(spiders: seq<SpiderEntry>): (r: seq<Status>)
    ensures |r| == |spiders| && forall i :: 0 <= i < |spiders| ==> r[i] == spiders[i].status
  {
    seq(|spiders|, i requires 0 <= i < |spiders| => spiders[i].status)
  }

  /** `run_all` as the controller thread sees it, up to the end of its
      stop callbacks. `Err` when one of the `start()` calls fails, `Ok(None)`
      when one of the two waits has not ended within the observations
      given. The fetcher and saver it stops are the ones it started, so
      their `stop()` succeeds. */
  function RunAll(c: Ctrl, arrivals1: seq<seq<RuntimeCall>>, obs1: seq<bool>, arrivals2: seq<seq<RuntimeCall>>, obs2: seq<bool>): (r: Result<Option<seq<Event>>>)
    requires |arrivals1| == |obs1| && |arrivals2| == |obs2|
    ensures r.Ok? <==> c.fetcher == Initial && c.saver == Initial && forall i :: 0 <= i < |c.spiders| ==> c.spiders[i].status == Initial
    ensures c.fetcher != Initial ==> r == Err(StartActor(c.fetcher).error)
    ensures r.Ok? ==> (r.value.Some? <==> true in obs1 && true in obs2)
  {
    var ran := Drain(c.queues.start, Start);
    var f :- StartActor(c.fetcher);
    var s :- StartActor(c.saver);
    var sp :- StartEach(Statuses(c.spiders));
    var n := |c.spiders|;
    var w1 := WaitFor(c.runtime, arrivals1, obs1);
    if w1.None? then Ok(None)
    else
      var w2 := WaitFor([], arrivals2, obs2);
      if w2.None? then Ok(None)
      else
        var ranStop := Drain(AfterDrain(c.queues, Start).stop, Stop);
        Ok(Some(RunAllTrace(ran, n, w1.value, true, w2.value, ranStop)))
  }

  /** The shape of a completed `run_all` (`stops`) or `wait_all`
      (`!stops`, without the starts either). */
  function RunAllTrace(ran: seq<Callback>, n: nat, w1: seq<Event>, stops: bool, w2: seq<Event>, ranStop: seq<Callback>): seq<Event> {
    if stops then
      [RanStart(ran), Started(FetcherId), Started(SaverId)] + SpiderStarts(0, n)
        + w1 + [StopSent(FetcherId), StopSent(SaverId)] + w2 + [RanStop(ranStop)]
    else
      w1 + w2 + [RanStop(ranStop)]
  }

  /** A completed `run_all` follows the reference protocol: start
      callbacks, then the fetcher, the saver and every spider in order,
      then a full wait for the spiders, the two stops, a full wait for the
      fetcher and saver, and the stop callbacks. */
  lemma RunAllFollowsProtocol(c: Ctrl, arrivals1: seq<seq<RuntimeCall>>, obs1: seq<bool>, arrivals2: seq<seq<RuntimeCall>>, obs2: seq<bool>)
    requires |arrivals1| == |obs1| && |arrivals2| == |obs2|
    requires RunAll(c, arrivals1, obs1, arrivals2, obs2).Ok?
    requires RunAll(c, arrivals1, obs1, arrivals2, obs2).value.Some?
    ensures Run(|c.spiders|, true, Begin, RunAll(c, arrivals1, obs1, arrivals2, obs2).value.value) == Some(Finished)
  {
    var n := |c.spiders|;
    var ran := Drain(c.queues.start, Start);
    var w1 := WaitFor(c.runtime, arrivals1, obs1).value;
    var w2 := WaitFor([], arrivals2, obs2).value;
    var ranStop := Drain(AfterDrain(c.queues, Start).stop, Stop);
    assert RunAll(c, arrivals1, obs1, arrivals2, obs2).value.value == RunAllTrace(ran, n, w1, true, w2, ranStop);
    WaitRunsFrom(n, true, SpidersStarting(n), 1, c.runtime, arrivals1, obs1);
    WaitRuns(n, true, 2, [], arrivals2, obs2);
    RunAllTraceAccepted(ran, n, w1, w2, ranStop);
  }

  /** Two runs one after the other. */
  lemma RunChain(n: nat, stops: bool, ph: Phase, a: seq<Event>, mid: Phase, b: seq<Event>, end: Phase)
    requires Run(n, stops, ph, a) == Some(mid) && Run(n, stops, mid, b) == Some(end)
    ensures Run(n, stops, ph, a + b) == Some(end)
  {
    RunAppend(n, stops, ph, a, b);
  }

  /** The shape of a completed `run_all` is accepted whenever its two
      waits are. */
  lemma RunAllTraceAccepted(ran: seq<Callback>, n: nat, w1: seq<Event>, w2: seq<Event>, ranStop: seq<Callback>)
    requires Run(n, true, SpidersStarting(n), w1) == Some(WaitDone(1))
    requires Run(n, true, InWait(2, false), w2) == Some(WaitDone(2))
    ensures Run(n, true, Begin, RunAllTrace(ran, n, w1, true, w2, ranStop)) == Some(Finished)
  {
    var head := [RanStart(ran), Started(FetcherId), Started(SaverId)];
    var stops := [StopSent(FetcherId), StopSent(SaverId)];
    var starts := SpiderStarts(0, n);
    assert Run(n, true, Begin, head) == Some(SpidersStarting(0)) by {
      assert head == [head[0]] + [head[1], head[2]];
      RunOne(n, true, Begin, head[0]);
      RunTwo(n, true, CallbacksRan, head[1], head[2]);
      RunAppend(n, true, Begin, [head[0]], [head[1], head[2]]);
    }
    SpiderStartsRun(n, true, 0);
    RunChain(n, true, Begin, head, SpidersStarting(0), starts, SpidersStarting(n));
    RunChain(n, true, Begin, head + starts, SpidersStarting(n), w1, WaitDone(1));
    RunTwo(n, true, WaitDone(1), stops[0], stops[1]);
    RunChain(n, true, Begin, head + starts + w1, WaitDone(1), stops, InWait(2, false));
    RunChain(n, true, Begin, head + starts + w1 + stops, InWait(2, false), w2, WaitDone(2));
    RunOne(n, true, WaitDone(2), RanStop(ranStop));
    RunChain(n, true, Begin, head + starts + w1 + stops + w2, WaitDone(2), [RanStop(ranStop)], Finished);
  }

  /** `wait_all`: the two waits of `run_all` and its stop callbacks, with
      nothing started or stopped. */
  function WaitAll(c: Ctrl, arrivals1: seq<seq<RuntimeCall>>, obs1: seq<bool>, arrivals2: seq<seq<RuntimeCall>>, obs2: seq<bool>): (r: Option<seq<Event>>)
    requires |arrivals1| == |obs1| && |arrivals2| == |obs2|
    ensures r.Some? <==> true in obs1 && true in obs2
  {
    var w1 := WaitFor(c.runtime, arrivals1, obs1);
    if w1.None? then None
    else
      var w2 := WaitFor([], arrivals2, obs2);
      if w2.None? then None
      else Some(RunAllTrace([], |c.spiders|, w1.value, false, w2.value, Drain(c.queues.stop, Stop)))
  }

  /** A completed `wait_all` is the tail of the protocol from the point
      where every spider has been started, without the stops. */
  lemma WaitAllFollowsProtocol(c: Ctrl, arrivals1: seq<seq<RuntimeCall>>, obs1: seq<bool>, arrivals2: seq<seq<RuntimeCall>>, obs2: seq<bool>)
    requires |arrivals1| == |obs1| && |arrivals2| == |obs2|
    requires WaitAll(c, arrivals1, obs1, arrivals2, obs2).Some?
    ensures Run(|c.spiders|, false, SpidersStarting(|c.spiders|), WaitAll(c, arrivals1, obs1, arrivals2, obs2).value) == Some(Finished)
  {
    var n := |c.spiders|;
    var w1 := WaitFor(c.runtime, arrivals1, obs1).value;
    var w2 := WaitFor([], arrivals2, obs2).value;
    var last := [RanStop(Drain(c.queues.stop, Stop))];
    WaitRunsFrom(n, false, SpidersStarting(n), 1, c.runtime, arrivals1, obs1);
    WaitRunsFrom(n, false, WaitDone(1), 2, [], arrivals2, obs2);
    RunAppend(n, false, SpidersStarting(n), w1, w2);
    RunOne(n, false, WaitDone(2), last[0]);
    RunAppend(n, false, SpidersStarting(n), w1 + w2, last);
  }

  // stop_all ----------------------------------------------------------------

  /** An actor `stop_all` cannot stop: neither stopped nor running (never
      started, or its thread ended without a normal stop). */
  predicate Refuses(s: Status) {
    !IsStopped(s) && !IsRunning(s)
  }

  /** What `stop_all` leaves an actor it reached in: a stopped actor is
      skipped, a running one is asked to stop. */
  function StopTarget(s: Status): Status {
    if IsStopped(s) then Stopped else StopRequested
  }

  /** How many actors, from the front, `stop_all` reaches before a
      refusal. */
  function Reach(xs: seq<Status>): (k: nat)
    ensures k <= |xs|
    ensures forall i :: 0 <= i < k ==> !Refuses(xs[i])
    ensures k < |xs| ==> Refuses(xs[k])
    decreases |xs|
  {
    if xs == [] || Refuses(xs[0]) then 0 else 1 + Reach(xs[1..])
  }

  /** The loop of `stop_all` over a list of actors: a stopped actor is
      skipped, any other is sent `stop()`, and the first refusal ends the
      loop with the error it raises. */
  function StopEach(xs: seq<Status>): (r: (seq<Status>, Option<PyError>))
    ensures |r.0| == |xs|
    ensures r.1.Some? ==> r.1.value == AssertionError
    decreases |xs|
  {
    if xs == [] then ([], None)
    else if IsStopped(xs[0]) then
      var rest := StopEach(xs[1..]);
      ([xs[0]] + rest.0, rest.1)
    else
      match StopActor(xs[0])
      case Err(e) => (xs, Some(e))
      case Ok(s) =>
        var rest := StopEach(xs[1..]);
        ([s] + rest.0, rest.1)
  }

  /** The loop reaches exactly the actors before the first refusal: those
      are stopped or asked to stop, the refusal raises, and the actors from
      the refusal on are untouched. */
  lemma {:induction false} StopEachMeaning(xs: seq<Status>)
    ensures StopEach(xs).1.Some? <==> Reach(xs) < |xs|
    ensures StopEach(xs).0[Reach(xs)..] == xs[Reach(xs)..]
    ensures forall i :: 0 <= i < Reach(xs) ==> StopEach(xs).0[i] == StopTarget(xs[i])
    decreases |xs|
  {
    if xs != [] && !Refuses(xs[0]) {
      StopEachMeaning(xs[1..]);
      var ys := StopEach(xs).0;
      var rest := StopEach(xs[1..]).0;
      assert ys == [ys[0]] + rest;
      assert ys[0] == StopTarget(xs[0]);
      var k := Reach(xs);
      assert ys[k..] == rest[k - 1..];
      assert xs[k..] == xs[1..][k - 1..];
      forall i | 1 <= i < k
        ensures ys[i] == StopTarget(xs[i])
      {
        assert ys[i] == rest[i - 1] && xs[i] == xs[1..][i - 1];
      }
    }
  }

  /** The actors in the order `stop_all` visits them: the fetcher, the
      saver, then the spiders. */
  function Actors(c: Ctrl): (xs: seq<Status>)
    ensures |xs| == |c.spiders| + 2
  {
    [c.fetcher, c.saver] + Statuses(c.spiders)
  }

  function WithStatuses(spiders: seq<SpiderEntry>, st: seq<Status>): (r: seq<SpiderEntry>)
    requires |st| == |spiders|
    ensures |r| == |spiders| && Statuses(r) == st
    ensures forall i :: 0 <= i < |spiders| ==> r[i].spider == spiders[i].spider
  {
    var r := seq(|spiders|, i requires 0 <= i < |spiders| => spiders[i].(status := st[i]));
    assert Statuses(r) == st;
    r
  }

  /** `stop_all`. Without a refusal every actor ends up stopped or asked
      to stop; with one, AssertionError is raised once every actor before
      it was handled, and it and the actors after it are untouched. Either
      way only statuses change. */
  function StopAll(c: Ctrl): (r: (Ctrl, Option<PyError>))
    ensures r.1.None? <==> forall i :: 0 <= i < |Actors(c)| ==> !Refuses(Actors(c)[i])
    ensures r.1.Some? ==> r.1.value == AssertionError
    ensures |Actors(r.0)| == |Actors(c)|
    ensures forall i :: 0 <= i < Reach(Actors(c)) ==> Actors(r.0)[i] == StopTarget(Actors(c)[i])
    ensures Actors(r.0)[Reach(Actors(c))..] == Actors(c)[Reach(Actors(c))..]
    ensures r.0 == c.(fetcher := r.0.fetcher, saver := r.0.saver, spiders := r.0.spiders)
    ensures forall i :: 0 <= i < |c.spiders| ==> r.0.spiders[i].spider == c.spiders[i].spider
  {
    var xs := Actors(c);
    var ys := StopEach(xs).0;
    StopEachMeaning(xs);
    var r := c.(fetcher := ys[0], saver := ys[1], spiders := WithStatuses(c.spiders, ys[2..]));
    assert Actors(r) == ys by {
      assert ys == [ys[0], ys[1]] + ys[2..];
    }
    (r, StopEach(xs).1)
  }
}

=== FILE: data.dfy ===
/** `DefinedKeysDict`, a mutable mapping over a fixed, declared key tuple,
    and `FrozenDict`, an immutable mapping with a cached XOR hash
    (AsyncSpider/data.py). */
module Data {
  import opened Wrappers
  import opened PyDict

  /** Keys are attribute and keyword names. */
  type Key = string

  // ---------------------------------------------------------------------
  // DefinedKeysDict
  // ---------------------------------------------------------------------

  /** An instance of a DefinedKeysDict class: the class's declared key tuple
      and the values of the keys that are set. The source keeps one list slot
      per declared key and a private marker object for "unset"; a key absent
      from `vals` is a slot holding that marker. */
  datatype DKDict<V> = DKDict(keys: seq<Key>, vals: map<Key, V>)

  /** The metaclass builds `_key2index` from the key tuple, so a well-formed
      class declares each key once; only declared keys can hold values. */
  ghost predicate Valid<V>(d: DKDict<V>) {
    NoDuplicates(d.keys) && forall k :: k in d.vals ==> k in d.keys
  }

  /** `ks` is `keys` with some elements left out, order kept. */
  ghost predicate Subsequence(ks: seq<Key>, keys: seq<Key>)
    decreases |keys|
  {
    if ks == [] then true
    else if keys == [] then false
    else
      (ks[|ks| - 1] == keys[|keys| - 1] && Subsequence(ks[..|ks| - 1], keys[..|keys| - 1]))
      || Subsequence(ks, keys[..|keys| - 1])
  }

  /** The declared keys, as `all_keys()` reports them. */
  function AllKeys<V>(d: DKDict<V>): seq<Key> {
    d.keys
  }

  /** `self._values = [marker] * self._key_num`. */
  function Blank<V>(keys: seq<Key>): (r: DKDict<V>)
    requires NoDuplicates(keys)
    ensures Valid(r) && r.keys == keys && r.vals == map[]
  {
    DKDict(keys, map[])
  }

  /** `__getitem__`: undeclared keys and declared-but-unset keys raise KeyError. */
  function Get<V>(d: DKDict<V>, k: Key): (r: Result<V>)
    requires Valid(d)
    ensures r.Ok? <==> k in d.keys && k in d.vals
    ensures r.Ok? ==> r.value == d.vals[k]
    ensures r.Err? ==> r.error == KeyError
  {
    if k !in d.keys then Err(KeyError)
    else if k !in d.vals then Err(KeyError)
    else Ok(d.vals[k])
  }

  /** `__setitem__`: only declared keys may be written; no other key changes. */
  function Set<V>(d: DKDict<V>, k: Key, v: V): (r: Result<DKDict<V>>)
    requires Valid(d)
    ensures r.Ok? <==> k in d.keys
    ensures r.Err? ==> r.error == KeyError
    ensures r.Ok? ==> Valid(r.value) && r.value.keys == d.keys
    ensures r.Ok? ==> k in r.value.vals && r.value.vals[k] == v && forall j :: j != k ==> (j in r.value.vals <==> j in d.vals)
    ensures r.Ok? ==> forall j :: j != k && j in d.vals ==> r.value.vals[j] == d.vals[j]
  {
    if k !in d.keys then Err(KeyError)
    else Ok(DKDict(d.keys, d.vals[k := v]))
  }

  /** `__delitem__`: a declared key becomes unset (set or not); an undeclared key raises. */
  function Del<V>(d: DKDict<V>, k: Key): (r: Result<DKDict<V>>)
    requires Valid(d)
    ensures r.Ok? <==> k in d.keys
    ensures r.Err? ==> r.error == KeyError
    ensures r.Ok? ==> Valid(r.value) && r.value.keys == d.keys && k !in r.value.vals
    ensures r.Ok? ==> forall j :: j != k ==> (j in r.value.vals <==> j in d.vals)
    ensures r.Ok? ==> forall j :: j != k && j in d.vals ==> r.value.vals[j] == d.vals[j]
  {
    if k !in d.keys then Err(KeyError)
    else Ok(DKDict(d.keys, d.vals - {k}))
  }

  /** `__len__` counts the declared keys, however many are set. */
  function Len<V>(d: DKDict<V>): (n: nat)
    requires Valid(d)
    ensures n == |d.keys| && n >= |d.vals|
  {
    ValsSize(d);
    |d.keys|
  }

  lemma ValsSize<V>(d: DKDict<V>)
    requires Valid(d)
    ensures |d.vals| <= |d.keys|
  {
    var s := set k | k in d.keys;
    assert d.vals.Keys <= s;
    SetOfSeqSize(d.keys);
    assert |d.vals.Keys| <= |s| by { SubsetSize(d.vals.Keys, s); }
  }

  lemma SubsetSize<T>(a: set<T>, b: set<T>)
    requires a <= b
    ensures |a| <= |b|
  {
    assert b == a + (b - a);
  }

  lemma {:induction false} SetOfSeqSize<T>(s: seq<T>)
    ensures |set x | x in s| <= |s|
  {
    if s != [] {
      SetOfSeqSize(s[1..]);
      assert (set x | x in s) == (set x | x in s[1..]) + {s[0]};
    }
  }

  /** `__iter__`: exactly the set keys, once each, in declaration order. */
  method Iter<V>(d: DKDict<V>) returns (ks: seq<Key>)
    requires Valid(d)
    ensures forall k :: k in ks <==> k in d.vals
    ensures NoDuplicates(ks)
    ensures Subsequence(ks, d.keys)
  {
    ks := [];
    var i := 0;
    while i < |d.keys|
      invariant 0 <= i <= |d.keys|
      invariant forall k :: k in ks <==> k in d.vals && k in d.keys[..i]
      invariant NoDuplicates(ks)
      invariant Subsequence(ks, d.keys[..i])
    {
      assert d.keys[..i + 1][..i] == d.keys[..i];
      if d.keys[i] in d.vals {
        assert d.keys[i] !in d.keys[..i];
        ks := ks + [d.keys[i]];
      }
      i := i + 1;
    }
    assert d.keys[..i] == d.keys;
  }

  /** `pop(key[, default])`: the value is returned and the key unset; a
      missing value yields the default, or KeyError when none was given. */
  function Pop<V>(d: DKDict<V>, k: Key, default: Option<V>): (r: Result<(V, DKDict<V>)>)
    requires Valid(d)
    ensures k in d.vals ==>
      r.Ok? && r.value.0 == d.vals[k] && Valid(r.value.1) && r.value.1.vals == d.vals - {k}
    ensures k !in d.vals && default.Some? ==> r == Ok((default.value, d))
    ensures k !in d.vals && default.None? ==> r == Err(KeyError)
    ensures r.Ok? ==> r.value.1.keys == d.keys
  {
    match Get(d, k)
    case Err(e) => if default.None? then Err(e) else Ok((default.value, d))
    case Ok(v) =>
      var d' := Del(d, k);
      Ok((v, d'.value))
  }

  /** `clear()`: every key unset, the declaration kept. */
  function Clear<V>(d: DKDict<V>): (r: DKDict<V>)
    requires Valid(d)
    ensures Valid(r) && r.keys == d.keys && |r.vals| == 0
  {
    Blank(d.keys)
  }

  /** `update(**kwargs)` on a fresh instance: keyword entries are written in
      order, and the first undeclared one raises KeyError. */
  function Update<V>(d: DKDict<V>, kw: seq<(Key, V)>): (r: Result<DKDict<V>>)
    requires Valid(d)
    ensures r.Ok? <==> forall i :: 0 <= i < |kw| ==> kw[i].0 in d.keys
    ensures r.Err? ==> r.error == KeyError
    ensures r.Ok? ==> Valid(r.value) && r.value.keys == d.keys
    decreases |kw|
  {
    if kw == [] then Ok(d)
    else
      match Set(d, kw[0].0, kw[0].1)
      case Err(e) => Err(e)
      case Ok(d') =>
        var r := Update(d', kw[1..]);
        assert forall i :: 1 <= i < |kw| ==> kw[1..][i - 1] == kw[i];
        r
  }

  /** A successful update leaves the keyword dict's entries over the old contents. */
  lemma {:induction false} UpdateContents<V>(d: DKDict<V>, kw: Dict<Key, V>)
    requires Valid(d) && PyDict.Valid(kw)
    requires Update(d, Items(kw)).Ok?
    ensures Update(d, Items(kw)).value.vals == d.vals + kw.m
    decreases |kw.order|
  {
    if kw.order == [] {
      assert kw.m == map[];
    } else {
      var k := kw.order[0];
      var rest := Dict(kw.order[1..], kw.m - {k});
      RestValid(kw);
      ItemsTail(kw);
      var ps := Items(kw);
      assert ps[0] == (k, kw.m[k]);
      var d' := Set(d, k, kw.m[k]).value;
      assert Update(d, ps) == Update(d', ps[1..]);
      UpdateContents(d', rest);
      assert d'.vals == d.vals[k := kw.m[k]];
      MergeSplit(d.vals, kw.m, k);
    }
  }

  /** Merging `m` is writing its entry for `k` and then merging the rest. */
  lemma MergeSplit<V>(a: map<Key, V>, m: map<Key, V>, k: Key)
    requires k in m
    ensures a + m == a[k := m[k]] + (m - {k})
  {
  }

  lemma RestValid<V>(kw: Dict<Key, V>)
    requires PyDict.Valid(kw) && kw.order != []
    ensures PyDict.Valid(Dict(kw.order[1..], kw.m - {kw.order[0]}))
  {
    var rest := Dict(kw.order[1..], kw.m - {kw.order[0]});
    assert kw.order == [kw.order[0]] + kw.order[1..];
    assert kw.order[0] !in kw.order[1..];
  }

  lemma ItemsTail<V>(kw: Dict<Key, V>)
    requires PyDict.Valid(kw) && kw.order != []
    ensures PyDict.Valid(Dict(kw.order[1..], kw.m - {kw.order[0]}))
    ensures Items(kw)[1..] == Items(Dict(kw.order[1..], kw.m - {kw.order[0]}))
  {
    RestValid(kw);
    var rest := Dict(kw.order[1..], kw.m - {kw.order[0]});
    assert forall i :: 0 <= i < |rest.order| ==> rest.order[i] == kw.order[i + 1] && rest.order[i] != kw.order[0];
  }

  /** `__init__(**kwargs)`: KeyError unless every keyword is declared. */
  function New<V>(keys: seq<Key>, kw: Dict<Key, V>): (r: Result<DKDict<V>>)
    requires NoDuplicates(keys) && PyDict.Valid(kw)
    ensures r.Ok? <==> forall k :: k in kw.m ==> k in keys
    ensures r.Err? ==> r.error == KeyError
    ensures r.Ok? ==> Valid(r.value) && r.value.keys == keys && r.value.vals == kw.m
  {
    var r := Update(Blank(keys), Items(kw));
    assert (forall k :: k in kw.m ==> k in keys) <==> (forall i :: 0 <= i < |Items(kw)| ==> Items(kw)[i].0 in keys) by {
      assert forall k :: k in kw.m ==> Items(kw)[IndexOf(kw.order, k)].0 == k;
    }
    if r.Ok? then UpdateContents(Blank(keys), kw); r else r
  }

  /** The set keys among `keys[..i]`, in order. */
  function SetKeys<V>(d: DKDict<V>, i: nat): (ks: seq<Key>)
    requires Valid(d) && i <= |d.keys|
    ensures NoDuplicates(ks)
    ensures forall k :: k in ks <==> k in d.vals && k in d.keys[..i]
    decreases i
  {
    if i == 0 then []
    else
      assert d.keys[..i - 1] == d.keys[..i][..i - 1];
      var init := SetKeys(d, i - 1);
      if d.keys[i - 1] in d.vals then
        assert d.keys[i - 1] !in d.keys[..i - 1];
        init + [d.keys[i - 1]]
      else init
  }

  /** The instance as the keyword dict `**self` passes: its set entries. */
  function AsKwargs<V>(d: DKDict<V>): (kw: Dict<Key, V>)
    requires Valid(d)
    ensures PyDict.Valid(kw) && kw.m == d.vals
  {
    var ks := SetKeys(d, |d.keys|);
    assert d.keys[..|d.keys|] == d.keys;
    Dict(ks, d.vals)
  }

  /** `copy()`, i.e. `self.__class__(**self)`, rebuilds an equal instance. */
  lemma CopyIsEqual<V>(d: DKDict<V>)
    requires Valid(d)
    ensures New(d.keys, AsKwargs(d)) == Ok(d)
  {
  }

  // ---------------------------------------------------------------------
  // FrozenDict
  // ---------------------------------------------------------------------

  /** An immutable mapping; `cache` is the `_hash` slot, `None` until the
      first `__hash__`. There are no mutators: every operation below returns
      the contents unchanged. */
  datatype FrozenDict<V> = FrozenDict(d: Dict<Key, V>, cache: Option<bv64>)

  /** `FrozenDict(*args, **kwargs)`: `dict(...)` of the arguments. */
  function Freeze<V>(ps: seq<(Key, V)>): (f: FrozenDict<V>)
    ensures PyDict.Valid(f.d) && f.d.m.Keys == PairKeys(ps) && f.cache == None
  {
    FrozenDict(FromPairs(ps), None)
  }

  /** `__getitem__`: KeyError for an absent key. */
  function Lookup<V>(f: FrozenDict<V>, k: Key): (r: Result<V>)
    ensures r.Ok? <==> k in f.d.m
    ensures r.Ok? ==> r.value == f.d.m[k]
    ensures r.Err? ==> r.error == KeyError
  {
    if k in f.d.m then Ok(f.d.m[k]) else Err(KeyError)
  }

  /** `hash(pair)` for the item `(k, m[k])`: TypeError (or whatever the
      oracle raises) when the value is unhashable. */
  function ItemHash<V>(m: map<Key, V>, h: (Key, V) -> Result<bv64>): Key -> Result<bv64> {
    k => if k in m then h(k, m[k]) else Ok(0)
  }

  /** The item hashes as plain numbers, for keys whose hash succeeds. */
  function Values(g: Key -> Result<bv64>): Key -> bv64 {
    k => if g(k).Ok? then g(k).value else 0
  }

  /** Every key in `ks` hashes without raising. */
  predicate Hashable(ks: seq<Key>, g: Key -> Result<bv64>) {
    forall i :: 0 <= i < |ks| ==> g(ks[i]).Ok?
  }

  /** The position of the first key whose hash raises, `|ks|` if none. */
  function FirstFailure(ks: seq<Key>, g: Key -> Result<bv64>): (i: nat)
    ensures i <= |ks|
    ensures i < |ks| ==> g(ks[i]).Err?
    ensures forall j :: 0 <= j < i ==> g(ks[j]).Ok?
    decreases |ks|
  {
    if ks == [] || g(ks[0]).Err? then 0 else 1 + FirstFailure(ks[1..], g)
  }

  /** XOR of `g` over the keys, in order. */
  function XorAll(ks: seq<Key>, g: Key -> bv64): bv64 {
    if ks == [] then 0 else g(ks[0]) ^ XorAll(ks[1..], g)
  }

  /** What the loop `for pair in self.items(): self._hash ^= hash(pair)`
      leaves in `_hash` (starting from 0), and the error that stopped it.
      XOR is associative, so folding from the right gives the value the
      loop accumulates from the left. */
  datatype Scan = Scan(acc: bv64, error: Option<PyError>)

  function XorScan(ks: seq<Key>, g: Key -> Result<bv64>): Scan
    decreases |ks|
  {
    if ks == [] then Scan(0, None)
    else
      match g(ks[0])
      case Err(e) => Scan(0, Some(e))
      case Ok(x) =>
        var rest := XorScan(ks[1..], g);
        Scan(x ^ rest.acc, rest.error)
  }

  /** The loop stops at the first unhashable item, with that item's error;
      it completes exactly when every item hashes. */
  lemma {:induction false} XorScanError(ks: seq<Key>, g: Key -> Result<bv64>)
    ensures var i := FirstFailure(ks, g);
      && (XorScan(ks, g).error.None? <==> i == |ks|)
      && (i < |ks| ==> XorScan(ks, g).error == Some(g(ks[i]).error))
    decreases |ks|
  {
    if ks != [] && g(ks[0]).Ok? {
      XorScanError(ks[1..], g);
    }
  }

  /** When the loop stops, `_hash` holds the XOR of the items before the
      first unhashable one. */
  lemma {:induction false} XorScanAcc(ks: seq<Key>, g: Key -> Result<bv64>)
    ensures XorScan(ks, g).acc == XorAll(ks[..FirstFailure(ks, g)], Values(g))
    decreases |ks|
  {
    if ks == [] || g(ks[0]).Err? {
      assert ks[..0] == [];
    } else {
      var j := FirstFailure(ks[1..], g);
      XorScanAcc(ks[1..], g);
      assert FirstFailure(ks, g) == j + 1;
      assert Values(g)(ks[0]) == g(ks[0]).value;
      XorAllConsPrefix(ks, j, Values(g));
    }
  }

  /** Unfolding `XorAll` once on a prefix. */
  lemma XorAllConsPrefix(ks: seq<Key>, j: nat, g: Key -> bv64)
    requires j + 1 <= |ks|
    ensures XorAll(ks[..j + 1], g) == g(ks[0]) ^ XorAll(ks[1..][..j], g)
  {
    var p := ks[..j + 1];
    assert p[1..] == ks[1..][..j];
  }

  /** A cache, once filled, holds the XOR of the current contents, all of
      which are hashable. */
  ghost predicate CacheOk<V>(f: FrozenDict<V>, h: (Key, V) -> Result<bv64>) {
    && PyDict.Valid(f.d)
    && (f.cache.Some? ==> Hashable(f.d.order, ItemHash(f.d.m, h))
                          && f.cache.value == XorAll(f.d.order, Values(ItemHash(f.d.m, h))))
  }

  /** `__hash__` as written: with no cached value, `_hash` is set to 0
      before the loop and updated item by item, so an unhashable item
      raises and leaves the XOR of the items before it in `_hash`. Later
      calls return that value without raising. */
  function Hash<V>(f: FrozenDict<V>, h: (Key, V) -> Result<bv64>): (r: (Result<bv64>, FrozenDict<V>))
    requires PyDict.Valid(f.d)
    ensures f.cache.Some? ==> r == (Ok(f.cache.value), f)
    ensures r.1.d == f.d && r.1.cache.Some?
    ensures f.cache.None? ==> var g := ItemHash(f.d.m, h); var i := FirstFailure(f.d.order, g);
      && r.1.cache.value == XorAll(f.d.order[..i], Values(g))
      && (r.0.Ok? <==> i == |f.d.order|)
      && (i < |f.d.order| ==> r.0 == Err(g(f.d.order[i]).error))
      && (r.0.Ok? ==> r.0.value == XorAll(f.d.order, Values(g)))
  {
    match f.cache
    case Some(v) => (Ok(v), f)
    case None =>
      var g := ItemHash(f.d.m, h);
      var scan := XorScan(f.d.order, g);
      XorScanError(f.d.order, g);
      XorScanAcc(f.d.order, g);
      assert f.d.order[..|f.d.order|] == f.d.order;
      var f' := FrozenDict(f.d, Some(scan.acc));
      if scan.error.Some? then (Err(scan.error.value), f') else (Ok(scan.acc), f')
  }

  /** The evidently intended `__hash__`: the XOR is accumulated apart and
      stored only once every item has hashed, so a failure leaves the
      instance as it was. */
  function HashFixed<V>(f: FrozenDict<V>, h: (Key, V) -> Result<bv64>): (r: (Result<bv64>, FrozenDict<V>))
    requires CacheOk(f, h)
    ensures CacheOk(r.1, h) && r.1.d == f.d
    ensures r.0.Ok? <==> Hashable(f.d.order, ItemHash(f.d.m, h))
    ensures r.0.Ok? ==> r.0.value == XorAll(f.d.order, Values(ItemHash(f.d.m, h))) && r.1.cache == Some(r.0.value)
    ensures r.0.Err? ==> r.1 == f
    ensures f.cache.Some? ==> r.1 == f
  {
    match f.cache
    case Some(v) => (Ok(v), f)
    case None =>
      var g := ItemHash(f.d.m, h);
      var scan := XorScan(f.d.order, g);
      XorScanError(f.d.order, g);
      XorScanAcc(f.d.order, g);
      assert f.d.order[..|f.d.order|] == f.d.order;
      if scan.error.Some? then (Err(scan.error.value), f) else (Ok(scan.acc), FrozenDict(f.d, Some(scan.acc)))
  }

  /** As written, a failed hash poisons the cache: the call after a failure
      succeeds, with a value that is not the hash of the contents. */
  lemma HashFailureIsCached<V>(f: FrozenDict<V>, h: (Key, V) -> Result<bv64>)
    requires PyDict.Valid(f.d) && f.cache.None? && !Hashable(f.d.order, ItemHash(f.d.m, h))
    ensures Hash(f, h).0.Err?
    ensures Hash(Hash(f, h).1, h).0.Ok? && !CacheOk(Hash(f, h).1, h)
  {
  }

  /** `FrozenDict(a=[1])`: the first `hash()` raises TypeError, the second
      returns 0. */
  lemma UnhashableValueHashesToZero<V>(x: V, h: (Key, V) -> Result<bv64>)
    requires h("a", x) == Err(TypeError)
    ensures var f := Freeze([("a", x)]);
      && Hash(f, h).0 == Err(TypeError)
      && Hash(Hash(f, h).1, h).0 == Ok(0)
  {
  }

  /** With the store deferred, a failing hash keeps failing: the instance is
      unchanged, so asking again gives the same error. */
  lemma FixedHashFailsAgain<V>(f: FrozenDict<V>, h: (Key, V) -> Result<bv64>)
    requires CacheOk(f, h) && !Hashable(f.d.order, ItemHash(f.d.m, h))
    ensures HashFixed(f, h).0.Err? && HashFixed(f, h).1 == f
    ensures HashFixed(HashFixed(f, h).1, h) == HashFixed(f, h)
  {
  }

  /** On hashable contents the two readings agree. */
  lemma HashesAgreeWhenHashable<V>(f: FrozenDict<V>, h: (Key, V) -> Result<bv64>)
    requires CacheOk(f, h) && Hashable(f.d.order, ItemHash(f.d.m, h))
    ensures Hash(f, h) == HashFixed(f, h)
  {
  }

  lemma {:induction false} XorAllAppend(a: seq<Key>, b: seq<Key>, g: Key -> bv64)
    ensures XorAll(a + b, g) == XorAll(a, g) ^ XorAll(b, g)
  {
    if a != [] {
      assert (a + b)[0] == a[0];
      assert (a + b)[1..] == a[1..] + b;
      XorAllAppend(a[1..], b, g);
      XorAssoc(g(a[0]), XorAll(a[1..], g), XorAll(b, g));
    } else {
      assert a + b == b;
      XorZero(XorAll(b, g));
    }
  }

  lemma XorAssoc(x: bv64, y: bv64, z: bv64)
    ensures x ^ (y ^ z) == (x ^ y) ^ z
  {
  }

  lemma XorZero(x: bv64)
    ensures 0 ^ x == x
  {
  }

  /** Taking one element out of a list: its multiset and its XOR. */
  lemma RemoveAt(b: seq<Key>, i: nat, g: Key -> bv64)
    requires i < |b|
    ensures multiset(b[..i] + b[i + 1..]) == multiset(b) - multiset([b[i]])
    ensures XorAll(b, g) == g(b[i]) ^ XorAll(b[..i] + b[i + 1..], g)
  {
    RemoveAtMultiset(b, i);
    RemoveAtXor(b, i, g);
  }

  lemma RemoveAtMultiset(b: seq<Key>, i: nat)
    requires i < |b|
    ensures multiset(b[..i] + b[i + 1..]) == multiset(b) - multiset([b[i]])
  {
    assert b == b[..i] + [b[i]] + b[i + 1..];
  }

  lemma RemoveAtXor(b: seq<Key>, i: nat, g: Key -> bv64)
    requires i < |b|
    ensures XorAll(b, g) == g(b[i]) ^ XorAll(b[..i] + b[i + 1..], g)
  {
    var p, rest := b[..i], b[i + 1..];
    var a, x, r := XorAll(p, g), g(b[i]), XorAll(rest, g);
    XorAllSplit(b, i, g);
    XorAllAppend(p, rest, g);
    XorSwap(a, x, r);
  }

  /** The XOR of a list around one of its elements. */
  lemma XorAllSplit(b: seq<Key>, i: nat, g: Key -> bv64)
    requires i < |b|
    ensures XorAll(b, g) == XorAll(b[..i], g) ^ (g(b[i]) ^ XorAll(b[i + 1..], g))
  {
    var p, rest := b[..i], b[i + 1..];
    assert b == p + ([b[i]] + rest);
    XorAllAppend(p, [b[i]] + rest, g);
    assert ([b[i]] + rest)[1..] == rest;
  }

  lemma XorSwap(p: bv64, x: bv64, q: bv64)
    ensures p ^ (x ^ q) == x ^ (p ^ q)
  {
  }

  /** The XOR of the items does not depend on the order they are visited in. */
  lemma {:induction false} XorAllPermutation(a: seq<Key>, b: seq<Key>, g: Key -> bv64)
    requires multiset(a) == multiset(b)
    ensures XorAll(a, g) == XorAll(b, g)
    decreases |a|
  {
    if a == [] {
      assert |b| == |multiset(b)| == 0;
    } else {
      var x := a[0];
      assert x in multiset(b);
      var i := IndexOf(b, x);
      var b' := b[..i] + b[i + 1..];
      RemoveAtMultiset(b, i);
      RemoveAtMultiset(a, 0);
      assert a[..0] + a[1..] == a[1..];
      XorAllPermutation(a[1..], b', g);
      PermutationStep(a, b, i, g);
    }
  }

  /** Matching the head of `a` with `b[i]`: equal XORs of the rests give
      equal XORs. */
  lemma PermutationStep(a: seq<Key>, b: seq<Key>, i: nat, g: Key -> bv64)
    requires a != [] && i < |b| && b[i] == a[0]
    requires XorAll(a[1..], g) == XorAll(b[..i] + b[i + 1..], g)
    ensures XorAll(a, g) == XorAll(b, g)
  {
    RemoveAtXor(b, i, g);
  }

  /** Two duplicate-free lists of the same keys are permutations of each other. */
  lemma {:induction false} DistinctMultiset(s: seq<Key>)
    requires NoDuplicates(s)
    ensures forall k :: multiset(s)[k] == if k in s then 1 else 0
  {
    if s != [] {
      DistinctMultiset(s[1..]);
      assert s == [s[0]] + s[1..];
      assert s[0] !in s[1..];
    }
  }

  /** Two lists holding the same keys are hashable together or not at all. */
  lemma HashableSameKeys(a: seq<Key>, b: seq<Key>, g: Key -> Result<bv64>)
    requires forall k :: k in a <==> k in b
    ensures Hashable(a, g) <==> Hashable(b, g)
  {
    if Hashable(a, g) {
      forall i | 0 <= i < |b| ensures g(b[i]).Ok? {
        assert b[i] in b;
        assert g(a[IndexOf(a, b[i])]).Ok?;
      }
    }
    if Hashable(b, g) {
      forall i | 0 <= i < |a| ensures g(a[i]).Ok? {
        assert a[i] in a;
        assert g(b[IndexOf(b, a[i])]).Ok?;
      }
    }
  }

  /** Equal contents give equal hashes, whatever order the entries were
      inserted in: both hash or neither does, and the values agree. (Which
      item's error is raised does depend on the order.) */
  lemma HashIgnoresInsertionOrder<V>(f: FrozenDict<V>, g: FrozenDict<V>, h: (Key, V) -> Result<bv64>)
    requires CacheOk(f, h) && CacheOk(g, h)
    requires f.d.m == g.d.m
    ensures HashFixed(f, h).0.Ok? <==> HashFixed(g, h).0.Ok?
    ensures HashFixed(f, h).0.Ok? ==> HashFixed(f, h).0 == HashFixed(g, h).0
  {
    var G := ItemHash(f.d.m, h);
    assert forall k :: k in f.d.order <==> k in f.d.m;
    assert forall k :: k in g.d.order <==> k in g.d.m;
    HashableSameKeys(f.d.order, g.d.order, G);
    DistinctMultiset(f.d.order);
    DistinctMultiset(g.d.order);
    assert multiset(f.d.order) == multiset(g.d.order);
    XorAllPermutation(f.d.order, g.d.order, Values(G));
  }

  /** Hashing twice gives the same value and leaves the contents untouched. */
  lemma HashIsStable<V>(f: FrozenDict<V>, h: (Key, V) -> Result<bv64>)
    requires CacheOk(f, h)
    ensures HashFixed(HashFixed(f, h).1, h) == HashFixed(f, h)
  {
  }
}

=== FILE: executor.dfy ===
/** The five-state executor of AsyncSpider/base.py: `ExecutorState`,
    `CallbackExecutor`, `AioExecutor._run` and its guards, and
    `AioThreadExecutor`.

    The event loop and the thread are abstract. What the model keeps is the
    state, the two callback queues, how many tasks were created on the loop,
    whether a stop was requested, and a trace of what `_run` did, each event
    stamped with the state it happened in. */
module Executor {
  import opened Wrappers
  import opened Callbacks
  import opened Trace

  /** `ExecutorState`, an `IntEnum` numbered 0..4. */
  datatype ExecutorState = Initial | Starting | Running | Stopping | Stopped

  function Rank(s: ExecutorState): (n: nat)
    ensures n == 0 <==> s == Initial
    ensures n == 1 <==> s == Starting
    ensures n == 2 <==> s == Running
    ensures n == 3 <==> s == Stopping
    ensures n == 4 <==> s == Stopped
  {
    match s
    case Initial => 0
    case Starting => 1
    case Running => 2
    case Stopping => 3
    case Stopped => 4
  }

  /** `is_initial()`, `is_starting()`, `is_running()`, `is_stopping()`,
      `is_stopped()`, in that order: exactly one holds. */
  function Predicates(s: ExecutorState): (ps: seq<bool>)
    ensures |ps| == 5
    ensures ps[Rank(s)]
    ensures forall i :: 0 <= i < 5 && i != Rank(s) ==> !ps[i]
  {
    [s == Initial, s == Starting, s == Running, s == Stopping, s == Stopped]
  }

  type Ev = Event<ExecutorState>

  datatype ThreadPhase = NoThread | Alive | Finished

  datatype Exec = Exec(
    state: ExecutorState,
    queues: Queues,
    tasks: nat,
    stopRequested: bool,
    thread: ThreadPhase,
    policy: CleanPolicy,
    trace: seq<Ev>)

  /** How far `_run` has got: the current state, and whether the loop has
      been cleaned and closed. */
  datatype Phase = Phase(state: ExecutorState, cleaned: bool, closed: bool)

  /** The protocol of `_run` as an automaton over events: a state is only
      entered from a lower one; callbacks run in the state they are stamped
      with, which is starting or stopping, and never after the loop was
      cleaned; the loop is cleaned once and closed after that. */
  function Consume(p: Option<Phase>, ev: Ev): Option<Phase> {
    match p
    case None => None
    case Some(ph) =>
      match ev
      case Entered(s) => if Rank(s) > Rank(ph.state) then Some(ph.(state := s)) else None
      case Ran(_, at) => if at == ph.state && (at == Starting || at == Stopping) && !ph.cleaned then p else None
      case Cleaned(_, _, at) => if at == ph.state && !ph.cleaned then Some(ph.(cleaned := true)) else None
      case LoopClosed(at) => if at == ph.state && ph.cleaned && !ph.closed then Some(ph.(closed := true)) else None
  }

  /** The phase a trace leads to from a new executor; `None` if the trace
      breaks the protocol. */
  function Replay(t: seq<Ev>): Option<Phase>
    decreases |t|
  {
    if t == [] then Some(Phase(Initial, false, false)) else Consume(Replay(t[..|t| - 1]), t[|t| - 1])
  }

  lemma ReplaySnoc(t: seq<Ev>, ev: Ev)
    ensures Replay(t + [ev]) == Consume(Replay(t), ev)
  {
    assert (t + [ev])[..|t|] == t;
  }

  /** Running callbacks in the current starting or stopping state keeps the
      phase. */
  lemma {:induction false} ReplayRan(t: seq<Ev>, cs: seq<Callback>, s: ExecutorState)
    requires Replay(t).Some? && Replay(t).value.state == s && !Replay(t).value.cleaned
    requires s == Starting || s == Stopping
    ensures Replay(t + RanEvents(cs, s)) == Replay(t)
    decreases |cs|
  {
    if cs == [] {
      assert t + RanEvents(cs, s) == t;
    } else {
      var init := cs[..|cs| - 1];
      ReplayRan(t, init, s);
      assert RanEvents(cs, s) == RanEvents(init, s) + [Ran(cs[|cs| - 1], s)];
      Assoc(t, RanEvents(init, s), [Ran(cs[|cs| - 1], s)]);
      ReplaySnoc(t + RanEvents(init, s), Ran(cs[|cs| - 1], s));
    }
  }

  /** Every trace the automaton accepts is ordered: entered states strictly
      increase and never exceed the current one, callbacks only run while
      starting or stopping, and no callback runs after the loop was
      cleaned. */
  lemma {:induction false} ReplayOrdered(t: seq<Ev>)
    requires Replay(t).Some?
    ensures forall i, j :: 0 <= i < j < |t| && t[i].Entered? && t[j].Entered? ==>
      Rank(t[i].status) < Rank(t[j].status)
    ensures forall i :: 0 <= i < |t| && t[i].Entered? ==> Rank(t[i].status) <= Rank(Replay(t).value.state)
    ensures forall i :: 0 <= i < |t| && t[i].Ran? ==> t[i].at == Starting || t[i].at == Stopping
    ensures forall i, j :: 0 <= i < j < |t| && t[i].Cleaned? ==> !t[j].Ran?
    ensures (exists i :: 0 <= i < |t| && t[i].Cleaned?) ==> Replay(t).value.cleaned
    decreases |t|
  {
    if t != [] {
      var init, ev := t[..|t| - 1], t[|t| - 1];
      assert t == init + [ev];
      ReplaySnoc(init, ev);
      ReplayOrdered(init);
      assert forall i :: 0 <= i < |init| ==> t[i] == init[i];
    }
  }

  /** Reachable executors between operations: the trace follows the
      protocol and leaves the executor in its current state, cleaned and
      closed exactly when stopped; nothing happened before the start; the
      thread is alive exactly while running. Starting and stopping are
      passed through inside one step and are never seen between steps. */
  ghost predicate Inv(e: Exec) {
    && Replay(e.trace) == Some(Phase(e.state, e.state == Stopped, e.state == Stopped))
    && (e.state == Initial ==> e.trace == [])
    && (e.state == Initial <==> e.thread == NoThread)
    && (e.state == Running <==> e.thread == Alive)
    && (e.state == Stopped <==> e.thread == Finished)
  }

  /** `AioExecutor()`: initial, nothing queued, nothing done. */
  function New(policy: CleanPolicy): (e: Exec)
    ensures Inv(e) && e.state == Initial && Predicates(e.state)[0]
    ensures e.queues == EmptyQueues() && e.tasks == 0
  {
    Exec(Initial, EmptyQueues(), 0, false, NoThread, policy, [])
  }

  /** `AioThreadExecutor()`: also queues `asyncio.set_event_loop` as the
      first start callback. */
  function NewThreaded(policy: CleanPolicy, setEventLoop: Callback): (e: Exec)
    ensures Inv(e) && e.state == Initial
    ensures e.queues.start == [setEventLoop] && e.queues.stop == []
  {
    var e0 := New(policy);
    e0.(queues := Call(e0.queues, Start, setEventLoop))
  }

  /** `call_on_start` / `call_on_stop`: accepted in any state. */
  function CallOn(e: Exec, w: Which, c: Callback): (r: Exec)
    requires Inv(e)
    ensures Inv(r) && r.state == e.state && r.trace == e.trace
    ensures Get(r.queues, w) == Get(e.queues, w) + [c]
    ensures Get(r.queues, Other(w)) == Get(e.queues, Other(w))
  {
    e.(queues := Call(e.queues, w, c))
  }

  /** `_check_before_stop`. */
  function CheckBeforeStop(e: Exec): (r: Result<()>)
    ensures r.Ok? <==> e.state != Stopping && e.state != Stopped
    ensures r.Err? ==> r.error == AssertionError
  {
    if e.state == Stopping || e.state == Stopped then Err(AssertionError) else Ok(())
  }

  /** The scheduling entry points. The coroutine ones create a task on the
      loop; the others schedule a call or a pool job. */
  datatype Scheduling = CallSoon | CallSoonThreadsafe | RunInThreadPool | RunInProcessPool | RunCoro | RunCoroThreadsafe

  function CreatesTask(k: Scheduling): bool {
    k == RunCoro || k == RunCoroThreadsafe
  }

  /** Every scheduling operation is refused once the executor is stopping
      or stopped. */
  function Schedule(e: Exec, k: Scheduling): (r: Result<Exec>)
    requires Inv(e)
    ensures r.Ok? <==> e.state != Stopping && e.state != Stopped
    ensures r.Err? ==> r.error == AssertionError
    ensures r.Ok? ==> Inv(r.value) && r.value.state == e.state && r.value.trace == e.trace
    ensures r.Ok? ==> r.value.tasks == e.tasks + (if CreatesTask(k) then 1 else 0)
  {
    var _ :- CheckBeforeStop(e);
    Ok(e.(tasks := e.tasks + if CreatesTask(k) then 1 else 0))
  }

  /** `AioThreadExecutor.stop()`: the same guard; schedules `loop.stop`. */
  function RequestStop(e: Exec): (r: Result<Exec>)
    requires Inv(e)
    ensures r.Ok? <==> e.state != Stopping && e.state != Stopped
    ensures r.Err? ==> r.error == AssertionError
    ensures r.Ok? ==> Inv(r.value) && r.value.state == e.state && r.value.stopRequested
    ensures r.Ok? ==> r.value.trace == e.trace && r.value.queues == e.queues
  {
    var _ :- CheckBeforeStop(e);
    Ok(e.(stopRequested := true))
  }

  /** `AioThreadExecutor.start()` followed by the first part of `_run` on
      the new thread: starting, the start callbacks drained, running. */
  function Begin(e: Exec): (r: Result<Exec>)
    requires Inv(e)
    ensures r.Ok? <==> e.state == Initial
    ensures r.Err? ==> r.error == AssertionError
    ensures r.Ok? ==> Inv(r.value) && r.value.state == Running && r.value.thread == Alive
    ensures r.Ok? ==> RanIn(r.value.trace, Starting) == Drain(e.queues.start, Start)
    ensures r.Ok? ==> r.value.queues == AfterDrain(e.queues, Start)
  {
    if e.state != Initial then Err(AssertionError)
    else
      var ran := Drain(e.queues.start, Start);
      BeginTrace(ran);
      Ok(e.(state := Running, queues := AfterDrain(e.queues, Start), thread := Alive, trace := StartPhase(ran)))
  }

  /** The events of the starting phase. */
  function StartPhase(ran: seq<Callback>): seq<Ev> {
    [Entered(Starting)] + RanEvents(ran, Starting) + [Entered(Running)]
  }

  lemma BeginTrace(ran: seq<Callback>)
    ensures Replay(StartPhase(ran)) == Some(Phase(Running, false, false))
    ensures RanIn(StartPhase(ran), Starting) == ran
  {
    var t0: seq<Ev> := [Entered(Starting)];
    ReplaySnoc([], Entered(Starting));
    assert [] + [Entered(Starting)] == t0;
    ReplayRan(t0, ran, Starting);
    ReplaySnoc(t0 + RanEvents(ran, Starting), Entered(Running));
    RanInAppend(t0, RanEvents(ran, Starting), Starting);
    RanInEvents(ran, Starting);
    RanInSnoc([], Entered(Starting), Starting);
    RanInSnoc(t0 + RanEvents(ran, Starting), Entered(Running), Starting);
  }

  /** The events from the loop's end to the stopped state. */
  function StopPhase(ran: seq<Callback>, raised: bool, policy: CleanPolicy, tasks: nat): seq<Ev> {
    var at := if raised then Running else Stopping;
    (if raised then [] else [Entered(Stopping)] + RanEvents(ran, Stopping))
      + [Cleaned(policy, tasks, at), LoopClosed(at), Entered(Stopped)]
  }

  /** The rest of `_run` once `run_forever` returns (a stop was requested)
      or raises: on return, stopping and the stop callbacks; then, in the
      `finally` block either way, the loop's tasks are cleaned, the loop is
      closed and the state becomes stopped. */
  function LoopEnds(e: Exec, raised: bool): (r: Exec)
    requires Inv(e) && e.state == Running && (e.stopRequested || raised)
    ensures Inv(r) && r.state == Stopped && r.thread == Finished && r.tasks == 0
    ensures RanIn(r.trace, Stopping) == if raised then [] else Drain(e.queues.stop, Stop)
    ensures Cleaned(e.policy, e.tasks, if raised then Running else Stopping) in r.trace
    ensures raised ==> r.queues == e.queues
    ensures !raised ==> r.queues == AfterDrain(e.queues, Stop)
  {
    var ran := Drain(e.queues.stop, Stop);
    LoopEndsTrace(e.trace, ran, raised, e.policy, e.tasks);
    e.(state := Stopped, queues := if raised then e.queues else AfterDrain(e.queues, Stop), tasks := 0,
       thread := Finished, trace := e.trace + StopPhase(ran, raised, e.policy, e.tasks))
  }

  lemma LoopEndsTrace(t: seq<Ev>, ran: seq<Callback>, raised: bool, policy: CleanPolicy, tasks: nat)
    requires Replay(t) == Some(Phase(Running, false, false))
    ensures Replay(t + StopPhase(ran, raised, policy, tasks)) == Some(Phase(Stopped, true, true))
    ensures RanIn(t + StopPhase(ran, raised, policy, tasks), Stopping) == if raised then [] else ran
    ensures Cleaned(policy, tasks, if raised then Running else Stopping) in t + StopPhase(ran, raised, policy, tasks)
  {
    var at := if raised then Running else Stopping;
    var stopPart: seq<Ev> := if raised then [] else [Entered(Stopping)] + RanEvents(ran, Stopping);
    var tail: seq<Ev> := [Cleaned(policy, tasks, at), LoopClosed(at), Entered(Stopped)];
    StopPart(t, ran, raised);
    Tail(t + stopPart, at, policy, tasks);
    Assoc(t, stopPart, tail);
  }

  lemma StopPart(t: seq<Ev>, ran: seq<Callback>, raised: bool)
    requires Replay(t) == Some(Phase(Running, false, false))
    ensures var stopPart: seq<Ev> := if raised then [] else [Entered(Stopping)] + RanEvents(ran, Stopping);
      && Replay(t + stopPart) == Some(Phase(if raised then Running else Stopping, false, false))
      && RanIn(t + stopPart, Stopping) == if raised then [] else ran
  {
    RanInNotYet(t);
    if raised {
      assert t + [] == t;
    } else {
      var t0 := t + [Entered(Stopping)];
      ReplaySnoc(t, Entered(Stopping));
      ReplayRan(t0, ran, Stopping);
      Assoc(t, [Entered(Stopping)], RanEvents(ran, Stopping));
      RanInSnoc(t, Entered(Stopping), Stopping);
      RanInAppend(t0, RanEvents(ran, Stopping), Stopping);
      RanInEvents(ran, Stopping);
    }
  }

  lemma Tail(t1: seq<Ev>, at: ExecutorState, policy: CleanPolicy, tasks: nat)
    requires Replay(t1) == Some(Phase(at, false, false)) && Rank(at) < Rank(Stopped)
    ensures Replay(t1 + [Cleaned(policy, tasks, at), LoopClosed(at), Entered(Stopped)]) == Some(Phase(Stopped, true, true))
    ensures RanIn(t1 + [Cleaned(policy, tasks, at), LoopClosed(at), Entered(Stopped)], Stopping) == RanIn(t1, Stopping)
    ensures Cleaned(policy, tasks, at) in t1 + [Cleaned(policy, tasks, at), LoopClosed(at), Entered(Stopped)]
  {
    var t2 := t1 + [Cleaned(policy, tasks, at)];
    ReplaySnoc(t1, Cleaned(policy, tasks, at));
    RanInSnoc(t1, Cleaned(policy, tasks, at), Stopping);
    var t3 := t2 + [LoopClosed(at)];
    ReplaySnoc(t2, LoopClosed(at));
    RanInSnoc(t2, LoopClosed(at), Stopping);
    ReplaySnoc(t3, Entered(Stopped));
    RanInSnoc(t3, Entered(Stopped), Stopping);
    assert t3 + [Entered(Stopped)] == t1 + [Cleaned(policy, tasks, at), LoopClosed(at), Entered(Stopped)];
    assert (t3 + [Entered(Stopped)])[|t1|] == Cleaned(policy, tasks, at);
  }

  /** Before stopping is entered no stop-time callback has run. */
  lemma {:induction false} RanInNotYet(t: seq<Ev>)
    requires Replay(t).Some? && Rank(Replay(t).value.state) < Rank(Stopping)
    ensures RanIn(t, Stopping) == []
    decreases |t|
  {
    if t != [] {
      var init, ev := t[..|t| - 1], t[|t| - 1];
      assert t == init + [ev];
      ReplaySnoc(init, ev);
      RanInNotYet(init);
      RanInSnoc(init, ev, Stopping);
    }
  }

  /** `AioThreadExecutor.join()`: refused unless the thread was started and
      is still alive. */
  function Join(e: Exec): (r: Result<Exec>)
    requires Inv(e)
    ensures r.Ok? <==> e.state == Running
    ensures r.Err? ==> r.error == AssertionError
  {
    if e.thread == Alive then Ok(e) else Err(AssertionError)
  }

  /** The states entered, in trace order. */
  function EnteredStates(t: seq<Ev>): seq<ExecutorState>
    decreases |t|
  {
    if t == [] then []
    else EnteredStates(t[..|t| - 1]) + if t[|t| - 1].Entered? then [t[|t| - 1].status] else []
  }

  lemma {:induction false} EnteredStatesAppend(a: seq<Ev>, b: seq<Ev>)
    ensures EnteredStates(a + b) == EnteredStates(a) + EnteredStates(b)
    decreases |b|
  {
    if b == [] {
      assert a + b == a;
    } else {
      var b', ev := b[..|b| - 1], b[|b| - 1];
      assert (a + b)[..|a + b| - 1] == a + b';
      EnteredStatesAppend(a, b');
      Assoc(EnteredStates(a), EnteredStates(b'), if ev.Entered? then [ev.status] else []);
    }
  }

  lemma EnteredStatesSingle(ev: Ev)
    ensures EnteredStates([ev]) == if ev.Entered? then [ev.status] else []
  {
    assert [ev][..0] == [];
  }

  lemma {:induction false} EnteredStatesRan(cs: seq<Callback>, s: ExecutorState)
    ensures EnteredStates(RanEvents(cs, s)) == []
    decreases |cs|
  {
    if cs != [] {
      assert RanEvents(cs, s)[..|cs| - 1] == RanEvents(cs[..|cs| - 1], s);
      EnteredStatesRan(cs[..|cs| - 1], s);
    }
  }

  lemma EnteredStatesOfStart(ran: seq<Callback>)
    ensures EnteredStates(StartPhase(ran)) == [Starting, Running]
  {
    EnteredStatesAppend([Entered(Starting)], RanEvents(ran, Starting));
    EnteredStatesRan(ran, Starting);
    EnteredStatesSingle(Entered(Starting));
    EnteredStatesAppend([Entered(Starting)] + RanEvents(ran, Starting), [Entered(Running)]);
    EnteredStatesSingle(Entered(Running));
  }

  lemma EnteredStatesOfTail(policy: CleanPolicy, tasks: nat, at: ExecutorState)
    ensures EnteredStates([Cleaned(policy, tasks, at), LoopClosed(at), Entered(Stopped)]) == [Stopped]
  {
    var c, l, st := Cleaned(policy, tasks, at), LoopClosed(at), Entered(Stopped);
    EnteredStatesSingle(c);
    EnteredStatesSingle(l);
    EnteredStatesSingle(st);
    EnteredStatesAppend([c], [l]);
    assert [c] + [l] == [c, l];
    EnteredStatesAppend([c, l], [st]);
    assert [c, l] + [st] == [c, l, st];
  }

  lemma EnteredStatesOfStop(stopRan: seq<Callback>, raised: bool, policy: CleanPolicy, tasks: nat)
    ensures EnteredStates(StopPhase(stopRan, raised, policy, tasks)) ==
      if raised then [Stopped] else [Stopping, Stopped]
  {
    var at := if raised then Running else Stopping;
    var tail: seq<Ev> := [Cleaned(policy, tasks, at), LoopClosed(at), Entered(Stopped)];
    EnteredStatesOfTail(policy, tasks, at);
    var stopPart: seq<Ev> := if raised then [] else [Entered(Stopping)] + RanEvents(stopRan, Stopping);
    assert StopPhase(stopRan, raised, policy, tasks) == stopPart + tail;
    EnteredStatesAppend(stopPart, tail);
    if !raised {
      EnteredStatesAppend([Entered(Stopping)], RanEvents(stopRan, Stopping));
      EnteredStatesRan(stopRan, Stopping);
      EnteredStatesSingle(Entered(Stopping));
    } else {
      assert EnteredStates(stopPart) == [];
    }
  }

  /** The events of a whole life, as a sequence of phases. */
  lemma LifeTrace(ran: seq<Callback>, stopRan: seq<Callback>, raised: bool, policy: CleanPolicy, tasks: nat)
    ensures var t := StartPhase(ran) + StopPhase(stopRan, raised, policy, tasks);
      && EnteredStates(t) == (if raised then [Starting, Running, Stopped] else [Starting, Running, Stopping, Stopped])
      && RanIn(t, Starting) == ran
  {
    var sp := StopPhase(stopRan, raised, policy, tasks);
    EnteredStatesOfStart(ran);
    EnteredStatesOfStop(stopRan, raised, policy, tasks);
    EnteredStatesAppend(StartPhase(ran), sp);
    BeginTrace(ran);
    RanInAppend(StartPhase(ran), sp, Starting);
    StopPhaseHasNoStartCallbacks(stopRan, raised, policy, tasks);
    assert ran + [] == ran;
  }

  /** A whole thread-executor life: `start()`, `stop()`, and the loop
      returning (or raising). The state passes through starting, running,
      stopping and stopped in that order, skipping stopping when the loop
      raised; start callbacks run while starting and stop callbacks while
      stopping. */
  lemma Lifecycle(e: Exec, raised: bool)
    requires Inv(e) && e.state == Initial
    ensures Begin(e).Ok? && RequestStop(Begin(e).value).Ok?
    ensures var r := LoopEnds(RequestStop(Begin(e).value).value, raised);
      && r.state == Stopped
      && EnteredStates(r.trace) == (if raised then [Starting, Running, Stopped] else [Starting, Running, Stopping, Stopped])
      && RanIn(r.trace, Starting) == Drain(e.queues.start, Start)
      && RanIn(r.trace, Stopping) == (if raised then [] else Drain(AfterDrain(e.queues, Start).stop, Stop))
  {
    var b := Begin(e).value;
    var s := RequestStop(b).value;
    var r := LoopEnds(s, raised);
    var ran := Drain(e.queues.start, Start);
    var stopRan := Drain(s.queues.stop, Stop);
    assert b.trace == StartPhase(ran);
    assert r.trace == b.trace + StopPhase(stopRan, raised, s.policy, s.tasks);
    LifeTrace(ran, stopRan, raised, s.policy, s.tasks);
    assert s.queues == AfterDrain(e.queues, Start);
  }

  lemma StopPhaseHasNoStartCallbacks(ran: seq<Callback>, raised: bool, policy: CleanPolicy, tasks: nat)
    ensures RanIn(StopPhase(ran, raised, policy, tasks), Starting) == []
  {
    var at := if raised then Running else Stopping;
    var tail: seq<Ev> := [Cleaned(policy, tasks, at), LoopClosed(at), Entered(Stopped)];
    var stopPart: seq<Ev> := if raised then [] else [Entered(Stopping)] + RanEvents(ran, Stopping);
    RanInAppend(stopPart, tail, Starting);
    RanInNone(tail, Starting);
    if !raised {
      RanInAppend([Entered(Stopping)], RanEvents(ran, Stopping), Starting);
      RanInElsewhere(ran, Starting, Stopping);
      RanInNone([Entered(Stopping)], Starting);
    } else {
      RanInNone(stopPart, Starting);
    }
  }
}

=== FILE: flag_executor.dfy ===
/** The flag-based executor of AsyncSpider/core/base.py: `AioExecutor`
    with its `is_initial` / `is_running` / `is_stopped` flags and the
    ordering inside `_run`, and `AioThreadExecutor` with its status
    properties and guards. Callback queues are the `CallbackMixin` ones.

    Events are stamped with the flag triple current when they happen. */
module FlagExecutor {
  import opened Wrappers
  import opened Callbacks
  import opened Trace

  datatype Flags = Flags(initial: bool, running: bool, stopped: bool)

  const InitialFlags := Flags(true, false, false)
  const RunningFlags := Flags(false, true, false)
  const StoppedFlags := Flags(false, false, true)

  type Ev = Event<Flags>

  datatype ThreadPhase = NotStarted | Alive | Finished

  datatype FExec = FExec(
    flags: Flags,
    queues: Queues,
    tasks: nat,
    stopRequested: bool,
    thread: ThreadPhase,
    loopClosed: bool,
    policy: CleanPolicy,
    trace: seq<Ev>)

  /** `AioThreadExecutor.is_running`: not stopped and the thread alive. */
  predicate IsRunning(e: FExec) {
    !e.flags.stopped && e.thread == Alive
  }

  /** `AioThreadExecutor.is_closed`: the thread is not alive and the
      executor has left its initial state. */
  predicate IsClosed(e: FExec) {
    e.thread != Alive && !e.flags.initial
  }

  /** Reachable executors: the flags always hold one of the three triples
      (so exactly one flag is set); the thread is started exactly when the
      executor left its initial state, and has finished exactly when the
      loop is closed; callbacks only ever ran with the initial or the
      stopped triple, and stopped-time ones only once stopped. */
  ghost predicate Inv(e: FExec) {
    && (e.flags == InitialFlags || e.flags == RunningFlags || e.flags == StoppedFlags)
    && (e.flags.initial <==> e.thread == NotStarted)
    && (e.thread == Finished <==> e.loopClosed)
    && (e.flags.stopped ==> e.loopClosed)
    && (e.flags.initial ==> e.trace == [])
    && (forall i :: 0 <= i < |e.trace| && e.trace[i].Ran? ==> e.trace[i].at == InitialFlags || e.trace[i].at == StoppedFlags)
    && (!e.flags.stopped ==> forall i :: 0 <= i < |e.trace| && e.trace[i].Ran? ==> e.trace[i].at == InitialFlags)
  }

  /** Exactly one of `is_initial`, `is_running` (the flag) and `is_stopped`
      holds in every reachable executor. */
  lemma ExactlyOneFlag(e: FExec)
    requires Inv(e)
    ensures (if e.flags.initial then 1 else 0) + (if e.flags.running then 1 else 0) + (if e.flags.stopped then 1 else 0) == 1
  {
  }

  /** `AioThreadExecutor()`: a fresh executor is initial, neither running
      nor stopped, and has `asyncio.set_event_loop` queued as its first
      start callback. */
  function New(policy: CleanPolicy, setEventLoop: Callback): (e: FExec)
    ensures Inv(e)
    ensures e.flags.initial && !e.flags.running && !e.flags.stopped
    ensures !IsRunning(e) && !IsClosed(e)
    ensures e.queues.start == [setEventLoop] && e.queues.stop == []
  {
    FExec(InitialFlags, Queues([setEventLoop], []), 0, false, NotStarted, false, policy, [])
  }

  /** `call_on_start` / `call_on_stop`: accepted in any state. */
  function CallOn(e: FExec, w: Which, c: Callback): (r: FExec)
    requires Inv(e)
    ensures Inv(r) && r.flags == e.flags && r.trace == e.trace
    ensures Get(r.queues, w) == Get(e.queues, w) + [c]
    ensures Get(r.queues, Other(w)) == Get(e.queues, Other(w))
  {
    e.(queues := Call(e.queues, w, c))
  }

  /** `call_soon`, `call_soon_threadsafe`, `run_coro`, `run_coro_threadsafe`:
      refused once stopped. A loop closed without the stopped flag (the loop
      raised) refuses the call itself with RuntimeError. */
  function Schedule(e: FExec, createsTask: bool): (r: Result<FExec>)
    requires Inv(e)
    ensures r.Ok? <==> !e.flags.stopped && !e.loopClosed
    ensures e.flags.stopped ==> r == Err(AssertionError)
    ensures !e.flags.stopped && e.loopClosed ==> r == Err(RuntimeError)
    ensures r.Ok? ==> Inv(r.value) && r.value.flags == e.flags && r.value.tasks == e.tasks + (if createsTask then 1 else 0)
  {
    if e.flags.stopped then Err(AssertionError)
    else if e.loopClosed then Err(RuntimeError)
    else Ok(e.(tasks := e.tasks + if createsTask then 1 else 0))
  }

  /** `AioThreadExecutor.stop()`: only a running executor can be stopped. */
  function RequestStop(e: FExec): (r: Result<FExec>)
    requires Inv(e)
    ensures r.Ok? <==> IsRunning(e)
    ensures r.Err? ==> r.error == AssertionError
    ensures r.Ok? ==> Inv(r.value) && r.value.stopRequested && r.value.flags == e.flags && r.value.trace == e.trace
  {
    if !IsRunning(e) then Err(AssertionError) else Ok(e.(stopRequested := true))
  }

  /** `AioThreadExecutor.start()` and the first part of `_run`: the start
      callbacks run while `is_initial` is still true, then the flags switch
      to running. Starting a live thread fails the guard; a finished thread
      cannot be started again. */
  function Begin(e: FExec): (r: Result<FExec>)
    requires Inv(e)
    ensures r.Ok? <==> e.thread == NotStarted
    ensures e.thread == Alive ==> r == Err(AssertionError)
    ensures e.thread == Finished ==> r == Err(RuntimeError)
    ensures r.Ok? ==> Inv(r.value) && r.value.flags == RunningFlags && IsRunning(r.value) && !IsClosed(r.value)
    ensures r.Ok? ==> RanIn(r.value.trace, InitialFlags) == Drain(e.queues.start, Start)
    ensures r.Ok? ==> |r.value.trace| > 0 && r.value.trace[|r.value.trace| - 1] == Entered(RunningFlags)
    ensures r.Ok? ==> r.value.queues == AfterDrain(e.queues, Start)
  {
    if e.thread == Alive then Err(AssertionError)
    else if e.thread == Finished then Err(RuntimeError)
    else
      var ran := Drain(e.queues.start, Start);
      var trace := RanEvents(ran, InitialFlags) + [Entered(RunningFlags)];
      RanInSnoc(RanEvents(ran, InitialFlags), Entered(RunningFlags), InitialFlags);
      RanInEvents(ran, InitialFlags);
      Ok(e.(flags := RunningFlags, queues := AfterDrain(e.queues, Start), thread := Alive, trace := trace))
  }

  /** The rest of `_run` once `run_forever` returns (after a stop) or
      raises. On return: the loop's tasks are cleaned while the flags still
      say running, then the flags switch to stopped, then the stop callbacks
      run. Either way the `finally` block closes the loop. When the loop
      raised, the flags are left as they were. */
  function LoopEnds(e: FExec, raised: bool): (r: FExec)
    requires Inv(e) && IsRunning(e) && (e.stopRequested || raised)
    ensures Inv(r) && r.loopClosed && r.thread == Finished
    ensures !IsRunning(r) && IsClosed(r)
    ensures raised ==> r.flags == RunningFlags && r.trace == e.trace + [LoopClosed(RunningFlags)]
    ensures !raised ==> r.flags == StoppedFlags && r.tasks == 0
    ensures !raised ==> RanIn(r.trace, StoppedFlags) == Drain(e.queues.stop, Stop)
    ensures !raised ==> |r.trace| > |e.trace| && r.trace[|e.trace|] == Cleaned(e.policy, e.tasks, RunningFlags)
    ensures !raised ==> forall j :: 0 <= j < |r.trace| && r.trace[j].Ran? && r.trace[j].at == StoppedFlags ==> j > |e.trace|
  {
    if raised then
      e.(thread := Finished, loopClosed := true, trace := e.trace + [LoopClosed(RunningFlags)])
    else
      var ran := Drain(e.queues.stop, Stop);
      var head := e.trace + [Cleaned(e.policy, e.tasks, RunningFlags), Entered(StoppedFlags)];
      var trace := head + RanEvents(ran, StoppedFlags) + [LoopClosed(StoppedFlags)];
      StopTrace(e.trace, head, ran, e.policy, e.tasks);
      StopTraceStamps(e.trace, head, ran, e.policy, e.tasks);
      e.(flags := StoppedFlags, queues := AfterDrain(e.queues, Stop), tasks := 0, thread := Finished,
         loopClosed := true, trace := trace)
  }

  lemma StopTrace(t: seq<Ev>, head: seq<Ev>, ran: seq<Callback>, policy: CleanPolicy, tasks: nat)
    requires forall i :: 0 <= i < |t| && t[i].Ran? ==> t[i].at == InitialFlags
    requires head == t + [Cleaned(policy, tasks, RunningFlags), Entered(StoppedFlags)]
    ensures RanIn(head + RanEvents(ran, StoppedFlags) + [LoopClosed(StoppedFlags)], StoppedFlags) == ran
  {
    RanInOnly(t, StoppedFlags);
    var c: seq<Ev> := [Cleaned(policy, tasks, RunningFlags)];
    RanInSnoc(t, Cleaned(policy, tasks, RunningFlags), StoppedFlags);
    RanInSnoc(t + c, Entered(StoppedFlags), StoppedFlags);
    assert (t + c) + [Entered(StoppedFlags)] == head;
    RanInAppend(head, RanEvents(ran, StoppedFlags), StoppedFlags);
    RanInEvents(ran, StoppedFlags);
    RanInSnoc(head + RanEvents(ran, StoppedFlags), LoopClosed(StoppedFlags), StoppedFlags);
  }

  /** In the trace a normal stop leaves, the cleanup sits right after the
      earlier events, and every callback ran with the initial triple, or
      with the stopped one and after the cleanup. */
  lemma StopTraceStamps(t: seq<Ev>, head: seq<Ev>, ran: seq<Callback>, policy: CleanPolicy, tasks: nat)
    requires forall i :: 0 <= i < |t| && t[i].Ran? ==> t[i].at == InitialFlags
    requires head == t + [Cleaned(policy, tasks, RunningFlags), Entered(StoppedFlags)]
    ensures var trace := head + RanEvents(ran, StoppedFlags) + [LoopClosed(StoppedFlags)];
      && |trace| > |t| && trace[|t|] == Cleaned(policy, tasks, RunningFlags)
      && (forall i :: 0 <= i < |trace| && trace[i].Ran? ==> trace[i].at == InitialFlags || trace[i].at == StoppedFlags)
      && (forall j :: 0 <= j < |trace| && trace[j].Ran? && trace[j].at == StoppedFlags ==> j > |t|)
  {
  }

  /** A trace whose callbacks all ran with another stamp holds none for `s`. */
  lemma {:induction false} RanInOnly(t: seq<Ev>, s: Flags)
    requires forall i :: 0 <= i < |t| && t[i].Ran? ==> t[i].at != s
    ensures RanIn(t, s) == []
    decreases |t|
  {
    if t != [] {
      RanInOnly(t[..|t| - 1], s);
    }
  }

  /** `AioThreadExecutor.join()`: refused unless the thread is alive. */
  function Join(e: FExec): (r: Result<FExec>)
    requires Inv(e)
    ensures r.Ok? <==> e.thread == Alive
    ensures r.Err? ==> r.error == AssertionError
  {
    if e.thread == Alive then Ok(e) else Err(AssertionError)
  }

  /** The status a thread executor reports over a whole life: neither
      running nor closed before `start()`, running and not closed after
      it, closed and no longer running once the loop has ended, whether it
      ended by a stop or by raising. A second `start()` is refused at every
      point after the first. */
  lemma StatusOverLife(policy: CleanPolicy, setEventLoop: Callback, raised: bool)
    ensures var e0 := New(policy, setEventLoop);
      && Begin(e0).Ok?
      && var e1 := Begin(e0).value;
      && IsRunning(e1) && !IsClosed(e1) && Begin(e1).Err?
      && RequestStop(e1).Ok?
      && var e2 := LoopEnds(RequestStop(e1).value, raised);
      && !IsRunning(e2) && IsClosed(e2) && Begin(e2) == Err(RuntimeError)
      && RequestStop(e2).Err? && Schedule(e2, true).Err?
  {
  }
}

=== FILE: item.dfy ===
/** Item schemas: `Field` metadata, the field table `ItemMeta` collects for
    each item class, and item construction with defaults
    (AsyncSpider/core/item.py, on top of DefinedKeysDict). */
module Item {
  import opened Wrappers
  import opened PyDict
  import Data

  type Name = string

  /** `Field(**metadata)`: a dict holding exactly the given metadata. */
  type Field<V> = Dict<Name, V>

  const DefaultKey: Name := "default"

  /** A class-body attribute: a `Field` or anything else. */
  datatype Attr<V> = FieldAttr(field: Field<V>) | OtherAttr(value: V)

  /** An item class: its `fields` table; `_keys` is the table's key order. */
  datatype ItemClass<V> = ItemClass(fields: Dict<Name, Field<V>>)

  ghost predicate ValidClass<V>(c: ItemClass<V>) {
    PyDict.Valid(c.fields) && forall k :: k in c.fields.m ==> PyDict.Valid(c.fields.m[k])
  }

  function Keys<V>(c: ItemClass<V>): seq<Name> {
    c.fields.order
  }

  /** The root `Item` class declares `fields = {}` itself. */
  function RootClass<V>(): (c: ItemClass<V>)
    ensures ValidClass(c) && Keys(c) == []
  {
    ItemClass(Empty())
  }

  /** The `Field`-valued attributes among `names`, in order. */
  function FieldNames<V>(names: seq<Name>, body: map<Name, Attr<V>>): (r: seq<Name>)
    requires forall k :: k in names ==> k in body
    requires NoDuplicates(names)
    ensures NoDuplicates(r)
    ensures forall k :: k in r <==> k in names && body[k].FieldAttr?
  {
    if names == [] then []
    else
      var rest := FieldNames(names[1..], body);
      assert names[0] !in names[1..];
      if body[names[0]].FieldAttr? then [names[0]] + rest else rest
  }

  /** The `Field`-valued attributes of a class body, as a dict in body order. */
  function BodyFields<V>(body: Dict<Name, Attr<V>>): (r: Dict<Name, Field<V>>)
    requires PyDict.Valid(body)
    ensures PyDict.Valid(r)
    ensures forall k :: k in r.m <==> k in body.m && body.m[k].FieldAttr?
    ensures forall k :: k in r.m ==> r.m[k] == body.m[k].field
  {
    var names := FieldNames(body.order, body.m);
    Dict(names, map k | k in names :: body.m[k].field)
  }

  /** The table `ItemMeta` starts from: the dict the body binds to `fields`
      (`own`), or a fresh `{}`, with the parent's fields put into it. */
  function StartTable<V>(parent: ItemClass<V>, own: Option<Dict<Name, Field<V>>>): (t: Dict<Name, Field<V>>)
    requires ValidClass(parent)
    requires own.Some? ==> ValidClass(ItemClass(own.value))
    ensures ValidClass(ItemClass(t))
    ensures own.None? ==> t == parent.fields
    ensures own.Some? ==> |own.value.order| <= |t.order| && t.order[..|own.value.order|] == own.value.order
    ensures forall k :: k in t.m <==> (own.Some? && k in own.value.m) || k in parent.fields.m
    ensures forall k :: k in parent.fields.m ==> t.m[k] == parent.fields.m[k]
    ensures own.Some? ==> forall k :: k in own.value.m && k !in parent.fields.m ==> t.m[k] == own.value.m[k]
  {
    if own.Some? then Update(own.value, parent.fields) else parent.fields
  }

  /** `fields.update(...)` with the body's `Field` attributes. */
  function AddBodyFields<V>(t: Dict<Name, Field<V>>, body: Dict<Name, Attr<V>>): (r: Dict<Name, Field<V>>)
    requires ValidClass(ItemClass(t)) && PyDict.Valid(body)
    requires forall k :: k in body.m && body.m[k].FieldAttr? ==> PyDict.Valid(body.m[k].field)
    ensures ValidClass(ItemClass(r))
    ensures |t.order| <= |r.order| && r.order[..|t.order|] == t.order
    ensures forall k :: k in r.m <==> k in t.m || (k in body.m && body.m[k].FieldAttr?)
    ensures forall k :: k in body.m && body.m[k].FieldAttr? ==> r.m[k] == body.m[k].field
    ensures forall k :: k in t.m && !(k in body.m && body.m[k].FieldAttr?) ==> r.m[k] == t.m[k]
  {
    Update(t, BodyFields(body))
  }

  /** `ItemMeta` for `class C(parent): body`. The table is the dict the
      body binds to `fields` (`own`), or a fresh `{}` when it binds none.
      The parent's fields are put into it, then the body's `Field`
      attributes: a key already present keeps its position and takes the
      later value, and new keys follow in the order they are put. */
  function DefineClass<V>(parent: ItemClass<V>, own: Option<Dict<Name, Field<V>>>, body: Dict<Name, Attr<V>>): (c: ItemClass<V>)
    requires ValidClass(parent) && PyDict.Valid(body)
    requires own.Some? ==> ValidClass(ItemClass(own.value))
    requires forall k :: k in body.m && body.m[k].FieldAttr? ==> PyDict.Valid(body.m[k].field)
    ensures ValidClass(c)
    ensures own.None? ==> |Keys(parent)| <= |Keys(c)| && Keys(c)[..|Keys(parent)|] == Keys(parent)
    ensures own.Some? ==> |own.value.order| <= |Keys(c)| && Keys(c)[..|own.value.order|] == own.value.order
    ensures forall k :: k in c.fields.m <==>
      (own.Some? && k in own.value.m) || k in parent.fields.m || (k in body.m && body.m[k].FieldAttr?)
    ensures forall k :: k in body.m && body.m[k].FieldAttr? ==> c.fields.m[k] == body.m[k].field
    ensures forall k :: k in parent.fields.m && !(k in body.m && body.m[k].FieldAttr?) ==>
      c.fields.m[k] == parent.fields.m[k]
    ensures own.Some? ==> forall k :: k in own.value.m && k !in parent.fields.m && !(k in body.m && body.m[k].FieldAttr?) ==>
      c.fields.m[k] == own.value.m[k]
  {
    DefinedKeys(parent, own, body);
    DefinedValues(parent, own, body);
    ItemClass(AddBodyFields(StartTable(parent, own), body))
  }

  lemma DefinedKeys<V>(parent: ItemClass<V>, own: Option<Dict<Name, Field<V>>>, body: Dict<Name, Attr<V>>)
    requires ValidClass(parent) && PyDict.Valid(body)
    requires own.Some? ==> ValidClass(ItemClass(own.value))
    requires forall k :: k in body.m && body.m[k].FieldAttr? ==> PyDict.Valid(body.m[k].field)
    ensures var t := AddBodyFields(StartTable(parent, own), body);
      && (own.None? ==> |Keys(parent)| <= |t.order| && t.order[..|Keys(parent)|] == Keys(parent))
      && (own.Some? ==> |own.value.order| <= |t.order| && t.order[..|own.value.order|] == own.value.order)
      && forall k :: k in t.m <==>
        (own.Some? && k in own.value.m) || k in parent.fields.m || (k in body.m && body.m[k].FieldAttr?)
  {
    var start := StartTable(parent, own);
    var t := AddBodyFields(start, body);
    if own.Some? {
      PrefixOfPrefix(own.value.order, start.order, t.order);
    }
  }

  lemma PrefixOfPrefix(a: seq<Name>, b: seq<Name>, c: seq<Name>)
    requires |a| <= |b| && b[..|a|] == a
    requires |b| <= |c| && c[..|b|] == b
    ensures c[..|a|] == a
  {
    assert c[..|a|] == c[..|b|][..|a|];
  }

  lemma DefinedValues<V>(parent: ItemClass<V>, own: Option<Dict<Name, Field<V>>>, body: Dict<Name, Attr<V>>)
    requires ValidClass(parent) && PyDict.Valid(body)
    requires own.Some? ==> ValidClass(ItemClass(own.value))
    requires forall k :: k in body.m && body.m[k].FieldAttr? ==> PyDict.Valid(body.m[k].field)
    ensures var t := AddBodyFields(StartTable(parent, own), body);
      && (forall k :: k in body.m && body.m[k].FieldAttr? ==> t.m[k] == body.m[k].field)
      && (forall k :: k in parent.fields.m && !(k in body.m && body.m[k].FieldAttr?) ==> t.m[k] == parent.fields.m[k])
      && (own.Some? ==> forall k :: k in own.value.m && k !in parent.fields.m && !(k in body.m && body.m[k].FieldAttr?) ==>
        t.m[k] == own.value.m[k])
  {
  }

  /** A body that binds `fields` with an entry the parent also declares: the
      parent's entry wins, yet the body dict's keys keep their place in
      front. */
  lemma OwnFieldsComeFirst<V>(parent: ItemClass<V>, own: Dict<Name, Field<V>>, body: Dict<Name, Attr<V>>, i: nat)
    requires ValidClass(parent) && ValidClass(ItemClass(own)) && PyDict.Valid(body)
    requires forall k :: k in body.m && body.m[k].FieldAttr? ==> PyDict.Valid(body.m[k].field)
    requires i < |own.order| && own.order[i] in parent.fields.m
    requires !(own.order[i] in body.m && body.m[own.order[i]].FieldAttr?)
    ensures var c := DefineClass(parent, Some(own), body);
      && i < |Keys(c)| && Keys(c)[i] == own.order[i]
      && c.fields.m[own.order[i]] == parent.fields.m[own.order[i]]
  {
  }

  /** Whether the field declared for `k` carries a default. */
  predicate HasDefault<V>(c: ItemClass<V>, k: Name)
    requires ValidClass(c)
  {
    k in c.fields.m && DefaultKey in c.fields.m[k].m
  }

  /** `kwargs.setdefault(k, field['default'])` for every key in `_keys` order. */
  function WithDefaults<V>(c: ItemClass<V>, kw: Dict<Name, V>, i: nat): (r: Dict<Name, V>)
    requires ValidClass(c) && PyDict.Valid(kw) && i <= |Keys(c)|
    ensures PyDict.Valid(r)
    ensures forall k :: k in r.m <==> k in kw.m || (k in Keys(c)[..i] && HasDefault(c, k))
    ensures forall k :: k in kw.m ==> r.m[k] == kw.m[k]
    ensures forall k :: k !in kw.m && k in Keys(c)[..i] && HasDefault(c, k) ==>
      r.m[k] == c.fields.m[k].m[DefaultKey]
    decreases i
  {
    if i == 0 then kw
    else
      assert Keys(c)[..i] == Keys(c)[..i - 1] + [Keys(c)[i - 1]];
      var prev := WithDefaults(c, kw, i - 1);
      var k := Keys(c)[i - 1];
      assert k !in Keys(c)[..i - 1];
      if HasDefault(c, k) && k !in prev.m then Put(prev, k, c.fields.m[k].m[DefaultKey]) else prev
  }

  /** `Item.__init__(**kwargs)`: declared keys with a default take it unless
      the caller supplied a value; other unsupplied keys stay unset; an
      undeclared keyword raises KeyError. */
  function New<V>(c: ItemClass<V>, kw: Dict<Name, V>): (r: Result<Data.DKDict<V>>)
    requires ValidClass(c) && PyDict.Valid(kw)
    ensures r.Ok? <==> forall k :: k in kw.m ==> k in Keys(c)
    ensures r.Err? ==> r.error == KeyError
    ensures r.Ok? ==> Data.Valid(r.value) && r.value.keys == Keys(c)
    ensures r.Ok? ==> forall k :: k in kw.m ==> k in r.value.vals && r.value.vals[k] == kw.m[k]
    ensures r.Ok? ==> forall k :: k in Keys(c) && k !in kw.m && HasDefault(c, k) ==>
      k in r.value.vals && r.value.vals[k] == c.fields.m[k].m[DefaultKey]
    ensures r.Ok? ==> forall k :: k in Keys(c) && k !in kw.m && !HasDefault(c, k) ==> k !in r.value.vals
  {
    assert Keys(c)[..|Keys(c)|] == Keys(c);
    Data.New(Keys(c), WithDefaults(c, kw, |Keys(c)|))
  }

  /** `copy()` goes through `Item.__init__`, so it rebuilds the instance
      exactly when no defaulted key has been unset; otherwise the copy
      brings the default back. */
  lemma CopyRestoresDefaults<V>(c: ItemClass<V>, d: Data.DKDict<V>)
    requires ValidClass(c) && Data.Valid(d) && d.keys == Keys(c)
    ensures New(c, Data.AsKwargs(d)).Ok?
    ensures New(c, Data.AsKwargs(d)) == Ok(d) <==> forall k :: k in Keys(c) && HasDefault(c, k) ==> k in d.vals
  {
    if forall k :: k in Keys(c) && HasDefault(c, k) ==> k in d.vals {
      CopyKeepsAll(c, d);
    } else {
      var k :| k in Keys(c) && HasDefault(c, k) && k !in d.vals;
      CopyRestoresOne(c, d, k);
    }
  }

  lemma CopyKeepsAll<V>(c: ItemClass<V>, d: Data.DKDict<V>)
    requires ValidClass(c) && Data.Valid(d) && d.keys == Keys(c)
    requires forall k :: k in Keys(c) && HasDefault(c, k) ==> k in d.vals
    ensures New(c, Data.AsKwargs(d)) == Ok(d)
  {
    var kw := Data.AsKwargs(d);
    assert kw.m == d.vals;
    var r := New(c, kw);
    assert r.Ok?;
    var e := r.value;
    assert forall k :: k in d.vals ==> k in e.vals && e.vals[k] == d.vals[k];
    forall k | k in e.vals
      ensures k in d.vals
    {
      assert k in Keys(c);
    }
    SameMap(e.vals, d.vals);
  }

  lemma SameMap<K, V>(a: map<K, V>, b: map<K, V>)
    requires forall k :: k in a ==> k in b
    requires forall k :: k in b ==> k in a && a[k] == b[k]
    ensures a == b
  {
  }

  lemma CopyRestoresOne<V>(c: ItemClass<V>, d: Data.DKDict<V>, k: Name)
    requires ValidClass(c) && Data.Valid(d) && d.keys == Keys(c)
    requires k in Keys(c) && HasDefault(c, k) && k !in d.vals
    ensures New(c, Data.AsKwargs(d)).Ok?
    ensures k in New(c, Data.AsKwargs(d)).value.vals
  {
    var r := New(c, Data.AsKwargs(d));
    assert r.Ok?;
  }
}

=== FILE: legacy_fetcher.dfy ===
/** The legacy fetcher of AsyncSpider/_fetcher.py: slot records for
    requests and responses, the fetcher's open/close around its token
    bucket, and `fetch`, which answers one response per request whatever
    order the concurrent transport calls complete in.

    The HTTP session is a `transport` function from a processed request to
    `Some(response)`, or to `None` when the call raised (`asyncio.wait`
    keeps a task's exception to itself, so that slot keeps its `None`). */
module LegacyFetcher {
  import opened Wrappers
  import opened PyDict
  import Storage
  import TokenBuckets

  type Name = string

  const MethodSlot: Name := "method"
  const UrlSlot: Name := "url"

  /** `Request.__slots__`. */
  const RequestSlots: seq<Name> := [MethodSlot, UrlSlot, "params", "data", "encoding", "headers", "proxy",
                                    "proxy_headers", "allow_redirects", "max_redirects"]

  /** `Response.__slots__`. */
  const ResponseSlots: seq<Name> := ["status", "content", "encoding", "headers", "cookies", "host", "history"]

  lemma SlotsDistinct()
    ensures NoDuplicates(RequestSlots) && NoDuplicates(ResponseSlots)
  {
  }

  /** A closed record over `slots` built as `Storage.__init__` followed by
      `update` with the writes `ps`: it exists when every written name is a
      slot, the written slots hold their values and the rest stay `None`;
      otherwise the first unknown name is a KeyError. */
  function Build<V>(slots: seq<Name>, ps: seq<(Name, Option<V>)>): (r: Result<Storage.Record<V>>)
    requires NoDuplicates(slots)
    requires forall a, b :: 0 <= a < b < |ps| ==> ps[a].0 != ps[b].0
    ensures r.Ok? <==> forall i :: 0 <= i < |ps| ==> ps[i].0 in slots
    ensures r.Err? ==> r.error == KeyError
    ensures r.Ok? ==> Storage.Valid(r.value) && Storage.Keys(r.value) == slots && !r.value.open
    ensures r.Ok? ==> forall i :: 0 <= i < |ps| ==> Storage.Get(r.value, ps[i].0) == Ok(ps[i].1)
    ensures r.Ok? ==> forall k :: k in slots && k !in PairKeys(ps) ==> Storage.Get(r.value, k) == Ok(None)
  {
    var r0 := Storage.Init(slots, false);
    var p := Storage.Update(r0, ps);
    if p.error.Some? then Err(p.error.value) else Storage.UpdateWrites(r0, ps); Ok(p.rec)
  }

  /** `Request(method, url, **kwargs)`: a closed record over the request
      slots, all `None`, then `method`, `url` and the keywords written in
      that order. Passing `method` or `url` again as a keyword is a
      TypeError of the call; a keyword outside the slots is the KeyError of
      item assignment. */
  function NewRequest<V>(verb: V, url: V, kw: Dict<Name, Option<V>>): (r: Result<Storage.Record<V>>)
    requires PyDict.Valid(kw)
    ensures r.Ok? <==> MethodSlot !in kw.m && UrlSlot !in kw.m && forall k :: k in kw.m ==> k in RequestSlots
    ensures MethodSlot in kw.m || UrlSlot in kw.m ==> r == Err(TypeError)
    ensures r.Err? && MethodSlot !in kw.m && UrlSlot !in kw.m ==> r.error == KeyError
    ensures r.Ok? ==> Storage.Valid(r.value) && Storage.Keys(r.value) == RequestSlots && !r.value.open
    ensures r.Ok? ==> Storage.Get(r.value, MethodSlot) == Ok(Some(verb)) && Storage.Get(r.value, UrlSlot) == Ok(Some(url))
    ensures r.Ok? ==> forall k :: k in kw.m ==> Storage.Get(r.value, k) == Ok(kw.m[k])
    ensures r.Ok? ==> forall k :: k in RequestSlots && k != MethodSlot && k != UrlSlot && k !in kw.m ==>
      Storage.Get(r.value, k) == Ok(None)
  {
    if MethodSlot in kw.m || UrlSlot in kw.m then Err(TypeError)
    else
      SlotsDistinct();
      var items := Items(kw);
      ItemsFacts(kw);
      var ps := [(MethodSlot, Some(verb)), (UrlSlot, Some(url))] + items;
      WritesFacts(ps, items, verb, url, kw);
      Build(RequestSlots, ps)
  }

  /** The writes of `Request.__init__`: their names are distinct and are
      exactly `method`, `url` and the keywords, and each keyword's write
      carries its value. */
  lemma WritesFacts<V>(ps: seq<(Name, Option<V>)>, items: seq<(Name, Option<V>)>, verb: V, url: V, kw: Dict<Name, Option<V>>)
    requires PyDict.Valid(kw) && items == Items(kw)
    requires ps == [(MethodSlot, Some(verb)), (UrlSlot, Some(url))] + items
    requires forall a, b :: 0 <= a < b < |items| ==> items[a].0 != items[b].0
    requires PairKeys(items) == kw.m.Keys && MethodSlot !in kw.m && UrlSlot !in kw.m
    ensures forall a, b :: 0 <= a < b < |ps| ==> ps[a].0 != ps[b].0
    ensures PairKeys(ps) == {MethodSlot, UrlSlot} + kw.m.Keys
    ensures ps[0] == (MethodSlot, Some(verb)) && ps[1] == (UrlSlot, Some(url))
    ensures forall k :: k in kw.m ==> exists i :: 0 <= i < |ps| && ps[i] == (k, kw.m[k])
    ensures (forall i :: 0 <= i < |ps| ==> ps[i].0 in RequestSlots) <==> forall k :: k in kw.m ==> k in RequestSlots
  {
    assert forall i :: 2 <= i < |ps| ==> ps[i] == items[i - 2];
    forall a, b | 0 <= a < b < |ps| ensures ps[a].0 != ps[b].0 {
      if a >= 2 {
        assert ps[a].0 == items[a - 2].0 && ps[b].0 == items[b - 2].0;
      } else if b >= 2 {
        assert ps[b].0 in PairKeys(items);
      }
    }
    forall k | k in kw.m ensures k in PairKeys(ps) && exists i :: 0 <= i < |ps| && ps[i] == (k, kw.m[k]) {
      var i := IndexOf(kw.order, k);
      assert ps[i + 2] == items[i] == (k, kw.m[k]);
    }
    assert ps[0].0 in PairKeys(ps) && ps[1].0 in PairKeys(ps);
    forall k | k in PairKeys(ps) ensures k in {MethodSlot, UrlSlot} + kw.m.Keys {
      var i :| 0 <= i < |ps| && ps[i].0 == k;
      if i >= 2 {
        assert items[i - 2].0 in PairKeys(items);
      }
    }
    assert MethodSlot in RequestSlots && UrlSlot in RequestSlots;
    if forall k :: k in kw.m ==> k in RequestSlots {
      forall i | 0 <= i < |ps| ensures ps[i].0 in RequestSlots {
        assert ps[i].0 in PairKeys(ps);
      }
    }
  }

  /** The writes naming `slots` in order, with their values. */
  function Writes<V>(slots: seq<Name>, vals: seq<Option<V>>): (ps: seq<(Name, Option<V>)>)
    requires |vals| == |slots|
    ensures |ps| == |slots| && forall i :: 0 <= i < |ps| ==> ps[i] == (slots[i], vals[i])
  {
    seq(|slots|, i requires 0 <= i < |slots| => (slots[i], vals[i]))
  }

  /** Writing every slot once, in slot order, leaves the record's values
      equal to the written ones. */
  lemma BuildAll<V>(slots: seq<Name>, vals: seq<Option<V>>)
    requires NoDuplicates(slots) && |vals| == |slots|
    ensures Build(slots, Writes(slots, vals)).Ok?
    ensures Storage.Values(Build(slots, Writes(slots, vals)).value) == vals
  {
    var ps := Writes(slots, vals);
    var r := Build(slots, ps).value;
    var vs := Storage.Values(r);
    forall i | 0 <= i < |vs| ensures vs[i] == vals[i] {
      assert Storage.Get(r, ps[i].0) == Ok(ps[i].1);
    }
  }

  /** `Response(status, content, encoding, headers, cookies, host,
      history)`: every slot holds its constructor argument, in slot order. */
  function NewResponse<V>(status: V, content: V, encoding: V, headers: V, cookies: V, host: V, history: V)
    : (r: Storage.Record<V>)
    ensures Storage.Valid(r) && Storage.Keys(r) == ResponseSlots && !r.open
    ensures Storage.Values(r) == [Some(status), Some(content), Some(encoding), Some(headers), Some(cookies),
                                  Some(host), Some(history)]
  {
    SlotsDistinct();
    var vals := [Some(status), Some(content), Some(encoding), Some(headers), Some(cookies), Some(host), Some(history)];
    BuildAll(ResponseSlots, vals);
    Build(ResponseSlots, Writes(ResponseSlots, vals)).value
  }

  /** `Response.text`: `content.decode(encoding)`. A `None` content has no
      `decode`; a `None` encoding is refused by `decode`. */
  function Text<V>(r: Storage.Record<V>, decode: (V, V) -> Result<string>): (t: Result<string>)
    requires Storage.Valid(r) && Storage.Keys(r) == ResponseSlots
    ensures r.attrs["content"].None? ==> t == Err(AttributeError)
    ensures r.attrs["content"].Some? && r.attrs["encoding"].None? ==> t == Err(TypeError)
    ensures r.attrs["content"].Some? && r.attrs["encoding"].Some? ==>
      t == decode(r.attrs["content"].value, r.attrs["encoding"].value)
  {
    match (r.attrs["content"], r.attrs["encoding"])
    case (None, _) => Err(AttributeError)
    case (Some(_), None) => Err(TypeError)
    case (Some(c), Some(e)) => decode(c, e)
  }

  /** A built response decodes its own content with its own encoding. */
  lemma ResponseText<V>(status: V, content: V, encoding: V, headers: V, cookies: V, host: V, history: V,
                        decode: (V, V) -> Result<string>)
    ensures Text(NewResponse(status, content, encoding, headers, cookies, host, history), decode)
      == decode(content, encoding)
  {
    var r := NewResponse(status, content, encoding, headers, cookies, host, history);
    var vs := Storage.Values(r);
    assert Storage.Keys(r)[1] == "content" && Storage.Keys(r)[2] == "encoding";
    assert Storage.Get(r, "content") == Ok(vs[1]) && vs[1] == Some(content);
    assert Storage.Get(r, "encoding") == Ok(vs[2]) && vs[2] == Some(encoding);
  }

  // Fetching ----------------------------------------------------------------

  /** What `fetch` returns: a lone response, or the list of them. */
  datatype Fetched<P> = One(response: P) | Several(responses: seq<P>)

  /** `fetch(*requests)` as a whole: no requests is a RuntimeError; a single
      request yields its response alone; several yield the list of their
      responses, position by position. */
  function Fetch<Q, P>(requests: seq<Q>, process: Q -> Q, transport: Q -> Option<P>): (r: Result<Fetched<Option<P>>>)
    ensures r.Err? <==> requests == []
    ensures r.Err? ==> r.error == RuntimeError
    ensures |requests| == 1 ==> r == Ok(One(transport(process(requests[0]))))
    ensures |requests| >= 2 ==> r.Ok? && r.value.Several? && |r.value.responses| == |requests|
    ensures |requests| >= 2 ==> forall i :: 0 <= i < |requests| ==>
      r.value.responses[i] == transport(process(requests[i]))
  {
    if requests == [] then Err(RuntimeError)
    else
      var responses := seq(|requests|, i requires 0 <= i < |requests| => transport(process(requests[i])));
      if |responses| == 1 then Ok(One(responses[0])) else Ok(Several(responses))
  }

  /** Whether every request's task has completed: `completion` lists
      request indices in the order their transport calls finished. */
  predicate AllComplete(n: nat, completion: seq<nat>) {
    && (forall k :: 0 <= k < |completion| ==> completion[k] < n)
    && (forall i :: 0 <= i < n ==> i in completion)
  }

  /** `_handle_requests`: the requests are processed one by one in order,
      `responses` starts as `[None] * n`, and each finishing transport call
      writes its own index. Once `asyncio.wait` has seen every task finish,
      each position holds its own request's answer, for every completion
      order. */
  method HandleRequests<Q, P>(requests: seq<Q>, process: Q -> Q, transport: Q -> Option<P>, completion: seq<nat>)
    returns (responses: seq<Option<P>>)
    requires AllComplete(|requests|, completion)
    ensures |responses| == |requests|
    ensures forall i :: 0 <= i < |requests| ==> responses[i] == transport(process(requests[i]))
  {
    var processed: seq<Q> := [];
    var j := 0;
    while j < |requests|
      invariant 0 <= j <= |requests| && |processed| == j
      invariant forall i :: 0 <= i < j ==> processed[i] == process(requests[i])
    {
      processed := processed + [process(requests[j])];
      j := j + 1;
    }
    responses := seq(|requests|, _ => None);
    var k := 0;
    while k < |completion|
      invariant 0 <= k <= |completion| && |responses| == |requests|
      invariant forall i :: 0 <= i < |requests| && i in completion[..k] ==> responses[i] == transport(processed[i])
      invariant forall i :: 0 <= i < |requests| && i !in completion[..k] ==> responses[i] == None
    {
      var index := completion[k];
      responses := responses[index := transport(processed[index])];
      assert completion[..k + 1] == completion[..k] + [index];
      k := k + 1;
    }
    assert completion[..k] == completion;
  }

  /** `fetch` run through `_handle_requests`: whatever the completion
      order, the answer is the one `Fetch` gives. */
  method FetchConcurrently<Q, P>(requests: seq<Q>, process: Q -> Q, transport: Q -> Option<P>, completion: seq<nat>)
    returns (r: Result<Fetched<Option<P>>>)
    requires AllComplete(|requests|, completion)
    ensures r == Fetch(requests, process, transport)
  {
    if |requests| == 0 {
      return Err(RuntimeError);
    }
    var responses := HandleRequests(requests, process, transport, completion);
    var expected := Fetch(requests, process, transport);
    if |responses| >= 2 {
      assert responses == expected.value.responses;
      r := Ok(Several(responses));
    } else {
      r := Ok(One(responses[0]));
    }
  }

  // The fetcher's own state ---------------------------------------------

  /** A legacy `Fetcher`: its rates, whether a session is open, and its
      token bucket once `open` built one. */
  datatype Fetcher = Fetcher(qps: int, maxQps: int, session: bool, bucket: Option<TokenBuckets.Bucket>)

  ghost predicate Inv(f: Fetcher) {
    f.bucket.Some? ==> TokenBuckets.Inv(f.bucket.value)
  }

  /** `Fetcher(settings)`: rates from the settings, 100 and 200 by default;
      no session and no bucket yet. */
  function NewFetcher(settings: map<string, int>): (f: Fetcher)
    ensures Inv(f) && !f.session && f.bucket.None?
    ensures f.qps == (if "qps" in settings then settings["qps"] else 100)
    ensures f.maxQps == (if "max_qps" in settings then settings["max_qps"] else 200)
  {
    var qps := if "qps" in settings then settings["qps"] else TokenBuckets.DefaultQps;
    var maxQps := if "max_qps" in settings then settings["max_qps"] else TokenBuckets.DefaultMaxQps;
    Fetcher(qps, maxQps, false, None)
  }

  /** `open()`: the session is created first, then the bucket, which is
      started full; rates outside `1 <= qps <= max_qps` fail the bucket's
      assertion with the session already open. */
  function Open(f: Fetcher): (r: (Fetcher, Option<PyError>))
    requires Inv(f)
    ensures Inv(r.0) && r.0.session && r.0.qps == f.qps && r.0.maxQps == f.maxQps
    ensures r.1.None? <==> 1 <= f.qps <= f.maxQps
    ensures r.1.Some? ==> r.1.value == AssertionError && r.0.bucket == f.bucket
    ensures r.1.None? ==> r.0.bucket.Some? && r.0.bucket.value.tokens == f.maxQps && r.0.bucket.value.task
    ensures r.1.None? ==> r.0.bucket == Some(TokenBuckets.Start(TokenBuckets.FetcherBucket(map["qps" := f.qps, "max_qps" := f.maxQps]).value))
  {
    match TokenBuckets.NewBucket(f.qps, f.maxQps)
    case Err(e) => (f.(session := true), Some(e))
    case Ok(b) => (f.(session := true, bucket := Some(TokenBuckets.Start(b))), None)
  }

  /** `close()`: the session is closed and dropped, then the bucket is
      stopped and dropped. Each step on a missing object is an
      AttributeError that ends `close` there. */
  function Close(f: Fetcher): (r: (Fetcher, Option<PyError>))
    requires Inv(f)
    ensures Inv(r.0)
    ensures r.1.None? <==> f.session && f.bucket.Some? && f.bucket.value.task
    ensures r.1.Some? ==> r.1.value == AttributeError
    ensures f.session ==> !r.0.session
    ensures r.1.None? ==> r.0.bucket.None? && r.0 == f.(session := false, bucket := None)
  {
    if !f.session then (f, Some(AttributeError))
    else if f.bucket.None? then (f.(session := false), Some(AttributeError))
    else match TokenBuckets.Stop(f.bucket.value)
      case Err(e) => (f.(session := false), Some(e))
      case Ok(_) => (f.(session := false, bucket := None), None)
  }

  /** `open` followed by `close`. With valid rates, `open` gives a full
      bucket and `close` undoes `open` without error. With invalid rates
      `open` fails; the actor thread's `_run` has no `try`, so the thread
      ends there and never reaches `close`, and a direct `close()` would
      fail on the missing bucket (AttributeError) after closing the
      session. */
  lemma OpenCloseRoundTrip(settings: map<string, int>)
    ensures var f := NewFetcher(settings);
      var (g, err) := Open(f);
      && (err.None? <==> TokenBuckets.FetcherBucket(settings).Ok?)
      && (err.None? ==> g.bucket.value.tokens == f.maxQps && Close(g) == (f, None))
      && (err.Some? ==> Close(g) == (f.(session := false), Some(AttributeError)))
  {
  }
}

=== FILE: legacy_item.dfy ===
/** The legacy item model (AsyncSpider/_item.py): a `Field` always carries a
    `default` entry, `ItemMeta` records each class's `Field` attributes in a
    class table and makes them the `__slots__` tuple, and construction
    writes every recorded default before the keyword arguments.

    `ItemMeta` assigns `__slots__` only after the class object exists, which
    does not change the instance layout: instances keep a `__dict__`, so
    the records built here are open. */
module LegacyItem {
  import opened Wrappers
  import opened PyDict
  import Storage
  import ClassTable

  type Name = string

  /** A `Field`: metadata values may be `None`. */
  type Field<V> = Dict<Name, Option<V>>

  const DefaultKey: Name := "default"

  /** `Field(default=None, **metadata)`: `default` comes first; passing it
      again among the metadata is a TypeError. */
  function MakeField<V>(default: Option<V>, metadata: Dict<Name, Option<V>>): (f: Result<Field<V>>)
    requires PyDict.Valid(metadata)
    ensures f.Ok? <==> DefaultKey !in metadata.m
    ensures f.Err? ==> f.error == TypeError
    ensures f.Ok? ==> PyDict.Valid(f.value) && |f.value.order| > 0 && f.value.order[0] == DefaultKey
    ensures f.Ok? ==> f.value.m == metadata.m[DefaultKey := default]
  {
    if DefaultKey in metadata.m then Err(TypeError)
    else Ok(Update(Put(Empty(), DefaultKey, default), metadata))
  }

  /** A class-body attribute: a `Field` or anything else. */
  datatype Attr<V> = FieldAttr(field: Field<V>) | OtherAttr(value: Option<V>)

  /** The `Field` attributes of a class body, in body order. */
  function FieldEntries<V>(body: Dict<Name, Attr<V>>): (r: Dict<Name, Field<V>>)
    requires PyDict.Valid(body)
    ensures PyDict.Valid(r)
    ensures forall k :: k in r.order <==> k in body.m && body.m[k].FieldAttr?
    ensures forall k :: k in r.m ==> r.m[k] == body.m[k].field
    decreases |body.order|
  {
    if body.order == [] then Empty()
    else
      var k := body.order[|body.order| - 1];
      var rest := FieldEntries(DropLast(body));
      if body.m[k].FieldAttr? then Put(rest, k, body.m[k].field) else rest
  }

  /** What a class statement produces: its class table entry (through the
      registry) and its `__slots__`: the body's own `Field` names. */
  datatype Defined<V> = Defined(reg: ClassTable.Registry<Field<V>>, slots: seq<Name>)

  /** The object `getattr(cls, 'fields')` finds while `class C(parent):
      body` is being defined: the dict the body binds to `fields` when it
      binds one (`own`), otherwise the table the parent is bound to. */
  function Found<V>(reg: ClassTable.Registry<Field<V>>, parent: Name, own: Option<Dict<Name, Field<V>>>): (t: Dict<Name, Field<V>>)
    requires ClassTable.Valid(reg) && (own.Some? ==> PyDict.Valid(own.value)) && (own.None? ==> parent in reg.owner)
    ensures PyDict.Valid(t)
  {
    if own.Some? then own.value else ClassTable.Table(reg, parent)
  }

  /** `class C(parent): body` under `ItemMeta` as written. A body that binds
      `fields` itself (`own`) gets that dict as its table, with its `Field`
      attributes written in. Otherwise the fields go into the table object
      the parent is bound to (`ClassTable.DefineShared`), which every class
      bound to it sees; with no such table, `getattr` raises AttributeError. */
  function DefineClass<V>(reg: ClassTable.Registry<Field<V>>, c: Name, parent: Name,
                          own: Option<Dict<Name, Field<V>>>, body: Dict<Name, Attr<V>>): (r: Result<Defined<V>>)
    requires ClassTable.Valid(reg) && PyDict.Valid(body) && (own.Some? ==> PyDict.Valid(own.value))
    ensures r.Err? <==> own.None? && parent !in reg.owner
    ensures r.Err? ==> r.error == AttributeError
    ensures r.Ok? ==> ClassTable.Valid(r.value.reg) && c in r.value.reg.owner
    ensures r.Ok? ==> NoDuplicates(r.value.slots)
    ensures r.Ok? ==> forall k :: k in r.value.slots <==> k in body.m && body.m[k].FieldAttr?
    ensures r.Ok? ==> forall k :: k in ClassTable.Table(r.value.reg, c).m <==>
      k in Found(reg, parent, own).m || (k in body.m && body.m[k].FieldAttr?)
    ensures r.Ok? ==> forall k :: k in body.m && body.m[k].FieldAttr? ==> ClassTable.Table(r.value.reg, c).m[k] == body.m[k].field
    ensures r.Ok? && own.None? ==> forall e :: e in reg.owner && e != c && reg.owner[e] == reg.owner[parent] ==>
      e in r.value.reg.owner && ClassTable.Table(r.value.reg, e) == ClassTable.Table(r.value.reg, c)
    ensures r.Ok? && own.Some? ==> forall e :: e in reg.owner && e != c ==>
      e in r.value.reg.owner && ClassTable.Table(r.value.reg, e) == ClassTable.Table(reg, e)
  {
    var entries := FieldEntries(body);
    if own.Some? then Ok(Defined(ClassTable.DeclareRoot(reg, c, Update(own.value, entries)), entries.order))
    else if parent !in reg.owner then Err(AttributeError)
    else Ok(Defined(ClassTable.DefineShared(reg, c, parent, entries), entries.order))
  }

  /** The evidently intended `ItemMeta`: as `DefineClass`, except that a
      class without its own `fields` gets a table of its own
      (`ClassTable.DefineOwn`), so no other class's table ever changes. */
  function DefineOwnClass<V>(reg: ClassTable.Registry<Field<V>>, c: Name, parent: Name,
                             own: Option<Dict<Name, Field<V>>>, body: Dict<Name, Attr<V>>): (r: Result<Defined<V>>)
    requires ClassTable.Valid(reg) && PyDict.Valid(body) && (own.Some? ==> PyDict.Valid(own.value))
    ensures r.Err? <==> own.None? && parent !in reg.owner
    ensures r.Err? ==> r.error == AttributeError
    ensures r.Ok? ==> ClassTable.Valid(r.value.reg) && c in r.value.reg.owner
    ensures r.Ok? ==> forall k :: k in r.value.slots <==> k in body.m && body.m[k].FieldAttr?
    ensures r.Ok? ==> forall k :: k in ClassTable.Table(r.value.reg, c).m <==>
      k in Found(reg, parent, own).m || (k in body.m && body.m[k].FieldAttr?)
    ensures r.Ok? ==> forall e :: e in reg.owner && e != c ==>
      e in r.value.reg.owner && ClassTable.Table(r.value.reg, e) == ClassTable.Table(reg, e)
  {
    var entries := FieldEntries(body);
    if own.Some? then Ok(Defined(ClassTable.DeclareRoot(reg, c, Update(own.value, entries)), entries.order))
    else if parent !in reg.owner then Err(AttributeError)
    else Ok(Defined(ClassTable.DefineOwn(reg, c, parent, entries), entries.order))
  }

  /** The two readings build the same table and slots for the class being
      defined; they differ only in whether the parent's sharers see it. */
  lemma SameClassTable<V>(reg: ClassTable.Registry<Field<V>>, c: Name, parent: Name,
                          own: Option<Dict<Name, Field<V>>>, body: Dict<Name, Attr<V>>)
    requires ClassTable.Valid(reg) && PyDict.Valid(body) && (own.Some? ==> PyDict.Valid(own.value))
    ensures var a := DefineClass(reg, c, parent, own, body);
      var b := DefineOwnClass(reg, c, parent, own, body);
      && a.Ok? == b.Ok?
      && (a.Ok? ==> a.value.slots == b.value.slots && ClassTable.Table(a.value.reg, c) == ClassTable.Table(b.value.reg, c))
  {
  }

  /** `f.get('default')`. */
  function DefaultOf<V>(f: Field<V>): Option<V> {
    if DefaultKey in f.m then f.m[DefaultKey] else None
  }

  /** The writes `self[k] = f.get('default')` over the table, in order. */
  function DefaultWrites<V>(fields: Dict<Name, Field<V>>): (ps: seq<(Name, Option<V>)>)
    requires PyDict.Valid(fields)
    ensures |ps| == |fields.order|
    ensures forall i :: 0 <= i < |ps| ==> ps[i] == (fields.order[i], DefaultOf(fields.m[fields.order[i]]))
  {
    seq(|fields.order|, i requires 0 <= i < |fields.order| => (fields.order[i], DefaultOf(fields.m[fields.order[i]])))
  }

  lemma DefaultWritesFacts<V>(fields: Dict<Name, Field<V>>)
    requires PyDict.Valid(fields)
    ensures PairKeys(DefaultWrites(fields)) == fields.m.Keys
    ensures forall a, b :: 0 <= a < b < |DefaultWrites(fields)| ==> DefaultWrites(fields)[a].0 != DefaultWrites(fields)[b].0
  {
    var ps := DefaultWrites(fields);
    forall k | k in fields.m ensures k in PairKeys(ps) {
      assert ps[IndexOf(fields.order, k)].0 == k;
    }
  }

  /** `Item.__init__(**kwargs)` for a class with table `fields` and
      `__slots__` `slots`: slots start as `None`, every table entry then
      takes its field's default, and the keywords are written last. Every
      name is accepted, since instances keep a `__dict__`. */
  function New<V>(fields: Dict<Name, Field<V>>, slots: seq<Name>, kw: Dict<Name, Option<V>>): (r: Storage.Record<V>)
    requires PyDict.Valid(fields) && PyDict.Valid(kw) && NoDuplicates(slots)
    ensures Storage.Valid(r) && Storage.Keys(r) == slots && r.open
    ensures forall k :: k in kw.m ==> Storage.Get(r, k) == Ok(kw.m[k])
    ensures forall k :: k !in kw.m && k in fields.m ==> Storage.Get(r, k) == Ok(DefaultOf(fields.m[k]))
    ensures forall k :: k !in kw.m && k !in fields.m && k in slots ==> Storage.Get(r, k) == Ok(None)
    ensures forall k :: k !in kw.m && k !in fields.m && k !in slots ==> Storage.Get(r, k).Err?
  {
    var r0 := Storage.Init(slots, true);
    var writes := DefaultWrites(fields);
    DefaultWritesFacts(fields);
    var r1 := Storage.Update(r0, writes).rec;
    Storage.UpdateWrites(r0, writes);
    forall k | k in fields.m ensures Storage.Get(r1, k) == Ok(DefaultOf(fields.m[k])) {
      assert writes[IndexOf(fields.order, k)].0 == k;
    }
    var ps := Items(kw);
    ItemsFacts(kw);
    var r2 := Storage.Update(r1, ps).rec;
    Storage.UpdateWrites(r1, ps);
    forall k | k in kw.m ensures Storage.Get(r2, k) == Ok(kw.m[k]) {
      assert ps[IndexOf(kw.order, k)] == (k, kw.m[k]);
    }
    r2
  }
}

=== FILE: legacy_scheduler.dfy ===
/** The legacy spider of AsyncSpider/_spider.py.

    Unlike the later generations, it has no fixed workers. An adder task
    turns every queued action into a drive task of its own and counts the
    drives in flight (`_driving_action_num`); a semaphore of
    `max_current_actions` permits bounds how many of them drive at once.
    Every drive that ends sets a finish event; the adder wakes on it and
    stops the loop once nothing is queued or in flight.

    The semaphore is modelled by its permits: `slots` has one entry per
    permit, and a drive holding a permit occupies a slot. Drive tasks that
    wait for a permit are `pending`; which one gets a free permit is left
    open. As in the other generations, everything between two `await`s is
    one atomic step. */
module LegacyScheduler {
  import opened Wrappers
  import opened PyDict
  import ClassTable
  import opened Actions
  import Scheduler

  // The `actions` registry of SpiderMeta -------------------------------------

  /** The names of `order` whose value in `m` carries the mark, in order. */
  function Keep<T>(order: seq<string>, m: map<string, T>, marked: T -> bool): (r: seq<string>)
    requires forall i :: 0 <= i < |order| ==> order[i] in m
    ensures forall k :: k in r <==> k in order && marked(m[k])
    ensures NoDuplicates(order) ==> NoDuplicates(r)
    decreases |order|
  {
    if order == [] then []
    else
      var rest := Keep(order[1..], m, marked);
      if marked(m[order[0]]) then
        assert NoDuplicates(order) ==> order[0] !in order[1..];
        [order[0]] + rest
      else rest
  }

  /** `{k: v for k, v in namespace.items() if isactionmethod(v)}`: the
      members of a class body that carry the action mark, in body order. */
  function Marked<T>(body: Dict<string, T>, marked: T -> bool): (r: Dict<string, T>)
    requires PyDict.Valid(body)
    ensures PyDict.Valid(r)
    ensures forall k :: k in r.m <==> k in body.m && marked(body.m[k])
    ensures forall k :: k in r.m ==> r.m[k] == body.m[k]
  {
    Dict(Keep(body.order, body.m, marked), map k | k in body.m && marked(body.m[k]) :: body.m[k])
  }

  /** `SpiderMeta.__new__` as written: the class looks `actions` up by
      attribute and updates the object it finds in place with its own
      action methods. A body that binds `actions` itself (`own`) finds that
      dict, which becomes the class's table. Otherwise the lookup finds the
      table object of the nearest class that bound one, which the class
      then shares with every other class bound to it. */
  function RegisterActions<T>(reg: ClassTable.Registry<T>, c: string, parent: string, own: Option<Dict<string, T>>,
                              body: Dict<string, T>, marked: T -> bool)
    : (r: ClassTable.Registry<T>)
    requires ClassTable.Valid(reg) && PyDict.Valid(body)
    requires own.None? ==> parent in reg.owner
    requires own.Some? ==> PyDict.Valid(own.value)
    ensures ClassTable.Valid(r) && c in r.owner
    ensures own.None? ==> forall k :: k in ClassTable.Table(r, c).m <==>
      k in ClassTable.Table(reg, parent).m || (k in body.m && marked(body.m[k]))
    ensures own.Some? ==> forall k :: k in ClassTable.Table(r, c).m <==>
      k in own.value.m || (k in body.m && marked(body.m[k]))
    ensures own.Some? ==> forall k :: k in own.value.m && !(k in body.m && marked(body.m[k])) ==>
      ClassTable.Table(r, c).m[k] == own.value.m[k]
    ensures forall k :: k in body.m && marked(body.m[k]) ==> ClassTable.Table(r, c).m[k] == body.m[k]
    ensures own.None? ==> forall d :: d in reg.owner && d != c && reg.owner[d] == reg.owner[parent] ==>
      d in r.owner && ClassTable.Table(r, d) == ClassTable.Table(r, c)
    ensures own.Some? ==> forall d :: d in reg.owner && d != c ==>
      d in r.owner && ClassTable.Table(r, d) == ClassTable.Table(reg, d)
  {
    if own.Some? then ClassTable.DeclareRoot(reg, c, Update(own.value, Marked(body, marked)))
    else ClassTable.DefineShared(reg, c, parent, Marked(body, marked))
  }

  /** The evidently intended registry: each spider class gets its own
      table, the parent's actions followed by its own, and no other class's
      table changes. */
  function RegisterOwnActions<T>(reg: ClassTable.Registry<T>, c: string, parent: string, body: Dict<string, T>, marked: T -> bool)
    : (r: ClassTable.Registry<T>)
    requires ClassTable.Valid(reg) && parent in reg.owner && PyDict.Valid(body)
    ensures ClassTable.Valid(r) && c in r.owner
    ensures forall k :: k in ClassTable.Table(r, c).m <==>
      k in ClassTable.Table(reg, parent).m || (k in body.m && marked(body.m[k]))
    ensures forall k :: k in body.m && marked(body.m[k]) ==> ClassTable.Table(r, c).m[k] == body.m[k]
    ensures forall d :: d in reg.owner && d != c ==> d in r.owner && ClassTable.Table(r, d) == ClassTable.Table(reg, d)
  {
    ClassTable.DefineOwn(reg, c, parent, Marked(body, marked))
  }

  /** The registry holding only `Spider`, whose body binds `actions = {}`
      and defines the action method `start_action`, so its table lists that
      one action. */
  function SpiderRoot(): (reg: ClassTable.Registry<bool>)
    ensures ClassTable.Valid(reg) && "Spider" in reg.owner
    ensures ClassTable.Table(reg, "Spider").m == map["start_action" := true]
  {
    ClassTable.DeclareRoot(ClassTable.EmptyRegistry(), "Spider", Put(Empty(), "start_action", true))
  }

  /** Two sibling spider classes, `A` with the action method `a` and a
      plain method `helper`, then `B` with the action method `b`; a member
      is represented by its mark. */
  function SpiderSiblings(shared: bool): (reg: ClassTable.Registry<bool>)
    ensures ClassTable.Valid(reg) && "Spider" in reg.owner && "A" in reg.owner && "B" in reg.owner
  {
    var r0 := SpiderRoot();
    var bodyA := Put(Put(Empty(), "a", true), "helper", false);
    var bodyB := Put(Empty(), "b", true);
    if shared then
      var r1 := RegisterActions(r0, "A", "Spider", None, bodyA, x => x);
      RegisterActions(r1, "B", "Spider", None, bodyB, x => x)
    else
      var r1 := RegisterOwnActions(r0, "A", "Spider", bodyA, x => x);
      RegisterOwnActions(r1, "B", "Spider", bodyB, x => x)
  }

  /** As written, `A.actions` lists `B`'s action and the root's lists
      both, while plain methods are never registered. */
  lemma SpiderActionsLeak()
    ensures var reg := SpiderSiblings(true);
      && "b" in ClassTable.Table(reg, "A").m && "a" in ClassTable.Table(reg, "B").m
      && "a" in ClassTable.Table(reg, "Spider").m && "start_action" in ClassTable.Table(reg, "A").m
      && "helper" !in ClassTable.Table(reg, "A").m
  {
    var r0 := SpiderRoot();
    var bodyA := Put(Put(Empty(), "a", true), "helper", false);
    var bodyB := Put(Empty(), "b", true);
    assert "start_action" in ClassTable.Table(r0, "Spider").m;
    assert "helper" !in ClassTable.Table(r0, "Spider").m && "helper" !in bodyB.m && !bodyA.m["helper"];
    SharedSiblings(r0, "Spider", "A", bodyA, "B", bodyB, x => x);
    var r2 := RegisterActions(RegisterActions(r0, "A", "Spider", None, bodyA, x => x), "B", "Spider", None, bodyB, x => x);
    assert SpiderSiblings(true) == r2;
  }

  /** Two classes registered under the same parent share one table, which
      the parent sees too, holding the marked members of both bodies. */
  lemma SharedSiblings<T>(reg: ClassTable.Registry<T>, parent: string, a: string, bodyA: Dict<string, T>,
                          b: string, bodyB: Dict<string, T>, marked: T -> bool)
    requires ClassTable.Valid(reg) && parent in reg.owner && PyDict.Valid(bodyA) && PyDict.Valid(bodyB)
    requires a != parent && b != parent && a != b
    ensures var r1 := RegisterActions(reg, a, parent, None, bodyA, marked);
      var r2 := RegisterActions(r1, b, parent, None, bodyB, marked);
      && a in r2.owner && b in r2.owner && parent in r2.owner
      && ClassTable.Table(r2, a) == ClassTable.Table(r2, b) == ClassTable.Table(r2, parent)
      && (forall k :: k in ClassTable.Table(r2, a).m <==>
            k in ClassTable.Table(reg, parent).m || (k in bodyA.m && marked(bodyA.m[k])) || (k in bodyB.m && marked(bodyB.m[k])))
  {
    var r1 := RegisterActions(reg, a, parent, None, bodyA, marked);
    assert ClassTable.Table(r1, parent) == ClassTable.Table(r1, a);
    var r2 := RegisterActions(r1, b, parent, None, bodyB, marked);
    assert ClassTable.Table(r2, a) == ClassTable.Table(r2, b);
    assert ClassTable.Table(r2, parent) == ClassTable.Table(r2, b);
  }

  /** With a table per class, each spider lists exactly its own actions. */
  lemma SpiderActionsIsolated()
    ensures var reg := SpiderSiblings(false);
      && "a" in ClassTable.Table(reg, "A").m && "b" !in ClassTable.Table(reg, "A").m
      && "b" in ClassTable.Table(reg, "B").m && "a" !in ClassTable.Table(reg, "B").m
      && "helper" !in ClassTable.Table(reg, "A").m
      && ClassTable.Table(reg, "Spider").m == map["start_action" := true]
  {
    var r0 := SpiderRoot();
    var bodyA := Put(Put(Empty(), "a", true), "helper", false);
    var r1 := RegisterOwnActions(r0, "A", "Spider", bodyA, x => x);
    assert ClassTable.Table(r1, "Spider") == ClassTable.Table(r0, "Spider");
    var bodyB := Put(Empty(), "b", true);
    var r2 := RegisterOwnActions(r1, "B", "Spider", bodyB, x => x);
    assert ClassTable.Table(r2, "A") == ClassTable.Table(r1, "A");
    assert ClassTable.Table(r2, "Spider") == ClassTable.Table(r0, "Spider");
    assert SpiderSiblings(false) == r2;
  }

  // Construction --------------------------------------------------------------

  /** The `max_current_actions` setting: absent, an `int` (a `bool` is
      one), another number, or a value `>=` cannot compare with 1. */
  datatype Setting = Absent | IntVal(n: int) | OtherNumber(atLeastOne: bool) | NotComparable

  const DefaultMaxCurrent := 10

  /** The adder task: not created before `open`, then waiting on the
      finish event, and done once it has stopped the loop. */
  datatype Adder = NotOpened | Waiting | Done

  /** The legacy spider's scheduling state. `driving` is
      `_driving_action_num`, `event` the finish event; `handed`, `logged`,
      `enqueued` and `finished` are as in the later generations, `logged`
      counting the exceptions that escape drive tasks. */
  datatype LSpider = LSpider(
    maxCurrent: int,
    queue: seq<Script>,
    pending: seq<Script>,
    slots: seq<Scheduler.Worker>,
    driving: int,
    event: bool,
    adder: Adder,
    handed: seq<nat>,
    logged: nat,
    enqueued: seq<Script>,
    finished: seq<Script>,
    loopStopped: bool)

  /** Reachable states: one slot per permit; `driving` counts the drive
      tasks created and not yet ended, pending or holding a permit; every
      action that entered the queue is queued, in a drive task, or
      finished; before `open` nothing drives; the loop is stopped exactly
      when the adder is done, and then nothing is queued or in flight. */
  ghost predicate Inv(s: LSpider) {
    && 1 <= s.maxCurrent && |s.slots| == s.maxCurrent
    && s.driving == |s.pending| + |Scheduler.Driven(s.slots)|
    && (forall i :: 0 <= i < |s.slots| && s.slots[i].Driving? ==> s.slots[i].pos <= |s.slots[i].action.steps|)
    && multiset(s.enqueued) == multiset(s.queue) + multiset(s.pending) + Scheduler.Driven(s.slots) + multiset(s.finished)
    && (s.adder == NotOpened ==> s.driving == 0)
    && (s.loopStopped <==> s.adder == Done)
    && (s.adder == Done ==> s.queue == [] && s.driving == 0)
  }

  /** The semaphore bound: at most `max_current_actions` actions are being
      driven at once, however many drive tasks are in flight. */
  lemma SemaphoreBounds(s: LSpider)
    requires Inv(s)
    ensures |Scheduler.Driven(s.slots)| <= s.maxCurrent
    ensures 0 <= s.driving && |Scheduler.Driven(s.slots)| <= s.driving
  {
  }

  /** `Spider(fetcher, saver, **settings)`: `max_current_actions` defaults
      to 10 and must be an `int` of at least 1 (a number below 1 fails the
      first test, any other number the `isinstance` test; a value that
      cannot be compared raises TypeError); the start action is queued. */
  function NewLegacy(setting: Setting): (r: Result<LSpider>)
    ensures r.Ok? <==> setting.Absent? || (setting.IntVal? && setting.n >= 1)
    ensures setting.NotComparable? ==> r == Err(TypeError)
    ensures (setting.OtherNumber? || (setting.IntVal? && setting.n < 1)) ==> r == Err(AssertionError)
    ensures r.Ok? ==> Inv(r.value) && r.value.maxCurrent == (if setting.Absent? then DefaultMaxCurrent else setting.n)
    ensures r.Ok? ==> r.value.queue == [StartAction] && r.value.pending == [] && r.value.driving == 0
    ensures r.Ok? ==> r.value.adder == NotOpened && !r.value.event && !r.value.loopStopped
  {
    match setting
    case NotComparable => Err(TypeError)
    case OtherNumber(_) => Err(AssertionError)
    case IntVal(n) => if n < 1 then Err(AssertionError) else Ok(Initial(n))
    case Absent => Ok(Initial(DefaultMaxCurrent))
  }

  function Initial(n: int): (s: LSpider)
    requires n >= 1
    ensures Inv(s) && s.maxCurrent == n && s.queue == [StartAction] && s.pending == [] && s.driving == 0
    ensures s.adder == NotOpened && !s.event && !s.loopStopped
  {
    var s := LSpider(n, [StartAction], [], seq(n, _ => Scheduler.Idle), 0, false, NotOpened, [], 0, [StartAction], [], false);
    Scheduler.DrivenEmpty(s.slots);
    s
  }

  // The adder -----------------------------------------------------------------

  /** The inner loop of `_driver_adder`: every queued action becomes a
      drive task, in queue order, and the driving count goes up by one per
      action. */
  function TakeQueued(s: LSpider): (r: LSpider)
    requires Inv(s) && s.adder == Waiting
    ensures Inv(r) && !r.loopStopped
    ensures r.queue == [] && r.pending == s.pending + s.queue && r.driving == s.driving + |s.queue|
    ensures r == s.(queue := [], pending := r.pending, driving := r.driving)
  {
    var r := s.(queue := [], pending := s.pending + s.queue, driving := s.driving + |s.queue|);
    TakeConserves(multiset(s.enqueued), multiset(s.queue), multiset(s.pending), Scheduler.Driven(s.slots), multiset(s.finished));
    assert multiset(r.pending) == multiset(s.pending) + multiset(s.queue);
    r
  }

  lemma TakeConserves<T>(e: multiset<T>, q: multiset<T>, p: multiset<T>, d: multiset<T>, f: multiset<T>)
    requires e == q + p + d + f
    ensures e == (p + q) + d + f
  {
  }

  /** `open()`: the adder starts and takes what is queued, which is at
      least the start action, then waits on the finish event. */
  function Open(s: LSpider): (r: LSpider)
    requires Inv(s) && s.adder == NotOpened
    ensures Inv(r) && r.adder == Waiting && !r.loopStopped
    ensures r.queue == [] && r.pending == s.queue && r.driving == |s.queue|
  {
    TakeQueued(s.(adder := Waiting))
  }

  /** The adder woken by the finish event: it stops the loop when nothing
      is in flight and nothing is queued; otherwise it clears the event,
      takes what was queued meanwhile, and waits again. */
  function Wake(s: LSpider): (r: LSpider)
    requires Inv(s) && s.adder == Waiting && s.event
    ensures Inv(r)
    ensures r.loopStopped <==> s.driving == 0 && s.queue == []
    ensures r.loopStopped ==> r == s.(adder := Done, loopStopped := true)
    ensures !r.loopStopped ==> !r.event && r.adder == Waiting && r.queue == []
    ensures !r.loopStopped ==> r.pending == s.pending + s.queue && r.driving == s.driving + |s.queue|
  {
    if s.driving == 0 && s.queue == [] then s.(adder := Done, loopStopped := true)
    else TakeQueued(s.(event := false))
  }

  // Drive tasks ---------------------------------------------------------------

  /** A drive task entering `async with semaphore`: the pending task `k`
      takes the free permit `w`. */
  function Acquire(s: LSpider, k: nat, w: nat): (r: LSpider)
    requires Inv(s) && !s.loopStopped && k < |s.pending| && w < |s.slots| && s.slots[w].Idle?
    ensures Inv(r) && !r.loopStopped
    ensures r.slots == s.slots[w := Scheduler.Driving(s.pending[k], 0, false)]
    ensures r.pending == s.pending[..k] + s.pending[k + 1..] && r.driving == s.driving
    ensures r == s.(pending := r.pending, slots := r.slots)
  {
    var a := s.pending[k];
    var r := s.(pending := s.pending[..k] + s.pending[k + 1..], slots := s.slots[w := Scheduler.Driving(a, 0, false)]);
    AcquireKeepsInv(s, k, w);
    r
  }

  lemma AcquireKeepsInv(s: LSpider, k: nat, w: nat)
    requires Inv(s) && k < |s.pending| && w < |s.slots| && s.slots[w].Idle?
    ensures var a := s.pending[k];
      Inv(s.(pending := s.pending[..k] + s.pending[k + 1..], slots := s.slots[w := Scheduler.Driving(a, 0, false)]))
  {
    var a := s.pending[k];
    Scheduler.DrivenUpdateCount(s.slots, w, Scheduler.Driving(a, 0, false));
    AcquireMultiset(s, k, w);
  }

  lemma AcquireMultiset(s: LSpider, k: nat, w: nat)
    requires k < |s.pending| && w < |s.slots| && s.slots[w].Idle?
    requires multiset(s.enqueued) == multiset(s.queue) + multiset(s.pending) + Scheduler.Driven(s.slots) + multiset(s.finished)
    ensures var a := s.pending[k]; var ws := s.slots[w := Scheduler.Driving(a, 0, false)];
      multiset(s.enqueued) == multiset(s.queue) + multiset(s.pending[..k] + s.pending[k + 1..]) + Scheduler.Driven(ws) + multiset(s.finished)
  {
    var a := s.pending[k];
    var p' := s.pending[..k] + s.pending[k + 1..];
    var ws := s.slots[w := Scheduler.Driving(a, 0, false)];
    Scheduler.DrivenUpdate(s.slots, w, Scheduler.Driving(a, 0, false));
    assert Scheduler.Held(s.slots[w]) == multiset{};
    assert Scheduler.Driven(ws) == Scheduler.Driven(s.slots) + multiset{a};
    TakeOut(s.pending, k);
    AcquireConserves(multiset(s.enqueued), multiset(s.queue), multiset(s.pending), multiset(p'),
                     Scheduler.Driven(s.slots), Scheduler.Driven(ws), multiset(s.finished), multiset{a});
  }

  lemma TakeOut<T>(xs: seq<T>, k: nat)
    requires k < |xs|
    ensures multiset(xs) == multiset(xs[..k] + xs[k + 1..]) + multiset{xs[k]}
  {
    assert xs == xs[..k] + [xs[k]] + xs[k + 1..];
  }

  lemma AcquireConserves<T>(e: multiset<T>, q: multiset<T>, p: multiset<T>, p': multiset<T>, d: multiset<T>, d': multiset<T>,
                            f: multiset<T>, a: multiset<T>)
    requires e == q + p + d + f && p == p' + a && d' == d + a
    ensures e == q + p' + d' + f
  {
  }

  /** What `add_action` queues when handed a value that is not an async
      iterable: driving it raises TypeError at once. */
  const NotIterable := Script("not an action", [], true)

  /** Whether a step raises in a legacy drive: a yielded value that is
      neither `None`, an item nor an `Action` (`handle_obj` raises
      TypeError), a fetch without a response, or a waited-for save that
      failed. */
  predicate LFails(st: Step) {
    || (st.Yields? && (st.obj.Unexpected? || (st.obj.Generator? && !st.obj.wrapped)))
    || st == Fetches(false)
    || (st.Saves? && st.wait && !st.ok)
  }

  /** What a step puts in the queue: a yielded `Action`, or whatever an
      explicit `add_action` is given (the legacy `add_action` checks
      nothing). */
  function LChild(st: Step): seq<Script> {
    match st
    case Yields(Generator(b, true)) => [b]
    case Adds(Generator(b, _)) => [b]
    case Adds(_) => [NotIterable]
    case _ => []
  }

  /** `handle_obj` and the action's own calls: an item yielded is saved
      without waiting; a `save` call hands its item over. */
  function LHanded(st: Step): seq<nat> {
    match st
    case Yields(ItemObj(i)) => [i]
    case Saves(i, _, _) => [i]
    case _ => []
  }

  /** One step of a legacy drive on the action in slot `w`. */
  function LPerform(s: LSpider, w: nat): (r: LSpider)
    requires w < |s.slots| && s.slots[w].Driving? && s.slots[w].pos < |s.slots[w].action.steps|
    ensures var a := s.slots[w].action; var p := s.slots[w].pos; var st := a.steps[p];
      && r.slots == s.slots[w := if LFails(st) then Scheduler.Driving(a, p, true) else Scheduler.Driving(a, p + 1, false)]
      && r.queue == s.queue + LChild(st) && r.enqueued == s.enqueued + LChild(st)
      && r.handed == s.handed + LHanded(st)
    ensures r == s.(slots := r.slots, queue := r.queue, enqueued := r.enqueued, handed := r.handed)
  {
    var a := s.slots[w].action;
    var p := s.slots[w].pos;
    var st := a.steps[p];
    var c := LChild(st);
    s.(slots := s.slots[w := if LFails(st) then Scheduler.Driving(a, p, true) else Scheduler.Driving(a, p + 1, false)],
       queue := s.queue + c, enqueued := s.enqueued + c, handed := s.handed + LHanded(st))
  }

  /** A step keeps the invariant. */
  function LAdvance(s: LSpider, w: nat): (r: LSpider)
    requires Inv(s) && !s.loopStopped && w < |s.slots| && s.slots[w].Driving? && !s.slots[w].raised
    requires s.slots[w].pos < |s.slots[w].action.steps|
    ensures Inv(r) && !r.loopStopped && r == LPerform(s, w)
  {
    var r := LPerform(s, w);
    var a := s.slots[w].action;
    Scheduler.DrivenSameHeld(s.slots, w, r.slots[w]);
    var c := LChild(a.steps[s.slots[w].pos]);
    PerformConserves(multiset(s.enqueued), multiset(s.queue), multiset(s.pending), Scheduler.Driven(s.slots),
                     Scheduler.Driven(r.slots), multiset(s.finished), multiset(c));
    r
  }

  lemma PerformConserves<T>(e: multiset<T>, q: multiset<T>, p: multiset<T>, d: multiset<T>, d': multiset<T>, f: multiset<T>, c: multiset<T>)
    requires e == q + p + d + f && d' == d
    ensures e + c == (q + c) + p + d' + f
  {
  }

  /** `exit_drive`, in the `finally` of a drive that is done or raised:
      the driving count goes down, the finish event is set and the permit
      is released; an exception escapes the task and is logged. */
  function LFinish(s: LSpider, w: nat): (r: LSpider)
    requires Inv(s) && !s.loopStopped && w < |s.slots| && s.slots[w].Driving?
    requires s.slots[w].raised || s.slots[w].pos == |s.slots[w].action.steps|
    ensures Inv(r) && !r.loopStopped
    ensures r.driving == s.driving - 1 && r.event
    ensures r.slots == s.slots[w := Scheduler.Idle] && r.finished == s.finished + [s.slots[w].action]
    ensures r.logged == s.logged + (if s.slots[w].raised || s.slots[w].action.raises then 1 else 0)
    ensures (r.queue, r.pending, r.handed, r.adder) == (s.queue, s.pending, s.handed, s.adder)
  {
    var a := s.slots[w].action;
    LFinishKeepsInv(s, w);
    s.(slots := s.slots[w := Scheduler.Idle], driving := s.driving - 1, event := true, finished := s.finished + [a],
       logged := s.logged + (if s.slots[w].raised || a.raises then 1 else 0))
  }

  lemma LFinishKeepsInv(s: LSpider, w: nat)
    requires Inv(s) && !s.loopStopped && w < |s.slots| && s.slots[w].Driving?
    ensures var a := s.slots[w].action;
      Inv(s.(slots := s.slots[w := Scheduler.Idle], driving := s.driving - 1, event := true, finished := s.finished + [a]))
  {
    var a := s.slots[w].action;
    var ws := s.slots[w := Scheduler.Idle];
    Scheduler.DrivenUpdate(s.slots, w, Scheduler.Idle);
    Scheduler.DrivenUpdateCount(s.slots, w, Scheduler.Idle);
    assert Scheduler.Driven(ws) + multiset{a} == Scheduler.Driven(s.slots);
    assert multiset(s.finished + [a]) == multiset(s.finished) + multiset{a};
    FinishConserves(multiset(s.enqueued), multiset(s.queue), multiset(s.pending), Scheduler.Driven(s.slots),
                    Scheduler.Driven(ws), multiset(s.finished), multiset{a});
  }

  lemma FinishConserves<T>(e: multiset<T>, q: multiset<T>, p: multiset<T>, d: multiset<T>, d': multiset<T>, f: multiset<T>, a: multiset<T>)
    requires e == q + p + d + f && d == d' + a
    ensures e == q + p + d' + (f + a)
  {
  }

  /** Once the adder has stopped the loop, every action that ever entered
      the queue was driven to its end: no drive task is left, pending or
      holding a permit. */
  lemma LStoppedMeansAllFinished(s: LSpider)
    requires Inv(s) && s.loopStopped
    ensures multiset(s.enqueued) == multiset(s.finished)
    ensures s.pending == [] && forall i :: 0 <= i < |s.slots| ==> s.slots[i] == Scheduler.Idle
  {
    Scheduler.DrivenEmpty(s.slots);
  }

  // The two dispatch tables side by side --------------------------------------

  /** `handle_obj` differs from the later `_drive`: a yielded async
      generator that is not an `Action`, and any unexpected object, end the
      legacy action with TypeError, where the later generations queue the
      generator and only warn about the object; `None`, items and `Action`s
      are handled alike. */
  lemma DispatchDiffers(b: Script, tag: nat, i: nat)
    ensures LFails(Yields(Generator(b, false))) && LChild(Yields(Generator(b, false))) == []
    ensures !Scheduler.Fails(Yields(Generator(b, false))) && Scheduler.Child(Yields(Generator(b, false))) == [b]
    ensures LFails(Yields(Unexpected(tag))) && !Scheduler.Fails(Yields(Unexpected(tag)))
    ensures forall o: Obj :: (o.Nothing? || o.ItemObj? || (o.Generator? && o.wrapped)) ==>
      && LFails(Yields(o)) == Scheduler.Fails(Yields(o))
      && LChild(Yields(o)) == Scheduler.Child(Yields(o))
      && LHanded(Yields(o)) == Scheduler.Handed(Yields(o))
  {
  }
}

=== FILE: pipeline.dfy ===
/** Processor pipelines: the processor list of `SuperProcessorMixin`
    (AsyncSpider/core/base.py) and `SuperProcessor` (AsyncSpider/fetsav.py),
    the `Fetcher` / `Saver` owners of both generations
    (AsyncSpider/fetsav.py, AsyncSpider/core/fetsav.py), how processor hooks
    reach the owner's callback queues, and the order in which `fetch` and
    `save` hand a value to the processors. */
module Pipeline {
  import opened Wrappers
  import opened Callbacks
  import opened Trace
  import FlagExecutor
  import Executor

  /** A `Fetcher` runs request processors, a `Saver` item processors. */
  datatype Kind = FetcherKind | SaverKind

  /** A processor object. `kind` says which back-reference mixin it has
      (`set_fetcher` for a `RequestProcessor`, `set_saver` for an
      `ItemProcessor`); `id` stands for object identity. */
  datatype Processor = Processor(id: nat, kind: Kind, onStart: Callback, onStop: Callback)

  /** `SuperProcessorMixin.add_processor`: a processor already in the list
      is refused, any other is appended. */
  function Add(procs: seq<Processor>, p: Processor): (r: Result<seq<Processor>>)
    ensures r.Ok? <==> p !in procs
    ensures r.Err? ==> r.error == ValueError
    ensures r.Ok? ==> |r.value| == |procs| + 1 && r.value[..|procs|] == procs && r.value[|procs|] == p
  {
    if p in procs then Err(ValueError) else Ok(procs + [p])
  }

  /** `SuperProcessorMixin.remove_processor`: an absent processor is a
      ValueError; otherwise it leaves the list and the others keep their
      relative order. */
  function Remove(procs: seq<Processor>, p: Processor): (r: Result<seq<Processor>>)
    ensures r.Ok? <==> p in procs
    ensures r.Err? ==> r.error == ValueError
    ensures r.Ok? ==> |r.value| == |procs| - 1 && multiset(r.value) == multiset(procs) - multiset{p}
    ensures r.Ok? ==> var i := IndexOf(procs, p);
      && p !in procs[..i]
      && r.value == procs[..i] + procs[i + 1..]
  {
    if p !in procs then Err(ValueError)
    else
      var i := IndexOf(procs, p);
      assert procs == procs[..i] + [p] + procs[i + 1..];
      Ok(RemoveFirst(procs, p))
  }

  /** A list built only by `Add` holds each processor at most once; adding
      and then removing a processor gives the list back. */
  lemma AddRemoveRoundTrip(procs: seq<Processor>, p: Processor)
    requires NoDuplicates(procs) && p !in procs
    ensures Add(procs, p).Ok? && NoDuplicates(Add(procs, p).value)
    ensures Remove(Add(procs, p).value, p) == Ok(procs)
  {
    var ps := procs + [p];
    assert forall j :: 0 <= j < |procs| ==> ps[j] == procs[j];
    assert IndexOf(ps, p) == |procs|;
    assert ps[..|procs|] == procs && ps[|procs| + 1..] == [];
    assert RemoveFirst(ps, p) == procs;
  }

  /** Removing a processor from a list without duplicates keeps every
      other processor and only those. */
  lemma RemoveDrops(procs: seq<Processor>, p: Processor)
    requires NoDuplicates(procs) && p in procs
    ensures Remove(procs, p).Ok?
    ensures forall q :: q in Remove(procs, p).value <==> q in procs && q != p
  {
    var i := IndexOf(procs, p);
    var a, b := procs[..i], procs[i + 1..];
    assert procs == a + [p] + b;
    assert Remove(procs, p).value == a + b;
    assert p !in a by {
      forall j | 0 <= j < |a| ensures a[j] != p { assert procs[j] == a[j]; }
    }
    assert p !in b by {
      forall j | 0 <= j < |b| ensures b[j] != p { assert procs[i + 1 + j] == b[j]; }
    }
  }

  /** `add_processor` of the `Fetcher` and `Saver` owners: refused unless
      the owner is still initial, then as `Add`. */
  function GatedAdd(initial: bool, procs: seq<Processor>, p: Processor): (r: Result<seq<Processor>>)
    ensures r.Ok? <==> initial && p !in procs
    ensures !initial ==> r == Err(AssertionError)
    ensures initial ==> r == Add(procs, p)
  {
    if !initial then Err(AssertionError) else Add(procs, p)
  }

  /** `remove_processor` of the owners: refused unless still initial. */
  function GatedRemove(initial: bool, procs: seq<Processor>, p: Processor): (r: Result<seq<Processor>>)
    ensures r.Ok? <==> initial && p in procs
    ensures !initial ==> r == Err(AssertionError)
    ensures initial ==> r == Remove(procs, p)
  {
    if !initial then Err(AssertionError) else Remove(procs, p)
  }

  /** Once a core owner's executor has started, its processor list is
      frozen; the same holds for a legacy owner once it left `initial`. */
  lemma ListFrozenAfterStart(e: FlagExecutor.FExec, l: Executor.Exec, procs: seq<Processor>, p: Processor)
    requires FlagExecutor.Inv(e) && FlagExecutor.Begin(e).Ok?
    requires Executor.Inv(l) && Executor.Begin(l).Ok?
    ensures GatedAdd(FlagExecutor.Begin(e).value.flags.initial, procs, p) == Err(AssertionError)
    ensures GatedRemove(FlagExecutor.Begin(e).value.flags.initial, procs, p) == Err(AssertionError)
    ensures GatedAdd(Executor.Begin(l).value.state == Executor.Initial, procs, p) == Err(AssertionError)
    ensures GatedRemove(Executor.Begin(l).value.state == Executor.Initial, procs, p) == Err(AssertionError)
  {
  }

  /** A processor's back-reference (`_fetcher` / `_saver`). */
  datatype Ref = NoRef | RefTo(owner: nat, kind: Kind)

  /** What a legacy owner's add or remove leaves behind: the list, the
      processor's back-reference, and the exception if one was raised. The
      list change happens before the back-reference is set, so it persists
      when setting it fails. */
  datatype Outcome = Outcome(procs: seq<Processor>, ref: Ref, error: Option<PyError>)

  /** `Fetcher.add_processor` / `Saver.add_processor` of AsyncSpider/fetsav.py:
      the gated add, then `set_fetcher(self)` / `set_saver(self)`. A
      processor of the other kind has no such setter: it is appended, then
      an AttributeError is raised. */
  function LegacyAdd(owner: nat, kind: Kind, initial: bool, procs: seq<Processor>, p: Processor, ref: Ref): (o: Outcome)
    ensures o.error.None? <==> initial && p !in procs && p.kind == kind
    ensures o.error.None? ==> o.procs == procs + [p] && o.ref == RefTo(owner, kind)
    ensures !initial ==> o == Outcome(procs, ref, Some(AssertionError))
    ensures initial && p in procs ==> o == Outcome(procs, ref, Some(ValueError))
    ensures initial && p !in procs && p.kind != kind ==> o == Outcome(procs + [p], ref, Some(AttributeError))
  {
    match GatedAdd(initial, procs, p)
    case Err(err) => Outcome(procs, ref, Some(err))
    case Ok(ps) =>
      if p.kind != kind then Outcome(ps, ref, Some(AttributeError))
      else Outcome(ps, RefTo(owner, kind), None)
  }

  /** `Fetcher.remove_processor` / `Saver.remove_processor`: the gated
      removal, then the back-reference is reset to `None`. */
  function LegacyRemove(kind: Kind, initial: bool, procs: seq<Processor>, p: Processor, ref: Ref): (o: Outcome)
    ensures o.error.None? <==> initial && p in procs && p.kind == kind
    ensures o.error.None? ==> Remove(procs, p) == Ok(o.procs) && o.ref == NoRef
    ensures !initial ==> o == Outcome(procs, ref, Some(AssertionError))
    ensures initial && p !in procs ==> o == Outcome(procs, ref, Some(ValueError))
    ensures initial && p in procs && p.kind != kind ==> o.error == Some(AttributeError) && Remove(procs, p) == Ok(o.procs) && o.ref == ref
  {
    match GatedRemove(initial, procs, p)
    case Err(err) => Outcome(procs, ref, Some(err))
    case Ok(ps) =>
      if p.kind != kind then Outcome(ps, ref, Some(AttributeError))
      else Outcome(ps, NoRef, None)
  }

  /** `_check_fetcher` / `_check_saver`: the back-reference must hold an
      owner of the expected kind (`None` fails the `isinstance` test). */
  function CheckRef(ref: Ref, kind: Kind): (r: Result<()>)
    ensures r.Ok? <==> ref.RefTo? && ref.kind == kind
    ensures r.Err? ==> r.error == AssertionError
  {
    if ref.RefTo? && ref.kind == kind then Ok(()) else Err(AssertionError)
  }

  /** The back-reference follows the processor's membership: after a
      successful add the processor's check passes and names the owner;
      after a successful removal it fails. */
  lemma BackReferenceFollowsMembership(owner: nat, kind: Kind, procs: seq<Processor>, p: Processor, ref: Ref)
    requires NoDuplicates(procs) && p !in procs && p.kind == kind
    ensures var a := LegacyAdd(owner, kind, true, procs, p, ref);
      && a.error.None? && CheckRef(a.ref, kind).Ok? && a.ref.owner == owner
      && var r := LegacyRemove(kind, true, a.procs, p, a.ref);
      && r.error.None? && r.procs == procs && CheckRef(r.ref, kind).Err?
  {
    AddRemoveRoundTrip(procs, p);
  }

  /** The hooks of `procs` bound for queue `w`, in list order. */
  function Hooks(procs: seq<Processor>, w: Which): (hs: seq<Callback>)
    ensures |hs| == |procs|
  {
    seq(|procs|, i requires 0 <= i < |procs| => if w == Start then procs[i].onStart else procs[i].onStop)
  }

  /** `active_all` (core) and `_register_all` (legacy): a start callback
      that, when it runs, queues every processor's `on_start` as a start
      callback and its `on_stop` as a stop callback, in list order. The
      list is the one the owner holds when its start callbacks run. */
  function Registration(name: string, procs: seq<Processor>): Callback {
    Callback(name, false, Hooks(procs, Start), Hooks(procs, Stop))
  }

  /** A callback that queues nothing when it runs. */
  predicate Quiet(c: Callback) {
    c.onStart == [] && c.onStop == []
  }

  predicate QuietHooks(procs: seq<Processor>) {
    forall i :: 0 <= i < |procs| ==> Quiet(procs[i].onStart) && Quiet(procs[i].onStop)
  }

  /** Quiet callbacks contribute nothing to either queue. */
  lemma {:induction false} SpawnedOntoQuiet(cs: seq<Callback>, w: Which)
    requires forall i :: 0 <= i < |cs| ==> Quiet(cs[i])
    ensures SpawnedOnto(cs, w) == []
    decreases |cs|
  {
    if cs != [] {
      SpawnedOntoQuiet(cs[..|cs| - 1], w);
    }
  }

  predicate AllQuiet(cs: seq<Callback>) {
    forall i :: 0 <= i < |cs| ==> Quiet(cs[i])
  }

  /** What a start queue `a + [reg] + b` queues when it drains: only what
      the registration callback queues. */
  lemma SpawnedByRegistration(a: seq<Callback>, reg: Callback, b: seq<Callback>, w: Which)
    requires AllQuiet(a) && AllQuiet(b)
    ensures SpawnedOnto(a + [reg] + b, w) == Spawn(reg, w)
  {
    SpawnedOntoQuiet(a, w);
    SpawnedOntoQuiet(b, w);
    SpawnedOntoAppend(a + [reg], b, w);
    SpawnedOntoAppend(a, [reg], w);
    assert [reg][..0] == [];
  }

  /** The queues an owner's drains see when its start queue holds quiet
      callbacks around one registration callback: the start drain runs the
      queue and then every processor's `on_start`; the stop queue ends up
      as the construction-time stop callbacks followed by every processor's
      `on_stop`. */
  lemma RegistrationDrain(a: seq<Callback>, b: seq<Callback>, stop: seq<Callback>, procs: seq<Processor>, name: string)
    requires AllQuiet(a) && AllQuiet(b) && QuietHooks(procs)
    ensures Drain(a + [Registration(name, procs)] + b, Start) == a + [Registration(name, procs)] + b + Hooks(procs, Start)
    ensures AfterDrain(Queues(a + [Registration(name, procs)] + b, stop), Start).stop == stop + Hooks(procs, Stop)
  {
    RegistrationStartDrain(a, b, procs, name);
    RegistrationStopQueue(a, b, stop, procs, name);
  }

  lemma RegistrationStartDrain(a: seq<Callback>, b: seq<Callback>, procs: seq<Processor>, name: string)
    requires AllQuiet(a) && AllQuiet(b) && QuietHooks(procs)
    ensures Drain(a + [Registration(name, procs)] + b, Start) == a + [Registration(name, procs)] + b + Hooks(procs, Start)
  {
    var reg := Registration(name, procs);
    var q := a + [reg] + b;
    var hs := Hooks(procs, Start);
    SpawnedByRegistration(a, reg, b, Start);
    assert SpawnedOnto(q, Start) == hs;
    forall c | c in hs ensures Spawn(c, Start) == [] {
      var i :| 0 <= i < |hs| && hs[i] == c;
    }
    DrainTwoLevels(q, [], Start);
    assert q + [] == q;
  }

  lemma RegistrationStopQueue(a: seq<Callback>, b: seq<Callback>, stop: seq<Callback>, procs: seq<Processor>, name: string)
    requires AllQuiet(a) && AllQuiet(b) && QuietHooks(procs)
    ensures AfterDrain(Queues(a + [Registration(name, procs)] + b, stop), Start).stop == stop + Hooks(procs, Stop)
  {
    var reg := Registration(name, procs);
    var q := a + [reg] + b;
    var hs := Hooks(procs, Start);
    RegistrationStartDrain(a, b, procs, name);
    SpawnedByRegistration(a, reg, b, Stop);
    SpawnedOntoQuiet(hs, Stop);
    SpawnedOntoAppend(q, hs, Stop);
    assert SpawnedOnto(Drain(q, Start), Stop) == Hooks(procs, Stop);
  }

  /** A core `Fetcher` (AsyncSpider/core/fetsav.py): the thread executor
      queues `set_event_loop`; the constructor then queues `set_session`,
      `close_session` on stop, and `active_all`. */
  function CoreFetcher(setEventLoop: Callback, setSession: Callback, closeSession: Callback, procs: seq<Processor>): (e: FlagExecutor.FExec)
    ensures FlagExecutor.Inv(e) && e.flags.initial && e.policy == CancelPending
    ensures e.queues == Queues([setEventLoop, setSession, Registration("active_all", procs)], [closeSession])
  {
    var e := FlagExecutor.New(CancelPending, setEventLoop);
    var e := FlagExecutor.CallOn(e, Start, setSession);
    var e := FlagExecutor.CallOn(e, Stop, closeSession);
    FlagExecutor.CallOn(e, Start, Registration("active_all", procs))
  }

  /** A core `Saver`: its `_clean_loop` waits for pending tasks instead of
      cancelling them, and it queues only `active_all`. */
  function CoreSaver(setEventLoop: Callback, procs: seq<Processor>): (e: FlagExecutor.FExec)
    ensures FlagExecutor.Inv(e) && e.flags.initial && e.policy == AwaitPending
    ensures e.queues == Queues([setEventLoop, Registration("active_all", procs)], [])
  {
    FlagExecutor.CallOn(FlagExecutor.New(AwaitPending, setEventLoop), Start, Registration("active_all", procs))
  }

  /** A legacy `Fetcher` (AsyncSpider/fetsav.py): `SuperProcessor` queues
      `_register_all` right after `set_event_loop`; the `Fetcher`
      constructor then queues `set_session` and `close_session`. */
  function LegacyFetcher(setEventLoop: Callback, setSession: Callback, closeSession: Callback, procs: seq<Processor>): (e: Executor.Exec)
    ensures Executor.Inv(e) && e.state == Executor.Initial && e.policy == CancelPending
    ensures e.queues == Queues([setEventLoop, Registration("_register_all", procs), setSession], [closeSession])
  {
    var e := Executor.NewThreaded(CancelPending, setEventLoop);
    var e := Executor.CallOn(e, Start, Registration("_register_all", procs));
    var e := Executor.CallOn(e, Start, setSession);
    Executor.CallOn(e, Stop, closeSession)
  }

  /** A legacy `Saver`: waits for pending tasks at shutdown. */
  function LegacySaver(setEventLoop: Callback, procs: seq<Processor>): (e: Executor.Exec)
    ensures Executor.Inv(e) && e.state == Executor.Initial && e.policy == AwaitPending
    ensures e.queues == Queues([setEventLoop, Registration("_register_all", procs)], [])
  {
    Executor.CallOn(Executor.NewThreaded(AwaitPending, setEventLoop), Start, Registration("_register_all", procs))
  }

  /** A core owner's life, for a start queue of quiet callbacks around
      one registration callback and a quiet stop queue: start callbacks
      run in queue order and then every processor's `on_start` in list
      order, all while the executor is still initial; once stopped, the
      construction-time stop callbacks run and then every processor's
      `on_stop`, after the loop was cleaned under the owner's policy. */
  lemma CoreLife(e: FlagExecutor.FExec, a: seq<Callback>, b: seq<Callback>, procs: seq<Processor>, name: string)
    requires FlagExecutor.Inv(e) && e.flags.initial
    requires e.queues.start == a + [Registration(name, procs)] + b
    requires AllQuiet(a) && AllQuiet(b) && AllQuiet(e.queues.stop) && QuietHooks(procs)
    ensures FlagExecutor.Begin(e).Ok? && FlagExecutor.RequestStop(FlagExecutor.Begin(e).value).Ok?
    ensures RanIn(FlagExecutor.Begin(e).value.trace, FlagExecutor.InitialFlags) == a + [Registration(name, procs)] + b + Hooks(procs, Start)
    ensures var s := FlagExecutor.RequestStop(FlagExecutor.Begin(e).value).value;
      && RanIn(FlagExecutor.LoopEnds(s, false).trace, FlagExecutor.StoppedFlags) == e.queues.stop + Hooks(procs, Stop)
      && Cleaned(e.policy, s.tasks, FlagExecutor.RunningFlags) in FlagExecutor.LoopEnds(s, false).trace
  {
    RegistrationDrain(a, b, e.queues.stop, procs, name);
    assert e.queues == Queues(e.queues.start, e.queues.stop);
    var bg := FlagExecutor.Begin(e).value;
    assert bg.queues.stop == e.queues.stop + Hooks(procs, Stop);
    StopDrain(e.queues.stop, procs);
    var s := FlagExecutor.RequestStop(bg).value;
    var r := FlagExecutor.LoopEnds(s, false);
    assert r.trace[|s.trace|] in r.trace;
  }

  /** A core `Fetcher`'s whole life: the session exists before any
      processor's `on_start` runs (they run last, in list order), and on
      stop the session is closed before every processor's `on_stop`, which
      run in list order; pending tasks are cancelled. */
  lemma CoreFetcherLife(setEventLoop: Callback, setSession: Callback, closeSession: Callback, procs: seq<Processor>)
    requires Quiet(setEventLoop) && Quiet(setSession) && Quiet(closeSession) && QuietHooks(procs)
    ensures var e := CoreFetcher(setEventLoop, setSession, closeSession, procs);
      && FlagExecutor.Begin(e).Ok?
      && RanIn(FlagExecutor.Begin(e).value.trace, FlagExecutor.InitialFlags) == [setEventLoop, setSession, Registration("active_all", procs)] + Hooks(procs, Start)
      && FlagExecutor.RequestStop(FlagExecutor.Begin(e).value).Ok?
      && var s := FlagExecutor.RequestStop(FlagExecutor.Begin(e).value).value;
      && RanIn(FlagExecutor.LoopEnds(s, false).trace, FlagExecutor.StoppedFlags) == [closeSession] + Hooks(procs, Stop)
      && Cleaned(CancelPending, s.tasks, FlagExecutor.RunningFlags) in FlagExecutor.LoopEnds(s, false).trace
  {
    var e := CoreFetcher(setEventLoop, setSession, closeSession, procs);
    assert e.queues.start == [setEventLoop, setSession] + [Registration("active_all", procs)] + [];
    CoreLife(e, [setEventLoop, setSession], [], procs, "active_all");
  }

  /** A core `Saver`'s life: processor hooks run in list order after the
      executor's own start callback, and pending tasks are awaited rather
      than cancelled. */
  lemma CoreSaverLife(setEventLoop: Callback, procs: seq<Processor>)
    requires Quiet(setEventLoop) && QuietHooks(procs)
    ensures var e := CoreSaver(setEventLoop, procs);
      && FlagExecutor.Begin(e).Ok?
      && RanIn(FlagExecutor.Begin(e).value.trace, FlagExecutor.InitialFlags) == [setEventLoop, Registration("active_all", procs)] + Hooks(procs, Start)
      && FlagExecutor.RequestStop(FlagExecutor.Begin(e).value).Ok?
      && var s := FlagExecutor.RequestStop(FlagExecutor.Begin(e).value).value;
      && RanIn(FlagExecutor.LoopEnds(s, false).trace, FlagExecutor.StoppedFlags) == Hooks(procs, Stop)
      && Cleaned(AwaitPending, s.tasks, FlagExecutor.RunningFlags) in FlagExecutor.LoopEnds(s, false).trace
  {
    var e := CoreSaver(setEventLoop, procs);
    assert e.queues.start == [setEventLoop] + [Registration("active_all", procs)] + [];
    CoreLife(e, [setEventLoop], [], procs, "active_all");
    assert [] + Hooks(procs, Stop) == Hooks(procs, Stop);
  }

  /** A legacy owner's life, for a start queue of quiet callbacks around
      one registration callback and a quiet stop queue: the start callbacks
      and then the processors' `on_start` run while starting, the stop
      callbacks and then the processors' `on_stop` while stopping, and the
      loop is cleaned under the owner's policy. */
  lemma LegacyLife(e: Executor.Exec, a: seq<Callback>, b: seq<Callback>, procs: seq<Processor>, name: string)
    requires Executor.Inv(e) && e.state == Executor.Initial
    requires e.queues.start == a + [Registration(name, procs)] + b
    requires AllQuiet(a) && AllQuiet(b) && AllQuiet(e.queues.stop) && QuietHooks(procs)
    ensures Executor.Begin(e).Ok? && Executor.RequestStop(Executor.Begin(e).value).Ok?
    ensures var s := Executor.RequestStop(Executor.Begin(e).value).value;
      && var r := Executor.LoopEnds(s, false);
      && RanIn(r.trace, Executor.Starting) == a + [Registration(name, procs)] + b + Hooks(procs, Start)
      && RanIn(r.trace, Executor.Stopping) == e.queues.stop + Hooks(procs, Stop)
      && Cleaned(e.policy, s.tasks, Executor.Stopping) in r.trace
  {
    Executor.Lifecycle(e, false);
    RegistrationDrain(a, b, e.queues.stop, procs, name);
    assert e.queues == Queues(e.queues.start, e.queues.stop);
    StopDrain(e.queues.stop, procs);
    var s := Executor.RequestStop(Executor.Begin(e).value).value;
    assert s.policy == e.policy;
  }

  /** A legacy `Fetcher`'s life: `_register_all` runs before `set_session`
      but the hooks it queues run after it, so the session again exists
      before any `on_start`; stop callbacks close the session first. */
  lemma LegacyFetcherLife(setEventLoop: Callback, setSession: Callback, closeSession: Callback, procs: seq<Processor>)
    requires Quiet(setEventLoop) && Quiet(setSession) && Quiet(closeSession) && QuietHooks(procs)
    ensures var e := LegacyFetcher(setEventLoop, setSession, closeSession, procs);
      && var r := Executor.LoopEnds(Executor.RequestStop(Executor.Begin(e).value).value, false);
      && RanIn(r.trace, Executor.Starting) == [setEventLoop, Registration("_register_all", procs), setSession] + Hooks(procs, Start)
      && RanIn(r.trace, Executor.Stopping) == [closeSession] + Hooks(procs, Stop)
  {
    var e := LegacyFetcher(setEventLoop, setSession, closeSession, procs);
    assert e.queues.start == [setEventLoop] + [Registration("_register_all", procs)] + [setSession];
    LegacyLife(e, [setEventLoop], [setSession], procs, "_register_all");
  }

  /** A legacy `Saver`'s life: its stop callbacks are the processors'
      `on_stop` hooks in list order, run while stopping, and its pending
      tasks are awaited rather than cancelled. */
  lemma LegacySaverLife(setEventLoop: Callback, procs: seq<Processor>)
    requires Quiet(setEventLoop) && QuietHooks(procs)
    ensures var e := LegacySaver(setEventLoop, procs);
      && var s := Executor.RequestStop(Executor.Begin(e).value).value;
      && var r := Executor.LoopEnds(s, false);
      && RanIn(r.trace, Executor.Starting) == [setEventLoop, Registration("_register_all", procs)] + Hooks(procs, Start)
      && RanIn(r.trace, Executor.Stopping) == Hooks(procs, Stop)
      && Cleaned(AwaitPending, s.tasks, Executor.Stopping) in r.trace
  {
    var e := LegacySaver(setEventLoop, procs);
    assert e.queues.start == [setEventLoop] + [Registration("_register_all", procs)] + [];
    LegacyLife(e, [setEventLoop], [], procs, "_register_all");
    assert [] + Hooks(procs, Stop) == Hooks(procs, Stop);
  }

  /** The stop queue after registration holds only quiet callbacks, so
      it drains exactly as queued. */
  lemma StopDrain(stop: seq<Callback>, procs: seq<Processor>)
    requires forall i :: 0 <= i < |stop| ==> Quiet(stop[i])
    requires QuietHooks(procs)
    ensures Drain(stop + Hooks(procs, Stop), Stop) == stop + Hooks(procs, Stop)
  {
    var q := stop + Hooks(procs, Stop);
    forall i | 0 <= i < |q| ensures Spawn(q[i], Stop) == [] {
      if i >= |stop| {
        assert q[i] == procs[i - |stop|].onStop;
      }
    }
    DrainWithoutRequeue(q, Stop);
  }

  /** `for p in self._processors: await p.process(value)`: each processor
      in list order sees the value the previous one left, and the first
      one to raise ends the loop with its error. */
  function ApplyAll<S(!new)>(procs: seq<Processor>, process: (Processor, S) -> Result<S>, v: S): (r: Result<S>)
    ensures procs == [] ==> r == Ok(v)
    ensures |procs| == 1 ==> r == process(procs[0], v)
    ensures r.Err? ==> exists p, u :: p in procs && process(p, u) == r
    decreases |procs|
  {
    if procs == [] then Ok(v)
    else
      var init := procs[..|procs| - 1];
      assert forall p :: p in init ==> p in procs;
      match ApplyAll(init, process, v)
      case Err(e) => Err(e)
      case Ok(u) => process(procs[|procs| - 1], u)
  }

  /** The rest of a chain, run on what its first part produced; an error
      from the first part is passed on untouched. */
  function Continue<S(!new)>(procs: seq<Processor>, process: (Processor, S) -> Result<S>, prior: Result<S>): Result<S> {
    if prior.Ok? then ApplyAll(procs, process, prior.value) else prior
  }

  /** Running two lists one after the other is running their
      concatenation: the pipeline is sequential composition in list order. */
  lemma {:induction false} ApplyAllAppend<S(!new)>(a: seq<Processor>, b: seq<Processor>, process: (Processor, S) -> Result<S>, v: S)
    ensures ApplyAll(a + b, process, v) == Continue(b, process, ApplyAll(a, process, v))
    decreases |b|
  {
    if b == [] {
      assert a + b == a;
    } else {
      var b' := b[..|b| - 1];
      assert (a + b)[..|a + b| - 1] == a + b';
      ApplyAllAppend(a, b', process, v);
    }
  }

  /** A processor that appends its identity to a log. */
  function LogId(p: Processor, log: seq<nat>): Result<seq<nat>> {
    Ok(log + [p.id])
  }

  /** The identities of a processor list, in list order. */
  function Ids(procs: seq<Processor>): (ids: seq<nat>)
    ensures |ids| == |procs| && forall i :: 0 <= i < |procs| ==> ids[i] == procs[i].id
  {
    seq(|procs|, i requires 0 <= i < |procs| => procs[i].id)
  }

  /** Each processor is applied exactly once, in list order: a processor
      that logs its identity leaves the identities of the list, in order. */
  lemma {:induction false} ApplyAllVisitsInOrder(procs: seq<Processor>, log: seq<nat>)
    ensures ApplyAll(procs, LogId, log) == Ok(log + Ids(procs))
    decreases |procs|
  {
    if procs == [] {
      assert Ids(procs) == [];
      assert log + [] == log;
    } else {
      var init := procs[..|procs| - 1];
      ApplyAllVisitsInOrder(init, log);
      assert Ids(procs) == Ids(init) + [procs[|procs| - 1].id];
      assert ApplyAll(procs, LogId, log) == LogId(procs[|procs| - 1], log + Ids(init));
      assert (log + Ids(init)) + [procs[|procs| - 1].id] == log + Ids(procs);
    }
  }

  /** A processor that raises stops the chain: with a log-keeping chain in
      which processor `k` raises, the error is the result and no later
      processor runs. */
  lemma RaiseStopsChain(procs: seq<Processor>, k: nat, log: seq<nat>)
    requires k < |procs|
    ensures var process := (p: Processor, l: seq<nat>) => if p == procs[k] then Err(RuntimeError) else Ok(l + [p.id]);
      ApplyAll(procs, process, log) == ApplyAll(procs[..k + 1], process, log) && ApplyAll(procs, process, log).Err?
  {
    var process := (p: Processor, l: seq<nat>) => if p == procs[k] then Err(RuntimeError) else Ok(l + [p.id]);
    var pre := ApplyAll(procs[..k], process, log);
    if pre.Ok? {
      assert procs[..k + 1][..k] == procs[..k];
      assert ApplyAll(procs[..k + 1], process, log) == process(procs[k], pre.value);
    }
    assert procs[..k + 1][..k] == procs[..k];
    assert ApplyAll(procs[..k + 1], process, log).Err?;
    assert procs == procs[..k + 1] + procs[k + 1..];
    ApplyAllAppend(procs[..k + 1], procs[k + 1..], process, log);
  }

  /** `fetch`: the request passes through every processor before the
      transport is called once, on the processed request (the corrected
      reading; see `RequestProcessors.SentAsWritten` for what the code
      sends). A processor that raises ends the call with its error before
      the transport is reached. The request goes through the very chain a
      saved item goes through. */
  function Fetch<S(!new), R>(procs: seq<Processor>, process: (Processor, S) -> Result<S>, transport: S -> Result<R>, request: S): (r: Result<R>)
    ensures Save(procs, process, request).Ok? ==> r == transport(Save(procs, process, request).value)
    ensures Save(procs, process, request).Err? ==> r == Err(Save(procs, process, request).error)
  {
    match ApplyAll(procs, process, request)
    case Err(e) => Err(e)
    case Ok(req) => transport(req)
  }

  /** `save`: the item passes through every processor in list order; the
      chain may be split at any processor, and once a prefix has raised
      the rest never runs. */
  function Save<S(!new)>(procs: seq<Processor>, process: (Processor, S) -> Result<S>, item: S): (r: Result<S>)
    ensures forall i :: 0 <= i <= |procs| ==> r == Continue(procs[i..], process, ApplyAll(procs[..i], process, item))
    ensures forall i :: 0 <= i <= |procs| && ApplyAll(procs[..i], process, item).Err? ==> r == ApplyAll(procs[..i], process, item)
  {
    forall i | 0 <= i <= |procs| ensures ApplyAll(procs, process, item) == Continue(procs[i..], process, ApplyAll(procs[..i], process, item)) {
      assert procs == procs[..i] + procs[i..];
      ApplyAllAppend(procs[..i], procs[i..], process, item);
    }
    ApplyAll(procs, process, item)
  }
}

=== FILE: pydict.dfy ===
/** Python's built-in `dict`: a finite map that remembers insertion order.
    Keyword-argument dictionaries, `Field` metadata, item field tables and
    the contents of a `FrozenDict` are all values of this type. */
module PyDict {
  import opened Wrappers

  datatype Dict<K, V> = Dict(order: seq<K>, m: map<K, V>)

  /** The order lists every key exactly once. */
  ghost predicate Valid<K, V>(d: Dict<K, V>) {
    NoDuplicates(d.order) && d.m.Keys == (set k | k in d.order)
  }

  function Empty<K, V>(): (r: Dict<K, V>)
    ensures Valid(r) && r.m == map[]
  {
    Dict([], map[])
  }

  /** `d[k] = v`: a new key goes to the end, an existing key keeps its place. */
  function Put<K, V>(d: Dict<K, V>, k: K, v: V): (r: Dict<K, V>)
    requires Valid(d)
    ensures Valid(r)
    ensures r.m == d.m[k := v]
    ensures k in d.m ==> r.order == d.order
    ensures k !in d.m ==> r.order == d.order + [k]
  {
    if k in d.m then Dict(d.order, d.m[k := v]) else Dict(d.order + [k], d.m[k := v])
  }

  /** The dict without its most recently inserted key. */
  function DropLast<K, V>(d: Dict<K, V>): (r: Dict<K, V>)
    requires Valid(d) && d.order != []
    ensures Valid(r) && d.order == r.order + [d.order[|d.order| - 1]]
    ensures d.order[|d.order| - 1] !in r.m
    ensures d.m.Keys == r.m.Keys + {d.order[|d.order| - 1]}
    ensures forall j :: j in r.m ==> r.m[j] == d.m[j]
  {
    var init := d.order[..|d.order| - 1];
    assert d.order == init + [d.order[|d.order| - 1]];
    Dict(init, map j | j in init :: d.m[j])
  }

  /** The keys mentioned by a sequence of pairs. */
  function PairKeys<K, V>(ps: seq<(K, V)>): set<K> {
    set i | 0 <= i < |ps| :: ps[i].0
  }

  /** `d.update(pairs)`: the pairs are put into `d` left to right. */
  function PutAll<K, V>(d: Dict<K, V>, ps: seq<(K, V)>): (r: Dict<K, V>)
    requires Valid(d)
    ensures Valid(r)
    ensures r.m.Keys == d.m.Keys + PairKeys(ps)
    ensures |d.order| <= |r.order| && r.order[..|d.order|] == d.order
    decreases |ps|
  {
    if ps == [] then d
    else
      var init := ps[..|ps| - 1];
      var d' := PutAll(d, init);
      PairKeysSnoc(ps);
      Put(d', ps[|ps| - 1].0, ps[|ps| - 1].1)
  }

  lemma PairKeysSnoc<K, V>(ps: seq<(K, V)>)
    requires ps != []
    ensures PairKeys(ps) == PairKeys(ps[..|ps| - 1]) + {ps[|ps| - 1].0}
  {
    var init := ps[..|ps| - 1];
    assert forall i :: 0 <= i < |init| ==> init[i] == ps[i];
  }

  /** Keys no pair mentions keep their old value; every key takes the value
      of the last pair that mentions it. */
  lemma {:induction false} PutAllValues<K, V>(d: Dict<K, V>, ps: seq<(K, V)>)
    requires Valid(d)
    ensures forall k :: k in d.m && k !in PairKeys(ps) ==> PutAll(d, ps).m[k] == d.m[k]
    ensures forall i :: 0 <= i < |ps| && (forall j :: i < j < |ps| ==> ps[j].0 != ps[i].0) ==>
      PutAll(d, ps).m[ps[i].0] == ps[i].1
    decreases |ps|
  {
    if ps != [] {
      var init := ps[..|ps| - 1];
      PutAllValues(d, init);
      assert forall i :: 0 <= i < |ps| - 1 ==> init[i] == ps[i];
      PairKeysSnoc(ps);
    }
  }

  /** `dict(pairs)`: the pairs are inserted left to right into an empty dict. */
  function FromPairs<K, V>(ps: seq<(K, V)>): (r: Dict<K, V>)
    ensures Valid(r)
    ensures r.m.Keys == PairKeys(ps)
  {
    PutAll(Empty(), ps)
  }

  /** `d.update(e)` for a dict `e`: `e`'s entries win, `d`'s keys keep their places. */
  function Update<K, V>(d: Dict<K, V>, e: Dict<K, V>): (r: Dict<K, V>)
    requires Valid(d) && Valid(e)
    ensures Valid(r)
    ensures r.m == d.m + e.m
    ensures |d.order| <= |r.order| && r.order[..|d.order|] == d.order
  {
    UpdateMap(d, e);
    PutAll(d, Items(e))
  }

  lemma {:induction false} UpdateMap<K, V>(d: Dict<K, V>, e: Dict<K, V>)
    requires Valid(d) && Valid(e)
    ensures PutAll(d, Items(e)).m == d.m + e.m
  {
    var ps := Items(e);
    var r := PutAll(d, ps);
    ItemsFacts(e);
    PutAllDistinct(d, ps);
    assert r.m.Keys == (d.m + e.m).Keys;
    forall k | k in r.m
      ensures r.m[k] == (d.m + e.m)[k]
    {
      if k in e.m {
        assert ps[IndexOf(e.order, k)] == (k, e.m[k]);
      }
    }
  }

  lemma ItemsFacts<K, V>(e: Dict<K, V>)
    requires Valid(e)
    ensures forall a, b :: 0 <= a < b < |Items(e)| ==> Items(e)[a].0 != Items(e)[b].0
    ensures PairKeys(Items(e)) == e.m.Keys
  {
    var ps := Items(e);
    assert forall i :: 0 <= i < |ps| ==> ps[i].0 == e.order[i];
    forall k | k in e.m ensures k in PairKeys(ps) {
      assert ps[IndexOf(e.order, k)].0 == k;
    }
  }

  /** With distinct keys, every pair's value ends up in the dict. */
  lemma {:induction false} PutAllDistinct<K, V>(d: Dict<K, V>, ps: seq<(K, V)>)
    requires Valid(d)
    requires forall a, b :: 0 <= a < b < |ps| ==> ps[a].0 != ps[b].0
    ensures forall i :: 0 <= i < |ps| ==> PutAll(d, ps).m[ps[i].0] == ps[i].1
    ensures forall k :: k in d.m && k !in PairKeys(ps) ==> PutAll(d, ps).m[k] == d.m[k]
    decreases |ps|
  {
    if ps != [] {
      var n := |ps|;
      var init := ps[..n - 1];
      assert forall i :: 0 <= i < |init| ==> init[i] == ps[i];
      PutAllDistinct(d, init);
      PairKeysSnoc(ps);
      var r := PutAll(d, ps);
      var r' := PutAll(d, init);
      var k := ps[n - 1].0;
      assert r.m == r'.m[k := ps[n - 1].1];
      forall i | 0 <= i < n
        ensures r.m[ps[i].0] == ps[i].1
      {
        if i < n - 1 {
          assert ps[i].0 != k && init[i] == ps[i];
        }
      }
    }
  }

  /** `d.items()` in insertion order. */
  function Items<K, V>(d: Dict<K, V>): (r: seq<(K, V)>)
    requires Valid(d)
    ensures |r| == |d.order|
    ensures forall i :: 0 <= i < |r| ==> r[i] == (d.order[i], d.m[d.order[i]])
  {
    seq(|d.order|, i requires 0 <= i < |d.order| => (d.order[i], d.m[d.order[i]]))
  }
}

=== FILE: reqrep.dfy ===
/** Requests and responses of AsyncSpider/reqrep.py: a `Request` is a plain
    dict of request options that always holds `method` and `url`; a
    `Response` carries what the transport returned and resolves its text
    encoding from the Content-Type header, caching the result.

    The MIME parser, the codec registry, the content sniffer and byte
    decoding belong to other libraries; they enter as an `Oracles` value. */
module ReqRep {
  import opened Wrappers
  import opened PyDict

  type Name = string
  type Byte = x: int | 0 <= x < 256

  /** A request option value. */
  datatype Val = Str(s: string) | Num(n: int) | HeaderMap(h: Dict<string, string>) | NoneVal

  type Request = Dict<Name, Val>

  const MethodKey: Name := "method"
  const UrlKey: Name := "url"

  /** `Request(method, url, **kwargs)`: `method` and `url` come first, the
      keywords follow; passing either name again as a keyword is the
      TypeError of a duplicate keyword argument. */
  function NewRequest(verb: Val, url: Val, kw: Dict<Name, Val>): (r: Result<Request>)
    requires PyDict.Valid(kw)
    ensures r.Ok? <==> MethodKey !in kw.m && UrlKey !in kw.m
    ensures r.Err? ==> r.error == TypeError
    ensures r.Ok? ==> PyDict.Valid(r.value) && |r.value.order| >= 2 && r.value.order[..2] == [MethodKey, UrlKey]
    ensures r.Ok? ==> r.value.m == kw.m[MethodKey := verb][UrlKey := url]
  {
    if MethodKey in kw.m || UrlKey in kw.m then Err(TypeError)
    else
      var d := Put(Put(Empty(), MethodKey, verb), UrlKey, url);
      assert d.order == [MethodKey, UrlKey];
      var r := Update(d, kw);
      HeadEntries(d.m, kw.m, verb, url);
      Ok(r)
  }

  lemma HeadEntries(d: map<Name, Val>, kw: map<Name, Val>, verb: Val, url: Val)
    requires d == map[MethodKey := verb][UrlKey := url]
    requires MethodKey !in kw && UrlKey !in kw
    ensures d + kw == kw[MethodKey := verb][UrlKey := url]
  {
    var a, b := d + kw, kw[MethodKey := verb][UrlKey := url];
    assert a.Keys == b.Keys;
    forall k | k in a ensures a[k] == b[k] {
      if k in kw {
        assert k != MethodKey && k != UrlKey;
      }
    }
  }

  lemma StripHead(m: map<Name, Val>, kw: map<Name, Val>, verb: Val, url: Val)
    requires m == kw[MethodKey := verb][UrlKey := url]
    requires MethodKey !in kw && UrlKey !in kw
    ensures m - {MethodKey, UrlKey} == kw
  {
    var a := m - {MethodKey, UrlKey};
    assert a.Keys == kw.Keys;
    forall k | k in a ensures a[k] == kw[k] {
      assert k != MethodKey && k != UrlKey;
    }
  }

  /** The arguments a request was built from. */
  function Method(r: Request): Val {
    if MethodKey in r.m then r.m[MethodKey] else NoneVal
  }

  function Url(r: Request): Val {
    if UrlKey in r.m then r.m[UrlKey] else NoneVal
  }

  function Options(r: Request): map<Name, Val> {
    r.m - {MethodKey, UrlKey}
  }

  /** A built request gives back exactly its arguments: `method`, `url`,
      and the keyword options. */
  lemma RequestRoundTrip(verb: Val, url: Val, kw: Dict<Name, Val>)
    requires PyDict.Valid(kw) && MethodKey !in kw.m && UrlKey !in kw.m
    ensures NewRequest(verb, url, kw).Ok?
    ensures var r := NewRequest(verb, url, kw).value;
      Method(r) == verb && Url(r) == url && Options(r) == kw.m
  {
    var r := NewRequest(verb, url, kw).value;
    assert MethodKey != UrlKey;
    StripHead(r.m, kw.m, verb, url);
  }

  /** A response as the transport produced it, plus the cached encoding
      (`_encoding`, `None` until resolved or set). */
  datatype Response = Response(
    verb: string,
    url: string,
    status: int,
    content: seq<Byte>,
    headers: Dict<string, string>,
    cookies: Dict<string, string>,
    host: string,
    history: seq<string>,
    encoding: Option<string>)

  /** `Response(...)`: every accessor returns its constructor argument, and
      nothing is cached yet. */
  function NewResponse(verb: string, url: string, status: int, content: seq<Byte>, headers: Dict<string, string>,
                       cookies: Dict<string, string>, host: string, history: seq<string>): (r: Response)
    ensures r.encoding == None
    ensures (r.verb, r.url, r.status, r.content) == (verb, url, status, content)
    ensures (r.headers, r.cookies, r.host, r.history) == (headers, cookies, host, history)
  {
    Response(verb, url, status, content, headers, cookies, host, history, None)
  }

  /** A parsed MIME type. */
  datatype Mime = Mime(mtype: string, subtype: string, params: map<string, string>)

  /** The foreign functions the encoding ladder consults. */
  datatype Oracles = Oracles(
    lower: string -> string,
    parseMime: string -> Mime,
    knownCodec: string -> bool,
    detect: seq<Byte> -> Option<string>,
    decode: (seq<Byte>, string, string) -> Result<string>)

  const ContentType := "Content-Type"
  const Utf8 := "utf-8"
  /** The default `errors` handler of `bytes.decode`. */
  const Strict := "strict"

  /** Python truthiness of an optional string. */
  predicate Truthy(s: Option<string>) {
    s.Some? && s.value != ""
  }

  /** The transport's header mapping is case-insensitive: `headers.get(name)`
      answers from the first header, in order, whose name equals `name` once
      both are case-folded. Returns that header's position in `ks`, or `|ks|`
      when no header matches. */
  function HeaderIndex(o: Oracles, ks: seq<string>, m: map<string, string>, name: string): (i: nat)
    ensures i <= |ks|
    ensures i < |ks| ==> ks[i] in m && o.lower(ks[i]) == o.lower(name)
    ensures forall j :: 0 <= j < i ==> !(ks[j] in m && o.lower(ks[j]) == o.lower(name))
    decreases |ks|
  {
    if ks == [] then 0
    else if ks[0] in m && o.lower(ks[0]) == o.lower(name) then 0
    else 1 + HeaderIndex(o, ks[1..], m, name)
  }

  /** `headers.get(name, '')`. */
  function HeaderValue(o: Oracles, headers: Dict<string, string>, name: string): string {
    var i := HeaderIndex(o, headers.order, headers.m, name);
    if i < |headers.order| then headers.m[headers.order[i]] else ""
  }

  /** The MIME type of the Content-Type header (missing means ''). */
  function MimeOf(o: Oracles, headers: Dict<string, string>): Mime {
    o.parseMime(o.lower(HeaderValue(o, headers, ContentType)))
  }

  /** Any spelling of the header name is found, and a missing header reads
      as the empty string. */
  lemma HeaderValueFacts(o: Oracles, headers: Dict<string, string>, name: string, k: string)
    requires PyDict.Valid(headers)
    ensures (forall j :: 0 <= j < |headers.order| ==> o.lower(headers.order[j]) != o.lower(name)) ==>
      HeaderValue(o, headers, name) == ""
    ensures (&& k in headers.m && o.lower(k) == o.lower(name)
             && forall j :: 0 <= j < |headers.order| && headers.order[j] != k ==> o.lower(headers.order[j]) != o.lower(name))
      ==> HeaderValue(o, headers, name) == headers.m[k]
  {
    var i := HeaderIndex(o, headers.order, headers.m, name);
    if k in headers.m && o.lower(k) == o.lower(name) {
      assert k in headers.order;
      var p :| 0 <= p < |headers.order| && headers.order[p] == k;
      assert i <= p;
    }
  }

  /** The charset parameter, kept only when it names a known codec. */
  function UsableCharset(o: Oracles, mime: Mime): (c: Option<string>)
    ensures Truthy(c) <==> "charset" in mime.params && mime.params["charset"] != "" && o.knownCodec(mime.params["charset"])
    ensures Truthy(c) ==> c.value == mime.params["charset"]
  {
    if "charset" in mime.params && mime.params["charset"] != "" && o.knownCodec(mime.params["charset"])
    then Some(mime.params["charset"]) else None
  }

  /** The derivation ladder: a usable charset; else utf-8 for
      `application/json`; else the sniffed encoding; else utf-8. */
  function Derive(o: Oracles, content: seq<Byte>, headers: Dict<string, string>): (enc: string)
    ensures enc != ""
    ensures var mime := MimeOf(o, headers);
      || enc == Utf8
      || (Truthy(UsableCharset(o, mime)) && enc == UsableCharset(o, mime).value)
      || (!Truthy(UsableCharset(o, mime)) && !(mime.mtype == "application" && mime.subtype == "json") && o.detect(content) == Some(enc))
  {
    var mime := MimeOf(o, headers);
    var charset := UsableCharset(o, mime);
    var enc := if Truthy(charset) then charset
      else if mime.mtype == "application" && mime.subtype == "json" then Some(Utf8)
      else o.detect(content);
    if Truthy(enc) then enc.value else Utf8
  }

  /** `Response.encoding`: a truthy cached value is returned as it is;
      otherwise the ladder runs and its answer is cached. Returns the
      encoding and the response with its cache filled. */
  function Encoding(o: Oracles, r: Response): (res: (string, Response))
    ensures res.0 != ""
    ensures res.1 == r.(encoding := Some(res.0))
    ensures Truthy(r.encoding) ==> res.0 == r.encoding.value
    ensures !Truthy(r.encoding) ==> res.0 == Derive(o, r.content, r.headers)
  {
    if Truthy(r.encoding) then (r.encoding.value, r)
    else
      var enc := Derive(o, r.content, r.headers);
      (enc, r.(encoding := Some(enc)))
  }

  /** Caching: asking again returns the same encoding and changes nothing,
      whatever the oracles answer the second time. */
  lemma EncodingIsCached(o: Oracles, o': Oracles, r: Response)
    ensures Encoding(o', Encoding(o, r).1) == Encoding(o, r)
  {
  }

  /** The ladder's priorities: a usable charset wins; without one, JSON
      is utf-8 and anything else is what the sniffer says, when it says
      something non-empty. An unknown or empty charset is discarded. */
  lemma DerivePriorities(o: Oracles, content: seq<Byte>, headers: Dict<string, string>)
    ensures var mime := MimeOf(o, headers);
      var enc := Derive(o, content, headers);
      && (Truthy(UsableCharset(o, mime)) ==> enc == mime.params["charset"])
      && (!Truthy(UsableCharset(o, mime)) && mime.mtype == "application" && mime.subtype == "json" ==> enc == Utf8)
      && (!Truthy(UsableCharset(o, mime)) && !(mime.mtype == "application" && mime.subtype == "json") ==>
            enc == (if Truthy(o.detect(content)) then o.detect(content).value else Utf8))
  {
  }

  /** `Response.text(encoding, errors)`: an explicit encoding is stored as
      the cached encoding and used; otherwise the resolved encoding is used.
      `errors` (`Strict` by default) goes to the decoder, whose failures are
      its own. */
  function Text(o: Oracles, r: Response, encoding: Option<string>, errors: string): (res: (Result<string>, Response))
    ensures encoding.Some? ==> res.1 == r.(encoding := encoding) && res.0 == o.decode(r.content, encoding.value, errors)
    ensures encoding.None? ==> res.1 == Encoding(o, r).1 && res.0 == o.decode(r.content, Encoding(o, r).0, errors)
  {
    match encoding
    case Some(e) => (o.decode(r.content, e, errors), r.(encoding := Some(e)))
    case None =>
      var (e, r') := Encoding(o, r);
      (o.decode(r.content, e, errors), r')
  }

  /** After `text(e)` with a non-empty `e`, `encoding` reports `e` without
      consulting the header, and a later `text()` decodes with `e` too. */
  lemma TextSetsEncoding(o: Oracles, r: Response, e: string)
    requires e != ""
    ensures var r' := Text(o, r, Some(e), Strict).1;
      && Encoding(o, r').0 == e
      && Text(o, r', None, Strict).0 == o.decode(r.content, e, Strict)
  {
  }
}

=== FILE: request_processors.dfy ===
/** The request processors of AsyncSpider/implements/rp.py as they act on a
    `Request`, and what a core `Fetcher.fetch` actually sends
    (AsyncSpider/core/fetsav.py, and the identical `fetch` of
    AsyncSpider/fetsav.py).

    AsyncSpider/core/reqrep.py, where the core `Request` is defined, is not
    part of this model: the `Request` of AsyncSpider/reqrep.py (`ReqRep`)
    stands in for it, on the assumption that the two behave the same.

    `fetch` builds a `Request`, runs the processors on it, and then calls
    the session with its own `method, url, **kwargs` rather than with the
    processed request. A processor reaches the wire only by mutating, in
    place, an option object the caller passed (the `headers` dict is shared
    between the caller's keywords and the `Request`, which is a shallow
    copy). `SentAsWritten` models that; `SentProcessed` is the evidently
    intended behaviour, sending the processed request. */
module RequestProcessors {
  import opened Wrappers
  import opened PyDict
  import opened ReqRep
  import TokenBuckets
  import FlagExecutor

  const HeadersKey: Name := "headers"
  const UserAgentKey := "User-Agent"

  /** Option dicts whose header dicts are themselves well-formed dicts. */
  ghost predicate WellFormed(d: Dict<Name, Val>) {
    PyDict.Valid(d) && forall k :: k in d.m && d.m[k].HeaderMap? ==> PyDict.Valid(d.m[k].h)
  }

  /** `RandomUserAgentRP.process`: `h = request.get('headers', {})`, then
      `h['User-Agent'] = ua` and `request['headers'] = h`. A `headers`
      value that is not a dict does not support item assignment. */
  function SetUserAgent(req: Request, ua: string): (r: Result<Request>)
    requires WellFormed(req)
    ensures r.Ok? <==> HeadersKey !in req.m || req.m[HeadersKey].HeaderMap?
    ensures r.Err? ==> r.error == TypeError
    ensures r.Ok? ==> PyDict.Valid(r.value) && HeadersKey in r.value.m && r.value.m[HeadersKey].HeaderMap?
    ensures r.Ok? ==> var h := r.value.m[HeadersKey].h;
      && PyDict.Valid(h) && UserAgentKey in h.m && h.m[UserAgentKey] == ua
      && (HeadersKey in req.m ==> h.m == req.m[HeadersKey].h.m[UserAgentKey := ua])
      && (HeadersKey !in req.m ==> h.m == map[UserAgentKey := ua])
    ensures r.Ok? ==> forall k :: k in req.m && k != HeadersKey ==> k in r.value.m && r.value.m[k] == req.m[k]
    ensures r.Ok? ==> r.value.m.Keys == req.m.Keys + {HeadersKey}
  {
    if HeadersKey in req.m && !req.m[HeadersKey].HeaderMap? then Err(TypeError)
    else
      var h: Dict<string, string> := if HeadersKey in req.m then req.m[HeadersKey].h else Empty();
      Ok(Put(req, HeadersKey, HeaderMap(Put(h, UserAgentKey, ua))))
  }

  lemma BuiltRequestWellFormed(verb: string, url: string, kw: Dict<Name, Val>)
    requires WellFormed(kw)
    ensures NewRequest(Str(verb), Str(url), kw).Ok? ==> WellFormed(NewRequest(Str(verb), Str(url), kw).value)
  {
  }

  /** The keyword options `session.request` receives when `fetch` is
      called with `kw` and only the user-agent processor is registered, as
      the code is written: the caller's own options, in which a `headers`
      dict the caller passed carries the processor's in-place change. */
  function SentAsWritten(verb: string, url: string, kw: Dict<Name, Val>, ua: string): (r: Result<Dict<Name, Val>>)
    requires WellFormed(kw)
    ensures r.Ok? <==> NewRequest(Str(verb), Str(url), kw).Ok? && SetUserAgent(NewRequest(Str(verb), Str(url), kw).value, ua).Ok?
    ensures r.Ok? ==> r.value.m.Keys == kw.m.Keys
    ensures r.Ok? && HeadersKey !in kw.m ==> r.value == kw
  {
    var req :- NewRequest(Str(verb), Str(url), kw);
    BuiltRequestWellFormed(verb, url, kw);
    var processed :- SetUserAgent(req, ua);
    if HeadersKey in kw.m then Ok(Put(kw, HeadersKey, processed.m[HeadersKey])) else Ok(kw)
  }

  /** The corrected `fetch`: the processed request's options are sent. */
  function SentProcessed(verb: string, url: string, kw: Dict<Name, Val>, ua: string): (r: Result<Dict<Name, Val>>)
    requires WellFormed(kw)
    ensures r.Ok? <==> NewRequest(Str(verb), Str(url), kw).Ok? && SetUserAgent(NewRequest(Str(verb), Str(url), kw).value, ua).Ok?
    ensures r.Ok? ==> (HeadersKey in r.value.m && r.value.m[HeadersKey].HeaderMap?
      && UserAgentKey in r.value.m[HeadersKey].h.m && r.value.m[HeadersKey].h.m[UserAgentKey] == ua)
  {
    var req :- NewRequest(Str(verb), Str(url), kw);
    BuiltRequestWellFormed(verb, url, kw);
    var processed :- SetUserAgent(req, ua);
    Ok(processed)
  }

  /** As written, a `fetch` whose caller passed no `headers` sends no
      User-Agent at all, although the processor set one on the request. */
  lemma UserAgentLostWithoutHeaders(ua: string)
    ensures var sent := SentAsWritten("GET", "http://example.com", Empty(), ua);
      sent == Ok(Empty()) && HeadersKey !in sent.value.m
    ensures var sent := SentProcessed("GET", "http://example.com", Empty(), ua);
      sent.Ok? && sent.value.m[HeadersKey].h.m[UserAgentKey] == ua
  {
  }

  /** Corrected, the User-Agent reaches the wire for every call the
      processor accepts; as written only when the caller passed headers,
      and then both agree on the headers sent. */
  lemma UserAgentAlwaysSent(verb: string, url: string, kw: Dict<Name, Val>, ua: string)
    requires WellFormed(kw) && SentProcessed(verb, url, kw, ua).Ok?
    ensures SentAsWritten(verb, url, kw, ua).Ok?
    ensures HeadersKey in kw.m ==> SentAsWritten(verb, url, kw, ua).value.m[HeadersKey] == SentProcessed(verb, url, kw, ua).value.m[HeadersKey]
    ensures HeadersKey !in kw.m ==> HeadersKey !in SentAsWritten(verb, url, kw, ua).value.m
  {
  }

  /** `TokenBucketRP.process`: one acquire per request. */
  function ProcessWithBucket(b: TokenBuckets.RPBucket, req: Request): (r: Option<(TokenBuckets.RPBucket, Request)>)
    ensures r.Some? <==> b.tokens >= 1
    ensures r.Some? ==> r.value.0.tokens == b.tokens - 1 && r.value.1 == req
  {
    match TokenBuckets.RPTryAcquire(b)
    case None => None
    case Some(b') => Some((b', req))
  }

  /** `TokenBucketRP.on_start`: the refill task is launched on the
      fetcher's loop, which is refused once the fetcher is stopped. */
  function LaunchRefill(fetcher: FlagExecutor.FExec): (r: Result<FlagExecutor.FExec>)
    requires FlagExecutor.Inv(fetcher)
    ensures r.Ok? <==> !fetcher.flags.stopped && !fetcher.loopClosed
    ensures r.Ok? ==> r.value.tasks == fetcher.tasks + 1 && r.value.flags == fetcher.flags
  {
    FlagExecutor.Schedule(fetcher, true)
  }
}

=== FILE: scheduler.dfy ===
/** The spider scheduler of AsyncSpider/core/spider.py and
    AsyncSpider/spider.py as a transition system on one event loop.

    Everything a worker does between two `await`s runs without
    interleaving, so the loop is a sequence of atomic steps: a worker
    claims the head of the FIFO action queue (`Claim`), drives the action
    one step at a time (`Advance`), and ends it (`Finish`), which is where
    the stop-when-empty check runs. Which enabled step runs next is the
    scheduler's choice and is left open.

    The two generations differ in that spider.py checks the fetcher and
    saver references before anything else and keeps `fetch_count` and
    `item_count`; core/spider.py reads its settings from the controller
    and keeps no counters. */
module Scheduler {
  import opened Wrappers
  import opened Actions

  datatype Generation = Core | TopLevel

  /** A worker task: waiting on the queue, or driving an action, at step
      `pos`, with `raised` once the action raised. */
  datatype Worker = Idle | Driving(action: Script, pos: nat, raised: bool)

  /** A spider's scheduling state. `handed` lists the items given to the
      saver; `logged` counts the exceptions the workers and the start
      callbacks logged; `enqueued` and `finished` record every action that
      entered the queue and every action a worker ended. `loopStopped` is
      `loop.stop()` having been called. */
  datatype Spider = Spider(
    gen: Generation,
    concurrency: int,
    stopWhenEmpty: bool,
    queue: seq<Script>,
    workers: seq<Worker>,
    busy: int,
    fetchCount: nat,
    itemCount: nat,
    handed: seq<nat>,
    warnings: nat,
    logged: nat,
    enqueued: seq<Script>,
    finished: seq<Script>,
    loopStopped: bool)

  /** The action a worker holds, if any. */
  function Held(w: Worker): multiset<Script> {
    if w.Driving? then multiset{w.action} else multiset{}
  }

  /** The actions being driven; a worker holds at most one. */
  function Driven(ws: seq<Worker>): (d: multiset<Script>)
    ensures |d| <= |ws|
    decreases |ws|
  {
    if ws == [] then multiset{} else Driven(ws[..|ws| - 1]) + Held(ws[|ws| - 1])
  }

  /** Replacing one worker changes the driven actions by that worker's. */
  lemma {:induction false} DrivenUpdate(ws: seq<Worker>, i: nat, w: Worker)
    requires i < |ws|
    ensures Driven(ws[i := w]) + Held(ws[i]) == Driven(ws) + Held(w)
    decreases |ws|
  {
    var n := |ws|;
    var p := ws[..n - 1];
    var last := Held(ws[n - 1]);
    DrivenSnoc(ws);
    DrivenSnoc(ws[i := w]);
    if i == n - 1 {
      assert ws[i := w][..n - 1] == p;
      Swap(Driven(p), Held(w), last);
    } else {
      UpdateBeforeLast(ws, i, w);
      DrivenUpdate(p, i, w);
      Carry(Driven(p[i := w]), Held(ws[i]), Driven(p), Held(w), last);
    }
  }

  lemma DrivenSnoc(ws: seq<Worker>)
    requires ws != []
    ensures Driven(ws) == Driven(ws[..|ws| - 1]) + Held(ws[|ws| - 1])
  {
  }

  lemma UpdateBeforeLast<T>(ws: seq<T>, i: nat, w: T)
    requires i < |ws| - 1
    ensures ws[i := w][..|ws| - 1] == ws[..|ws| - 1][i := w]
    ensures ws[i := w][|ws| - 1] == ws[|ws| - 1]
    ensures ws[..|ws| - 1][i] == ws[i]
  {
  }

  lemma Swap<T>(a: multiset<T>, b: multiset<T>, c: multiset<T>)
    ensures a + b + c == a + c + b
  {
  }

  lemma Carry<T>(a: multiset<T>, b: multiset<T>, c: multiset<T>, d: multiset<T>, e: multiset<T>)
    requires a + b == c + d
    ensures a + e + b == c + e + d
  {
    assert a + e + b == (a + b) + e;
    assert c + e + d == (c + d) + e;
  }

  lemma DrivenUpdateCount(ws: seq<Worker>, i: nat, w: Worker)
    requires i < |ws|
    ensures |Driven(ws[i := w])| + |Held(ws[i])| == |Driven(ws)| + |Held(w)|
  {
    DrivenUpdate(ws, i, w);
    assert |Driven(ws[i := w]) + Held(ws[i])| == |Driven(ws[i := w])| + |Held(ws[i])|;
    assert |Driven(ws) + Held(w)| == |Driven(ws)| + |Held(w)|;
  }

  /** Replacing a worker by one holding the same action changes nothing. */
  lemma DrivenSameHeld(ws: seq<Worker>, i: nat, w: Worker)
    requires i < |ws| && Held(w) == Held(ws[i])
    ensures Driven(ws[i := w]) == Driven(ws)
  {
    DrivenUpdate(ws, i, w);
    Cancel(Driven(ws[i := w]), Driven(ws), Held(w));
  }

  lemma Cancel<T>(a: multiset<T>, b: multiset<T>, h: multiset<T>)
    requires a + h == b + h
    ensures a == b
  {
    forall x ensures a[x] == b[x] {
      assert (a + h)[x] == (b + h)[x];
    }
  }

  /** Nothing is driven exactly when every worker is idle. */
  lemma {:induction false} DrivenEmpty(ws: seq<Worker>)
    ensures |Driven(ws)| == 0 <==> forall i :: 0 <= i < |ws| ==> ws[i] == Idle
    decreases |ws|
  {
    if ws != [] {
      var n := |ws|;
      var p := ws[..n - 1];
      DrivenEmpty(p);
      assert Driven(ws) == Driven(p) + Held(ws[n - 1]);
      EmptySum(Driven(p), Held(ws[n - 1]));
      assert |Held(ws[n - 1])| == 0 <==> ws[n - 1] == Idle by {
        if ws[n - 1].Driving? {
          assert ws[n - 1].action in Held(ws[n - 1]);
        }
      }
      assert forall i :: 0 <= i < n - 1 ==> p[i] == ws[i];
    }
  }

  lemma EmptySum<T>(a: multiset<T>, b: multiset<T>)
    ensures |a + b| == 0 <==> |a| == 0 && |b| == 0
  {
  }

  /** Reachable states: one worker per unit of concurrency; `busy` counts
      the workers driving an action, so it stays within `0..concurrency`;
      every action that entered the queue is still queued, being driven, or
      finished; only the top-level spider counts; a stopped loop has
      nothing queued and nothing driven. */
  ghost predicate Inv(s: Spider) {
    && 1 <= s.concurrency && |s.workers| == s.concurrency
    && s.busy == |Driven(s.workers)|
    && (forall i :: 0 <= i < |s.workers| && s.workers[i].Driving? ==> s.workers[i].pos <= |s.workers[i].action.steps|)
    && multiset(s.enqueued) == multiset(s.queue) + Driven(s.workers) + multiset(s.finished)
    && (s.gen == Core ==> s.fetchCount == 0 && s.itemCount == 0)
    && s.itemCount <= |s.handed|
    && (s.loopStopped ==> s.queue == [] && s.busy == 0)
  }

  /** The busy counter never leaves `0..concurrency`. */
  lemma BusyBounded(s: Spider)
    requires Inv(s)
    ensures 0 <= s.busy <= s.concurrency
  {
  }

  // Construction ------------------------------------------------------------

  /** A spider as its constructor leaves it: nothing queued, no workers,
      counters at zero. */
  predicate Unstarted(s: Spider) {
    && s.queue == [] && s.workers == [] && s.busy == 0
    && s.fetchCount == 0 && s.itemCount == 0 && s.handed == [] && s.warnings == 0 && s.logged == 0
    && s.enqueued == [] && s.finished == [] && !s.loopStopped
  }

  function Blank(gen: Generation, concurrency: int, stopWhenEmpty: bool): (s: Spider)
    ensures Unstarted(s) && s.gen == gen && s.concurrency == concurrency && s.stopWhenEmpty == stopWhenEmpty
  {
    Spider(gen, concurrency, stopWhenEmpty, [], [], 0, 0, 0, [], 0, 0, [], [], false)
  }

  /** core `Spider(controller)`: `settings['concurrency']` must be present
      and at least 1; `stop_when_empty` defaults to true. */
  function NewCore(concurrency: Option<int>, stopWhenEmpty: Option<bool>): (r: Result<Spider>)
    ensures r.Ok? <==> concurrency.Some? && concurrency.value >= 1
    ensures concurrency.None? ==> r == Err(KeyError)
    ensures concurrency.Some? && concurrency.value < 1 ==> r == Err(AssertionError)
    ensures r.Ok? ==> Unstarted(r.value) && r.value.gen == Core && r.value.concurrency == concurrency.value
    ensures r.Ok? ==> r.value.stopWhenEmpty == (stopWhenEmpty.None? || stopWhenEmpty.value)
  {
    if concurrency.None? then Err(KeyError)
    else if concurrency.value < 1 then Err(AssertionError)
    else Ok(Blank(Core, concurrency.value, stopWhenEmpty.GetOr(true)))
  }

  /** The defaults of the top-level `Spider(concurrency=10,
      stop_when_empty=True)`. */
  const DefaultConcurrency := 10
  const DefaultStopWhenEmpty := true

  /** top-level `Spider(concurrency, stop_when_empty)`: `concurrency` must
      be at least 1. */
  function NewTopLevel(concurrency: int, stopWhenEmpty: bool): (r: Result<Spider>)
    ensures r.Ok? <==> concurrency >= 1
    ensures r.Err? ==> r.error == AssertionError
    ensures r.Ok? ==> Unstarted(r.value) && r.value.gen == TopLevel && r.value.concurrency == concurrency
    ensures r.Ok? ==> r.value.stopWhenEmpty == stopWhenEmpty
  {
    if concurrency < 1 then Err(AssertionError) else Ok(Blank(TopLevel, concurrency, stopWhenEmpty))
  }

  /** A start callback the constructor queues. */
  datatype StartStep = CheckFetcher | CheckSaver | PutStartAction | LaunchWorker

  /** The start callbacks before the workers: the top-level spider first
      checks its fetcher and saver references; then the start action is
      put in the queue. */
  function PreCallbacks(gen: Generation): seq<StartStep> {
    (if gen == TopLevel then [CheckFetcher, CheckSaver] else []) + [PutStartAction]
  }

  /** The start callbacks in queue order: those above, then one worker
      launch per unit of concurrency. */
  function StartCallbacks(gen: Generation, concurrency: nat): (cs: seq<StartStep>)
    ensures var k := if gen == TopLevel then 3 else 1;
      && |cs| == k + concurrency
      && cs[k - 1] == PutStartAction
      && (gen == TopLevel ==> cs[0] == CheckFetcher && cs[1] == CheckSaver)
      && (forall i :: 0 <= i < |cs| ==> (cs[i] == LaunchWorker <==> i >= k))
  {
    PreCallbacks(gen) + seq(concurrency, _ => LaunchWorker)
  }

  /** How many failed reference checks the start callbacks log. */
  function Failures(gen: Generation, fetcherOk: bool, saverOk: bool): nat {
    if gen == TopLevel then (if fetcherOk then 0 else 1) + (if saverOk then 0 else 1) else 0
  }

  /** One start callback. A failed reference check is an AssertionError
      that the callback drain logs before going on with the next one. */
  function RunStartStep(s: Spider, c: StartStep, start: Script, fetcherOk: bool, saverOk: bool): Spider {
    match c
    case CheckFetcher => if fetcherOk then s else s.(logged := s.logged + 1)
    case CheckSaver => if saverOk then s else s.(logged := s.logged + 1)
    case PutStartAction => s.(queue := s.queue + [start], enqueued := s.enqueued + [start])
    case LaunchWorker => s.(workers := s.workers + [Idle])
  }

  function RunStart(s: Spider, cs: seq<StartStep>, start: Script, fetcherOk: bool, saverOk: bool): Spider
    decreases |cs|
  {
    if cs == [] then s else RunStart(RunStartStep(s, cs[0], start, fetcherOk, saverOk), cs[1..], start, fetcherOk, saverOk)
  }

  lemma {:induction false} RunStartAppend(s: Spider, a: seq<StartStep>, b: seq<StartStep>, start: Script, fOk: bool, sOk: bool)
    ensures RunStart(s, a + b, start, fOk, sOk) == RunStart(RunStart(s, a, start, fOk, sOk), b, start, fOk, sOk)
    decreases |a|
  {
    if a != [] {
      assert (a + b)[1..] == a[1..] + b;
      RunStartAppend(RunStartStep(s, a[0], start, fOk, sOk), a[1..], b, start, fOk, sOk);
    } else {
      assert a + b == b;
    }
  }

  lemma {:induction false} LaunchWorkers(s: Spider, n: nat, start: Script, fOk: bool, sOk: bool)
    ensures RunStart(s, seq(n, _ => LaunchWorker), start, fOk, sOk) == s.(workers := s.workers + seq(n, _ => Idle))
    decreases n
  {
    if n > 0 {
      var s1 := s.(workers := s.workers + [Idle]);
      assert seq(n, _ => LaunchWorker)[1..] == seq(n - 1, _ => LaunchWorker);
      LaunchWorkers(s1, n - 1, start, fOk, sOk);
      assert s1.workers + seq(n - 1, _ => Idle) == s.workers + seq(n, _ => Idle);
    }
  }

  lemma PreStartRun(s: Spider, start: Script, fOk: bool, sOk: bool)
    ensures RunStart(s, PreCallbacks(s.gen), start, fOk, sOk)
         == s.(queue := s.queue + [start], enqueued := s.enqueued + [start], logged := s.logged + Failures(s.gen, fOk, sOk))
  {
    var put := RunStartStep(s, PutStartAction, start, fOk, sOk);
    assert RunStart(put, [], start, fOk, sOk) == put;
    if s.gen == TopLevel {
      var t1 := RunStartStep(s, CheckFetcher, start, fOk, sOk);
      var t2 := RunStartStep(t1, CheckSaver, start, fOk, sOk);
      var t3 := RunStartStep(t2, PutStartAction, start, fOk, sOk);
      var pre := PreCallbacks(s.gen);
      assert pre == [CheckFetcher, CheckSaver, PutStartAction];
      assert pre[1..] == [CheckSaver, PutStartAction] && pre[1..][1..] == [PutStartAction];
      assert [PutStartAction][1..] == [];
      assert RunStart(t3, [], start, fOk, sOk) == t3;
      assert RunStart(t2, [PutStartAction], start, fOk, sOk) == t3;
      assert RunStart(t1, [CheckSaver, PutStartAction], start, fOk, sOk) == t3;
    } else {
      assert PreCallbacks(s.gen) == [PutStartAction] && PreCallbacks(s.gen)[1..] == [];
    }
  }

  /** Running the start callbacks of a new spider: the start action is the
      only queued action, every worker is idle, and each failed reference
      check was logged without stopping the rest. */
  function Boot(s: Spider, start: Script, fetcherOk: bool, saverOk: bool): (r: Spider)
    requires Unstarted(s) && s.concurrency >= 1
    ensures Inv(r) && !r.loopStopped
    ensures r.queue == [start] && r.enqueued == [start] && r.busy == 0 && r.handed == [] && r.finished == []
    ensures r.workers == seq(s.concurrency, _ => Idle)
    ensures r.logged == Failures(s.gen, fetcherOk, saverOk)
    ensures (r.gen, r.concurrency, r.stopWhenEmpty) == (s.gen, s.concurrency, s.stopWhenEmpty)
  {
    var launches := seq(s.concurrency, _ => LaunchWorker);
    RunStartAppend(s, PreCallbacks(s.gen), launches, start, fetcherOk, saverOk);
    PreStartRun(s, start, fetcherOk, saverOk);
    var s1 := RunStart(s, PreCallbacks(s.gen), start, fetcherOk, saverOk);
    LaunchWorkers(s1, s.concurrency, start, fetcherOk, saverOk);
    var r := RunStart(s, StartCallbacks(s.gen, s.concurrency), start, fetcherOk, saverOk);
    assert r == s1.(workers := seq(s.concurrency, _ => Idle));
    BootKeepsInv(r);
    r
  }

  lemma BootKeepsInv(r: Spider)
    requires 1 <= r.concurrency && r.workers == seq(r.concurrency, _ => Idle)
    requires |r.queue| == 1 && r.enqueued == r.queue && r.finished == [] && r.busy == 0
    requires r.fetchCount == 0 && r.itemCount == 0 && !r.loopStopped
    ensures Inv(r)
  {
    DrivenEmpty(r.workers);
  }

  // Steps -------------------------------------------------------------------

  /** `_worker` taking an action: `get()` returns the head of the queue
      and the busy counter goes up; with an empty queue the worker keeps
      waiting. */
  function Claim(s: Spider, w: nat): (r: Option<Spider>)
    requires Inv(s) && !s.loopStopped && w < |s.workers| && s.workers[w].Idle?
    ensures r.None? <==> s.queue == []
    ensures r.Some? ==> Inv(r.value) && !r.value.loopStopped
    ensures r.Some? ==> r.value.workers == s.workers[w := Driving(s.queue[0], 0, false)]
    ensures r.Some? ==> r.value.queue == s.queue[1..] && r.value.busy == s.busy + 1
    ensures r.Some? ==> r.value == s.(queue := r.value.queue, workers := r.value.workers, busy := r.value.busy)
  {
    if s.queue == [] then None
    else
      ClaimKeepsInv(s, w);
      Some(s.(queue := s.queue[1..], workers := s.workers[w := Driving(s.queue[0], 0, false)], busy := s.busy + 1))
  }

  lemma ClaimKeepsInv(s: Spider, w: nat)
    requires Inv(s) && !s.loopStopped && w < |s.workers| && s.workers[w].Idle? && s.queue != []
    ensures Inv(s.(queue := s.queue[1..], workers := s.workers[w := Driving(s.queue[0], 0, false)], busy := s.busy + 1))
  {
    DrivenUpdateCount(s.workers, w, Driving(s.queue[0], 0, false));
    ClaimConserves(s, w);
  }

  lemma ClaimConserves(s: Spider, w: nat)
    requires w < |s.workers| && s.workers[w].Idle? && s.queue != []
    requires multiset(s.enqueued) == multiset(s.queue) + Driven(s.workers) + multiset(s.finished)
    ensures var r := s.(queue := s.queue[1..], workers := s.workers[w := Driving(s.queue[0], 0, false)]);
      multiset(r.enqueued) == multiset(r.queue) + Driven(r.workers) + multiset(r.finished)
  {
    var a := s.queue[0];
    var ws := s.workers[w := Driving(a, 0, false)];
    DrivenUpdate(s.workers, w, Driving(a, 0, false));
    assert Held(s.workers[w]) == multiset{};
    assert Held(Driving(a, 0, false)) == multiset{a};
    PlusEmpty(Driven(ws), Held(s.workers[w]), Driven(s.workers) + multiset{a});
    HeadMultiset(s.queue);
    Shift(multiset(s.enqueued), multiset(s.queue), multiset(s.queue[1..]), Driven(s.workers), Driven(ws),
          multiset(s.finished), multiset{a});
  }

  lemma PlusEmpty<T>(a: multiset<T>, e: multiset<T>, b: multiset<T>)
    requires |e| == 0 && a + e == b
    ensures a == b
  {
  }

  lemma HeadMultiset<T>(q: seq<T>)
    requires q != []
    ensures multiset(q) == multiset{q[0]} + multiset(q[1..])
  {
    assert q == [q[0]] + q[1..];
  }

  /** Moving one action from the queue to a worker keeps the total. */
  lemma Shift<T>(e: multiset<T>, q: multiset<T>, q': multiset<T>, d: multiset<T>, d': multiset<T>, f: multiset<T>, a: multiset<T>)
    requires e == q + d + f && q == a + q' && d' == d + a
    ensures e == q' + d' + f
  {
  }

  /** Whether a step makes the action raise: a fetch that brings no
      response, a waited-for save whose coroutine failed, or an
      `add_action` of something that is not an async generator (its
      assertion fails). */
  predicate Fails(st: Step) {
    st == Fetches(false) || (st.Saves? && st.wait && !st.ok) || (st.Adds? && !st.obj.Generator?)
  }

  /** Whether a step hands an item to the saver. */
  predicate HandsItem(st: Step) {
    (st.Yields? && st.obj.ItemObj?) || st.Saves?
  }

  function ItemId(st: Step): nat
    requires HandsItem(st)
  {
    if st.Saves? then st.id else st.obj.id
  }

  /** Whether `item_count` goes up: every `save` call that returns, which
      includes the un-awaited saves of yielded items. */
  predicate CountsItem(st: Step) {
    HandsItem(st) && !Fails(st)
  }

  /** Bump a counter, on the generation that keeps it. */
  function Bump(gen: Generation, n: nat, yes: bool): nat {
    if gen == TopLevel && yes then n + 1 else n
  }

  /** The generator a step yields or adds, if any. */
  function Child(st: Step): seq<Script> {
    if (st.Yields? || st.Adds?) && st.obj.Generator? then [st.obj.script] else []
  }

  /** The item a step hands to the saver, if any. */
  function Handed(st: Step): seq<nat> {
    if HandsItem(st) then [ItemId(st)] else []
  }

  /** What one step of `_drive` does to the spider, apart from the worker.
      A yielded `None` is ignored; a yielded generator is put in the queue
      (`add_action`); a yielded item is handed to the saver without
      waiting; anything else is a logged warning and driving goes on. An
      explicit `add_action` queues a generator and refuses anything else. The
      action's own fetches and saves are counted by the top-level spider
      once they return. */
  function Dispatch(s: Spider, st: Step): (r: Spider)
    ensures r.queue == s.queue + Child(st) && r.enqueued == s.enqueued + Child(st)
    ensures r.handed == s.handed + Handed(st)
    ensures r.fetchCount == Bump(s.gen, s.fetchCount, st == Fetches(true))
    ensures r.itemCount == Bump(s.gen, s.itemCount, CountsItem(st))
    ensures r.warnings == s.warnings + (if st.Yields? && st.obj.Unexpected? then 1 else 0)
    ensures r == s.(queue := r.queue, enqueued := r.enqueued, handed := r.handed, fetchCount := r.fetchCount,
                    itemCount := r.itemCount, warnings := r.warnings)
  {
    match st
    case Yields(Nothing) => s
    case Yields(Generator(b, _)) => s.(queue := s.queue + [b], enqueued := s.enqueued + [b])
    case Yields(ItemObj(i)) => s.(handed := s.handed + [i], itemCount := Bump(s.gen, s.itemCount, true))
    case Yields(Unexpected(_)) => s.(warnings := s.warnings + 1)
    case Fetches(ok) => s.(fetchCount := Bump(s.gen, s.fetchCount, ok))
    case Saves(i, wait, ok) => s.(handed := s.handed + [i], itemCount := Bump(s.gen, s.itemCount, !(wait && !ok)))
    case Adds(Generator(b, _)) => s.(queue := s.queue + [b], enqueued := s.enqueued + [b])
    case Adds(_) => s
  }

  /** One step of `_drive` on worker `w`: the step is dispatched and the
      worker moves to the next step, or is marked raised when the step
      failed (a fetch without a response, a waited-for save that failed). */
  function Perform(s: Spider, w: nat): (r: Spider)
    requires w < |s.workers| && s.workers[w].Driving? && s.workers[w].pos < |s.workers[w].action.steps|
    ensures var a := s.workers[w].action; var p := s.workers[w].pos; var st := a.steps[p];
      && r.workers == s.workers[w := if Fails(st) then Driving(a, p, true) else Driving(a, p + 1, false)]
      && r.queue == s.queue + Child(st)
      && r.handed == s.handed + Handed(st)
      && r.fetchCount == Bump(s.gen, s.fetchCount, st == Fetches(true))
      && r.itemCount == Bump(s.gen, s.itemCount, CountsItem(st))
      && r.warnings == s.warnings + (if st.Yields? && st.obj.Unexpected? then 1 else 0)
    ensures (r.busy, r.finished, r.logged, r.loopStopped, r.stopWhenEmpty) == (s.busy, s.finished, s.logged, s.loopStopped, s.stopWhenEmpty)
  {
    var a := s.workers[w].action;
    var p := s.workers[w].pos;
    var st := a.steps[p];
    Dispatch(s.(workers := s.workers[w := if Fails(st) then Driving(a, p, true) else Driving(a, p + 1, false)]), st)
  }

  /** A step of a running action keeps the spider's invariant. */
  function Advance(s: Spider, w: nat): (r: Spider)
    requires Inv(s) && !s.loopStopped && w < |s.workers| && s.workers[w].Driving? && !s.workers[w].raised
    requires s.workers[w].pos < |s.workers[w].action.steps|
    ensures Inv(r) && !r.loopStopped && r == Perform(s, w)
  {
    var a := s.workers[w].action;
    var p := s.workers[w].pos;
    var st := a.steps[p];
    var w' := if Fails(st) then Driving(a, p, true) else Driving(a, p + 1, false);
    var r := Perform(s, w);
    StepKeepsInv(s, w, w', r, Child(st));
    r
  }

  /** A step that keeps a worker on its action, appends `c` to the queue
      and keeps the counters consistent preserves the invariant. */
  lemma StepKeepsInv(s: Spider, w: nat, w': Worker, r: Spider, c: seq<Script>)
    requires Inv(s) && w < |s.workers| && Held(w') == Held(s.workers[w])
    requires w'.Driving? ==> w'.pos <= |w'.action.steps|
    requires r.workers == s.workers[w := w'] && r.queue == s.queue + c && r.enqueued == s.enqueued + c
    requires (r.gen, r.concurrency, r.busy, r.finished, r.loopStopped) == (s.gen, s.concurrency, s.busy, s.finished, false)
    requires r.gen == Core ==> r.fetchCount == 0 && r.itemCount == 0
    requires r.itemCount <= |r.handed|
    ensures Inv(r)
  {
    DrivenSameHeld(s.workers, w, w');
    AppendConserves(multiset(s.enqueued), multiset(s.queue), Driven(s.workers), Driven(r.workers), multiset(s.finished), multiset(c));
  }

  lemma AppendConserves<T>(e: multiset<T>, q: multiset<T>, d: multiset<T>, d': multiset<T>, f: multiset<T>, c: multiset<T>)
    requires e == q + d + f && d' == d
    ensures e + c == (q + c) + d' + f
  {
  }

  /** The `finally` block of `_worker` once the action is done or raised:
      a raised exception is logged, the busy counter goes down, and the
      loop is stopped exactly when `stop_when_empty` holds, no worker is
      busy and the queue is empty. */
  function Finish(s: Spider, w: nat): (r: Spider)
    requires Inv(s) && !s.loopStopped && w < |s.workers| && s.workers[w].Driving?
    requires s.workers[w].raised || s.workers[w].pos == |s.workers[w].action.steps|
    ensures Inv(r)
    ensures r.workers == s.workers[w := Idle] && r.busy == s.busy - 1
    ensures r.finished == s.finished + [s.workers[w].action] && r.queue == s.queue
    ensures r.logged == s.logged + (if s.workers[w].raised || s.workers[w].action.raises then 1 else 0)
    ensures r.loopStopped <==> s.stopWhenEmpty && r.busy == 0 && r.queue == []
    ensures (r.handed, r.fetchCount, r.itemCount, r.enqueued) == (s.handed, s.fetchCount, s.itemCount, s.enqueued)
  {
    var a := s.workers[w].action;
    var failed := s.workers[w].raised || a.raises;
    var busy := s.busy - 1;
    FinishKeepsInv(s, w);
    s.(workers := s.workers[w := Idle], busy := busy, finished := s.finished + [a],
       logged := s.logged + (if failed then 1 else 0),
       loopStopped := s.stopWhenEmpty && busy == 0 && s.queue == [])
  }

  lemma FinishKeepsInv(s: Spider, w: nat)
    requires Inv(s) && w < |s.workers| && s.workers[w].Driving?
    ensures var busy := s.busy - 1;
      var r := s.(workers := s.workers[w := Idle], busy := busy, finished := s.finished + [s.workers[w].action]);
      Inv(r.(loopStopped := s.stopWhenEmpty && busy == 0 && s.queue == []))
  {
    var a := s.workers[w].action;
    var ws := s.workers[w := Idle];
    DrivenUpdate(s.workers, w, Idle);
    DrivenUpdateCount(s.workers, w, Idle);
    assert Driven(ws) + multiset{a} == Driven(s.workers);
    FinishConserves(multiset(s.enqueued), multiset(s.queue), Driven(s.workers), Driven(ws), multiset(s.finished), multiset{a});
    assert multiset(s.finished + [a]) == multiset(s.finished) + multiset{a};
  }

  lemma FinishConserves<T>(e: multiset<T>, q: multiset<T>, d: multiset<T>, d': multiset<T>, f: multiset<T>, a: multiset<T>)
    requires e == q + d + f && d == d' + a
    ensures e == q + d' + (f + a)
  {
  }

  /** Once the loop is stopped, every action that ever entered the queue
      has been driven to its end and no worker holds one. */
  lemma StoppedMeansAllFinished(s: Spider)
    requires Inv(s) && s.loopStopped
    ensures multiset(s.enqueued) == multiset(s.finished)
    ensures forall i :: 0 <= i < |s.workers| ==> s.workers[i] == Idle
  {
    DrivenEmpty(s.workers);
  }

  // One action from start to end --------------------------------------------

  /** The steps an action actually performs: all of them, or those up to
      and including the first that raises. */
  function Executed(steps: seq<Step>): (ex: seq<Step>)
    ensures |ex| <= |steps|
    decreases |steps|
  {
    if steps == [] then []
    else if Fails(steps[0]) then [steps[0]]
    else [steps[0]] + Executed(steps[1..])
  }

  /** The generators yielded by some steps, in order. */
  function Children(steps: seq<Step>): seq<Script>
    decreases |steps|
  {
    if steps == [] then []
    else Child(steps[0]) + Children(steps[1..])
  }

  /** The items some steps hand to the saver, in order. */
  function ItemsHanded(steps: seq<Step>): seq<nat>
    decreases |steps|
  {
    if steps == [] then []
    else Handed(steps[0]) + ItemsHanded(steps[1..])
  }

  /** How much driving is left for a worker: two per step still to run,
      plus one until its action has raised. */
  function Remaining(d: Worker): nat {
    if d.Driving? && d.pos <= |d.action.steps| then 2 * (|d.action.steps| - d.pos) + (if d.raised then 0 else 1) else 0
  }

  /** Driving the held action until it is done or has raised. */
  function DriveRest(s: Spider, w: nat): (r: Spider)
    requires w < |s.workers| && s.workers[w].Driving? && s.workers[w].pos <= |s.workers[w].action.steps|
    ensures |r.workers| == |s.workers|
    ensures r.workers[w].Driving? && r.workers[w].action == s.workers[w].action
    ensures r.workers[w].raised || r.workers[w].pos == |r.workers[w].action.steps|
    decreases Remaining(s.workers[w])
  {
    var d := s.workers[w];
    if d.raised || d.pos == |d.action.steps| then s else DriveRest(Perform(s, w), w)
  }

  /** Driving keeps the spider's invariant. */
  lemma {:induction false} DriveRestKeepsInv(s: Spider, w: nat)
    requires Inv(s) && !s.loopStopped && w < |s.workers| && s.workers[w].Driving?
    ensures Inv(DriveRest(s, w)) && !DriveRest(s, w).loopStopped
    decreases Remaining(s.workers[w])
  {
    var d := s.workers[w];
    if !(d.raised || d.pos == |d.action.steps|) {
      var s1 := Advance(s, w);
      DriveRestKeepsInv(s1, w);
    }
  }

  /** Unfolding `Executed` at position `pos`. */
  lemma ExecutedAt(steps: seq<Step>, pos: nat)
    requires pos < |steps|
    ensures Executed(steps[pos..]) == if Fails(steps[pos]) then [steps[pos]] else [steps[pos]] + Executed(steps[pos + 1..])
  {
    assert steps[pos..][0] == steps[pos] && steps[pos..][1..] == steps[pos + 1..];
  }

  lemma ChildrenCons(st: Step, ex: seq<Step>)
    ensures Children([st] + ex) == Child(st) + Children(ex)
    ensures ItemsHanded([st] + ex) == Handed(st) + ItemsHanded(ex)
  {
    assert ([st] + ex)[0] == st && ([st] + ex)[1..] == ex;
  }

  /** One step of driving followed by the rest is the rest of driving. */
  lemma DriveRestUnfold(s: Spider, w: nat)
    requires w < |s.workers| && s.workers[w].Driving? && !s.workers[w].raised && s.workers[w].pos < |s.workers[w].action.steps|
    ensures DriveRest(s, w) == DriveRest(Perform(s, w), w)
  {
  }

  /** What driving does to the queue: the children yielded by the executed
      steps are appended in order. */
  lemma {:induction false} DriveRestQueue(s: Spider, w: nat)
    requires w < |s.workers| && s.workers[w].Driving? && !s.workers[w].raised && s.workers[w].pos <= |s.workers[w].action.steps|
    ensures var d := s.workers[w];
      DriveRest(s, w).queue == s.queue + Children(Executed(d.action.steps[d.pos..]))
    decreases |s.workers[w].action.steps| - s.workers[w].pos
  {
    var d := s.workers[w];
    if d.pos < |d.action.steps| {
      var st := d.action.steps[d.pos];
      var s1 := Perform(s, w);
      DriveRestUnfold(s, w);
      ExecutedAt(d.action.steps, d.pos);
      assert s1.queue == s.queue + Child(st);
      if Fails(st) {
        assert s1.workers[w].raised;
        assert DriveRest(s1, w) == s1;
        ChildrenCons(st, []);
        assert Children([]) == [];
        Append3(s.queue, Child(st), []);
        assert DriveRest(s, w).queue == s.queue + Children(Executed(d.action.steps[d.pos..]));
      } else {
        var ex' := Executed(d.action.steps[d.pos + 1..]);
        assert s1.workers[w] == Driving(d.action, d.pos + 1, false);
        DriveRestQueue(s1, w);
        assert DriveRest(s1, w).queue == s1.queue + Children(ex');
        ChildrenCons(st, ex');
        Append3(s.queue, Child(st), Children(ex'));
        assert DriveRest(s, w).queue == s.queue + Children(Executed(d.action.steps[d.pos..]));
      }
    } else {
      assert d.action.steps[d.pos..] == [];
      assert DriveRest(s, w) == s;
      assert Children(Executed([])) == [];
      assert s.queue + [] == s.queue;
    }
  }

  lemma Append3<T>(a: seq<T>, b: seq<T>, c: seq<T>)
    ensures a + b + c == a + (b + c)
  {
  }

  /** What driving does for the saver: the items of the executed steps
      are handed over in order. */
  lemma {:induction false} DriveRestHanded(s: Spider, w: nat)
    requires w < |s.workers| && s.workers[w].Driving? && !s.workers[w].raised && s.workers[w].pos <= |s.workers[w].action.steps|
    ensures var d := s.workers[w];
      DriveRest(s, w).handed == s.handed + ItemsHanded(Executed(d.action.steps[d.pos..]))
    decreases |s.workers[w].action.steps| - s.workers[w].pos
  {
    var d := s.workers[w];
    if d.pos < |d.action.steps| {
      var st := d.action.steps[d.pos];
      var s1 := Perform(s, w);
      DriveRestUnfold(s, w);
      ExecutedAt(d.action.steps, d.pos);
      assert s1.handed == s.handed + Handed(st);
      if Fails(st) {
        assert s1.workers[w].raised;
        assert DriveRest(s1, w) == s1;
        ChildrenCons(st, []);
        assert ItemsHanded([]) == [];
        Append3(s.handed, Handed(st), []);
        assert DriveRest(s, w).handed == s.handed + ItemsHanded(Executed(d.action.steps[d.pos..]));
      } else {
        var ex' := Executed(d.action.steps[d.pos + 1..]);
        assert s1.workers[w] == Driving(d.action, d.pos + 1, false);
        DriveRestHanded(s1, w);
        assert DriveRest(s1, w).handed == s1.handed + ItemsHanded(ex');
        ChildrenCons(st, ex');
        Append3(s.handed, Handed(st), ItemsHanded(ex'));
        assert DriveRest(s, w).handed == s.handed + ItemsHanded(Executed(d.action.steps[d.pos..]));
      }
    } else {
      assert d.action.steps[d.pos..] == [];
      assert DriveRest(s, w) == s;
      assert ItemsHanded(Executed([])) == [];
      assert s.handed + [] == s.handed;
    }
  }

  /** Driving ends with the action raised exactly when its last executed
      step failed. */
  lemma {:induction false} DriveRestRaised(s: Spider, w: nat)
    requires w < |s.workers| && s.workers[w].Driving? && !s.workers[w].raised && s.workers[w].pos <= |s.workers[w].action.steps|
    ensures var d := s.workers[w]; var ex := Executed(d.action.steps[d.pos..]);
      DriveRest(s, w).workers[w].raised <==> ex != [] && Fails(ex[|ex| - 1])
    decreases |s.workers[w].action.steps| - s.workers[w].pos
  {
    var d := s.workers[w];
    var ex := Executed(d.action.steps[d.pos..]);
    if d.pos < |d.action.steps| {
      var st := d.action.steps[d.pos];
      var s1 := Perform(s, w);
      DriveRestUnfold(s, w);
      ExecutedAt(d.action.steps, d.pos);
      if Fails(st) {
        assert s1.workers[w].raised;
        assert DriveRest(s1, w) == s1;
        assert ex == [st];
      } else {
        var ex' := Executed(d.action.steps[d.pos + 1..]);
        assert s1.workers[w] == Driving(d.action, d.pos + 1, false);
        DriveRestRaised(s1, w);
        assert ex == [st] + ex';
        if ex' != [] {
          assert ex[|ex| - 1] == ex'[|ex'| - 1];
        }
      }
    } else {
      assert d.action.steps[d.pos..] == [];
      assert DriveRest(s, w) == s;
      assert ex == [];
    }
  }

  /** Driving touches no other worker, nor the busy count, the finished
      actions or the log. */
  lemma {:induction false} DriveRestFrame(s: Spider, w: nat)
    requires w < |s.workers| && s.workers[w].Driving? && s.workers[w].pos <= |s.workers[w].action.steps|
    ensures var r := DriveRest(s, w);
      && r.busy == s.busy && r.finished == s.finished && r.logged == s.logged && r.stopWhenEmpty == s.stopWhenEmpty
      && r.workers == s.workers[w := r.workers[w]]
    decreases Remaining(s.workers[w])
  {
    var d := s.workers[w];
    if d.raised || d.pos == |d.action.steps| {
      assert DriveRest(s, w) == s;
      assert s.workers == s.workers[w := s.workers[w]];
    } else {
      var s1 := Perform(s, w);
      DriveRestUnfold(s, w);
      assert s1.workers == s.workers[w := s1.workers[w]];
      DriveRestFrame(s1, w);
      var r := DriveRest(s1, w);
      assert r.workers == s.workers[w := r.workers[w]];
    }
  }

  /** One worker serving one action from claim to finish: the action is
      the head of the queue; its yielded generators join the end of the
      queue in order; its items reach the saver in order; it is logged
      exactly when it raised; and the loop stops exactly when
      `stop_when_empty` holds and nothing is left queued or driven. */
  function Serve(s: Spider, w: nat): (r: Option<Spider>)
    requires Inv(s) && !s.loopStopped && w < |s.workers| && s.workers[w].Idle?
    ensures r.None? <==> s.queue == []
    ensures r.Some? ==> Served(s, w, r.value)
  {
    match Claim(s, w)
    case None => None
    case Some(s1) =>
      assert s1.workers[w].action.steps[0..] == s.queue[0].steps;
      DriveRestQueue(s1, w);
      DriveRestHanded(s1, w);
      DriveRestRaised(s1, w);
      DriveRestFrame(s1, w);
      DriveRestKeepsInv(s1, w);
      var s2 := DriveRest(s1, w);
      var r := Finish(s2, w);
      ServeCompose(s, s1, s2, r, w);
      Some(r)
  }

  /** Serving an action keeps the scheduler's invariant, so a worker can
      serve again from the state it leaves. */
  lemma ServeKeepsInv(s: Spider, w: nat)
    requires Inv(s) && !s.loopStopped && w < |s.workers| && s.workers[w].Idle?
    ensures Serve(s, w).Some? ==> Inv(Serve(s, w).value)
  {
  }

  /** What serving the head of the queue leaves: the action is finished;
      its yielded generators join the end of the queue in order; its items
      reach the saver in order; it is logged exactly when it raised; every
      worker is as before; and the loop stops exactly when
      `stop_when_empty` holds and nothing is left queued or driven. */
  ghost predicate Served(s: Spider, w: nat, r: Spider)
    requires s.queue != []
  {
    var a := s.queue[0]; var ex := Executed(a.steps);
    && r.finished == s.finished + [a]
    && r.queue == s.queue[1..] + Children(ex)
    && r.handed == s.handed + ItemsHanded(ex)
    && r.busy == s.busy && r.workers == s.workers
    && r.logged == s.logged + (if (ex != [] && Fails(ex[|ex| - 1])) || a.raises then 1 else 0)
    && (r.loopStopped <==> s.stopWhenEmpty && s.busy == 0 && r.queue == [])
  }

  lemma ServeCompose(s: Spider, s1: Spider, s2: Spider, r: Spider, w: nat)
    requires w < |s.workers| && s.workers[w].Idle? && s.queue != []
    requires s1.queue == s.queue[1..] && s1.workers == s.workers[w := Driving(s.queue[0], 0, false)] && s1.busy == s.busy + 1
    requires (s1.finished, s1.handed, s1.logged, s1.stopWhenEmpty) == (s.finished, s.handed, s.logged, s.stopWhenEmpty)
    requires w < |s2.workers| && s2.workers[w].Driving? && s2.workers[w].action == s.queue[0]
    requires s2.queue == s1.queue + Children(Executed(s.queue[0].steps)) && s2.handed == s1.handed + ItemsHanded(Executed(s.queue[0].steps))
    requires s2.workers[w].raised <==> Executed(s.queue[0].steps) != [] && Fails(Executed(s.queue[0].steps)[|Executed(s.queue[0].steps)| - 1])
    requires (s2.busy, s2.finished, s2.logged, s2.stopWhenEmpty) == (s1.busy, s1.finished, s1.logged, s1.stopWhenEmpty)
    requires s2.workers == s1.workers[w := s2.workers[w]]
    requires r.workers == s2.workers[w := Idle] && r.busy == s2.busy - 1
    requires r.finished == s2.finished + [s2.workers[w].action] && r.queue == s2.queue
    requires r.logged == s2.logged + (if s2.workers[w].raised || s2.workers[w].action.raises then 1 else 0)
    requires r.loopStopped <==> s2.stopWhenEmpty && r.busy == 0 && r.queue == []
    requires r.handed == s2.handed
    ensures Served(s, w, r)
  {
    assert r.workers == s.workers;
  }

  /** The start action runs its single step: it yields nothing the
      scheduler keeps and never raises. */
  lemma StartActionRuns()
    ensures var ex := Executed(StartAction.steps);
      && ex == StartAction.steps && Children(ex) == [] && ItemsHanded(ex) == []
      && !Fails(ex[|ex| - 1]) && !StartAction.raises
  {
    var st := Yields(Nothing);
    assert StartAction.steps == [st] && [st][1..] == [];
    assert Executed([st]) == [st] + Executed([]);
    assert Children([st]) == Child(st) + Children([]);
    assert ItemsHanded([st]) == Handed(st) + ItemsHanded([]);
  }

  /** A spider whose queue holds only the start action, with every worker
      idle and `stop_when_empty` set, stops as soon as that action is
      served, with nothing handed to the saver. */
  lemma ServeStartAction(s: Spider, w: nat)
    requires Inv(s) && !s.loopStopped && w < |s.workers| && s.workers[w].Idle?
    requires s.queue == [StartAction] && s.busy == 0 && s.stopWhenEmpty
    ensures var r := Serve(s, w);
      && r.Some? && r.value.loopStopped && r.value.queue == []
      && r.value.handed == s.handed && r.value.finished == s.finished + [StartAction]
      && r.value.logged == s.logged
  {
    StartActionRuns();
    assert Served(s, w, Serve(s, w).value);
  }

  /** In particular a freshly booted spider with `stop_when_empty` stops
      after its start action, whatever its concurrency. */
  lemma StartActionAloneStops(gen: Generation, concurrency: int)
    requires concurrency >= 1
    ensures var s := Boot(Blank(gen, concurrency, true), StartAction, true, true);
      && Serve(s, 0).Some?
      && Serve(s, 0).value.loopStopped
      && Serve(s, 0).value.handed == []
      && Serve(s, 0).value.finished == [StartAction]
  {
    var s := Boot(Blank(gen, concurrency, true), StartAction, true, true);
    assert s.workers[0] == Idle;
    ServeStartAction(s, 0);
  }
}

=== FILE: storage.dfy ===
/** Slot-based attribute records: `Storage` in AsyncSpider/_utils.py (used by
    the legacy `Item`, `Request` and `Response`) and its variant in
    AsyncSpider/_base.py. Values are `Option<V>`: `None` is Python's `None`. */
module Storage {
  import opened Wrappers
  import opened PyDict

  type Name = string

  /** An instance: the class's `__slots__` tuple and the attributes that
      currently exist. `open` says whether the instance also has a
      `__dict__`, in which case any attribute name can be set; an instance of
      a class that declares `__slots__` in its body has no `__dict__`. */
  datatype Record<V> = Record(slots: seq<Name>, attrs: map<Name, Option<V>>, open: bool)

  /** Every slot exists (construction sets them all); a closed record holds
      nothing but its slots. */
  ghost predicate Valid<V>(r: Record<V>) {
    && NoDuplicates(r.slots)
    && (forall s :: s in r.slots ==> s in r.attrs)
    && (!r.open ==> forall k :: k in r.attrs ==> k in r.slots)
  }

  /** `Storage.__init__`: every declared slot set to `None`. */
  function Init<V>(slots: seq<Name>, open: bool): (r: Record<V>)
    requires NoDuplicates(slots)
    ensures Valid(r) && r.slots == slots && r.open == open
    ensures forall k :: k in r.attrs <==> k in slots
    ensures forall k :: k in r.attrs ==> r.attrs[k] == None
  {
    Record(slots, map k | k in slots :: None, open)
  }

  /** `__getitem__`: a missing attribute raises KeyError. Only instance
      attributes are looked up; the class's own members (methods,
      `__slots__`) are not values of the record. */
  function Get<V>(r: Record<V>, name: Name): (v: Result<Option<V>>)
    ensures v.Ok? <==> name in r.attrs
    ensures v.Ok? ==> v.value == r.attrs[name]
    ensures v.Err? ==> v.error == KeyError
  {
    if name in r.attrs then Ok(r.attrs[name]) else Err(KeyError)
  }

  /** Whether `setattr` accepts the name. */
  predicate Settable<V>(r: Record<V>, name: Name) {
    name in r.slots || r.open
  }

  /** `__setitem__`: a name outside the slots of a closed record raises
      KeyError; otherwise only that attribute changes. */
  function Set<V>(r: Record<V>, name: Name, v: Option<V>): (r': Result<Record<V>>)
    requires Valid(r)
    ensures r'.Ok? <==> name in r.slots || r.open
    ensures r'.Err? ==> r'.error == KeyError
    ensures r'.Ok? ==> Valid(r'.value) && r'.value.slots == r.slots && r'.value.open == r.open
    ensures r'.Ok? ==> Get(r'.value, name) == Ok(v)
    ensures r'.Ok? ==> forall k :: k != name ==> Get(r'.value, k) == Get(r, k)
  {
    if Settable(r, name) then Ok(Record(r.slots, r.attrs[name := v], r.open)) else Err(KeyError)
  }

  /** Sequential writes `kw` applied to a record, stopping at the first
      rejected name: the record as far as the writes got, and the error. */
  datatype Partial<V> = Partial(rec: Record<V>, error: Option<PyError>)

  /** `_utils.Storage.update(**kwargs)`: each keyword assigned in turn via
      item assignment; an unsettable name raises KeyError after the earlier
      keywords have been written. */
  function Update<V>(r: Record<V>, kw: seq<(Name, Option<V>)>): (p: Partial<V>)
    requires Valid(r)
    ensures Valid(p.rec) && p.rec.slots == r.slots && p.rec.open == r.open
    ensures p.error.None? <==> forall i :: 0 <= i < |kw| ==> Settable(r, kw[i].0)
    ensures p.error.Some? ==> p.error.value == KeyError
    decreases |kw|
  {
    if kw == [] then Partial(r, None)
    else
      match Set(r, kw[0].0, kw[0].1)
      case Err(e) => Partial(r, Some(e))
      case Ok(r1) =>
        var p := Update(r1, kw[1..]);
        assert forall i :: 1 <= i < |kw| ==> kw[1..][i - 1] == kw[i];
        p
  }

  /** A complete `update` leaves every name it does not write alone, and
      each name ends up holding the last value written to it. */
  lemma {:induction false} UpdateWrites<V>(r: Record<V>, kw: seq<(Name, Option<V>)>)
    requires Valid(r) && Update(r, kw).error.None?
    ensures forall k :: k !in PairKeys(kw) ==> Get(Update(r, kw).rec, k) == Get(r, k)
    ensures forall i :: 0 <= i < |kw| && (forall j :: i < j < |kw| ==> kw[j].0 != kw[i].0) ==>
      Get(Update(r, kw).rec, kw[i].0) == Ok(kw[i].1)
    decreases |kw|
  {
    if kw != [] {
      var r1 := Set(r, kw[0].0, kw[0].1).value;
      var rest := kw[1..];
      assert Update(r, kw) == Update(r1, rest);
      UpdateWrites(r1, rest);
      var p := Update(r1, rest).rec;
      assert PairKeys(kw) == {kw[0].0} + PairKeys(rest) by {
        assert forall i :: 1 <= i < |kw| ==> rest[i - 1] == kw[i];
        assert forall i :: 0 <= i < |rest| ==> rest[i] == kw[i + 1];
      }
      forall i | 0 <= i < |kw| && (forall j :: i < j < |kw| ==> kw[j].0 != kw[i].0)
        ensures Get(p, kw[i].0) == Ok(kw[i].1)
      {
        if i == 0 {
          assert kw[0].0 !in PairKeys(rest) by {
            forall t | 0 <= t < |rest| ensures rest[t].0 != kw[0].0 {
              assert rest[t] == kw[t + 1];
            }
          }
        } else {
          assert rest[i - 1] == kw[i];
          forall j | i - 1 < j < |rest| ensures rest[j].0 != rest[i - 1].0 {
            assert rest[j] == kw[j + 1];
          }
        }
      }
    }
  }

  /** `_utils.Storage.copy(**kwargs)`: a shallow copy with `kwargs` applied;
      the original record is a value and stays as it was. */
  function Copy<V>(r: Record<V>, kw: seq<(Name, Option<V>)>): (c: Result<Record<V>>)
    requires Valid(r)
    ensures c.Ok? <==> forall i :: 0 <= i < |kw| ==> Settable(r, kw[i].0)
    ensures c.Err? ==> c.error == KeyError
    ensures kw == [] ==> c == Ok(r)
    ensures c.Ok? ==> Valid(c.value) && c.value.slots == r.slots
    ensures c.Ok? ==> forall k :: k !in PairKeys(kw) ==> Get(c.value, k) == Get(r, k)
  {
    var p := Update(r, kw);
    if p.error.Some? then Err(p.error.value) else UpdateWrites(r, kw); Ok(p.rec)
  }

  /** `keys()`: the slot names, in declaration order. */
  function Keys<V>(r: Record<V>): seq<Name> {
    r.slots
  }

  /** `values()` (and `__iter__`, and `as_list()`): the slot values in slot
      order, each what indexing the slot returns. */
  function Values<V>(r: Record<V>): (vs: seq<Option<V>>)
    requires Valid(r)
    ensures |vs| == |Keys(r)|
    ensures forall i :: 0 <= i < |vs| ==> Get(r, Keys(r)[i]) == Ok(vs[i])
  {
    seq(|r.slots|, i requires 0 <= i < |r.slots| => r.attrs[r.slots[i]])
  }

  /** `items()`: `zip(keys(), values())`. */
  function ItemPairs<V>(r: Record<V>): (ps: seq<(Name, Option<V>)>)
    requires Valid(r)
    ensures |ps| == |Keys(r)|
    ensures forall i :: 0 <= i < |ps| ==> ps[i].0 == Keys(r)[i] && Get(r, ps[i].0) == Ok(ps[i].1)
  {
    var vs := Values(r);
    seq(|r.slots|, i requires 0 <= i < |r.slots| => (r.slots[i], vs[i]))
  }

  /** `as_dict()`: the items as a dict, keys in slot order. */
  function AsDict<V>(r: Record<V>): (d: Dict<Name, Option<V>>)
    requires Valid(r)
    ensures PyDict.Valid(d) && d.order == Keys(r)
    ensures forall k :: k in d.m ==> Get(r, k) == Ok(d.m[k])
  {
    Dict(r.slots, map k | k in r.slots :: r.attrs[k])
  }

  // _base.py additions --------------------------------------------------

  /** `_base.Storage.get(key, default)`: the default instead of an error. */
  function GetOr<V>(r: Record<V>, name: Name, default: Option<V>): (v: Option<V>)
    ensures name in r.attrs ==> v == r.attrs[name]
    ensures name !in r.attrs ==> v == default
  {
    match Get(r, name)
    case Ok(x) => x
    case Err(_) => default
  }

  /** `_base.Storage.update(**kwargs)` writes through `_set`, so an unknown
      name surfaces as AttributeError rather than KeyError. */
  function UpdateRaw<V>(r: Record<V>, kw: seq<(Name, Option<V>)>): (p: Partial<V>)
    requires Valid(r)
    ensures p.rec == Update(r, kw).rec
    ensures p.error.None? <==> forall i :: 0 <= i < |kw| ==> Settable(r, kw[i].0)
    ensures p.error.Some? ==> p.error.value == AttributeError
  {
    var p := Update(r, kw);
    if p.error.Some? then Partial(p.rec, Some(AttributeError)) else p
  }

  /** A value's truth: `None` is false, others as `truthy` says. */
  function Truth<V>(v: Option<V>, truthy: V -> bool): bool {
    v.Some? && truthy(v.value)
  }

  /** `_base.Storage.__bool__`: true iff some slot value is truthy. */
  method IsTruthy<V>(r: Record<V>, truthy: V -> bool) returns (b: bool)
    requires Valid(r)
    ensures b <==> exists i :: 0 <= i < |r.slots| && Truth(r.attrs[r.slots[i]], truthy)
  {
    var vs := Values(r);
    var i := 0;
    while i < |vs|
      invariant 0 <= i <= |vs|
      invariant forall j :: 0 <= j < i ==> !Truth(r.attrs[r.slots[j]], truthy)
    {
      assert vs[i] == r.attrs[r.slots[i]];
      if Truth(vs[i], truthy) {
        return true;
      }
      i := i + 1;
    }
    return false;
  }
}

=== FILE: token_bucket.dfy ===
/** The two rate limiters: `TokenBucket` of AsyncSpider/_fetcher.py and
    `TokenBucketRP` of AsyncSpider/implements/rp.py. The once-a-second refill
    loop becomes an explicit `Tick` step and a waiting `acquire` becomes a
    `TryAcquire` that either takes a token or reports that the caller must
    keep waiting (state unchanged). */
module TokenBuckets {
  import opened Wrappers

  /** `TokenBucket`: `refillers` counts the refill tasks alive on the loop
      and `task` says whether `_task` holds one (`start` twice leaves the
      first task running but forgotten). */
  datatype Bucket = Bucket(qps: int, size: int, tokens: int, refillers: nat, task: bool)

  ghost predicate Inv(b: Bucket) {
    1 <= b.qps <= b.size && 0 <= b.tokens <= b.size && (b.task ==> b.refillers >= 1)
  }

  /** `TokenBucket(qps, size)`: refused unless `1 <= qps <= size`; empty
      and idle until started. */
  function NewBucket(qps: int, size: int): (r: Result<Bucket>)
    ensures r.Ok? <==> 1 <= qps <= size
    ensures r.Err? ==> r.error == AssertionError
    ensures r.Ok? ==> Inv(r.value) && r.value.tokens == 0 && r.value.refillers == 0 && !r.value.task
  {
    if 1 <= qps <= size then Ok(Bucket(qps, size, 0, 0, false)) else Err(AssertionError)
  }

  /** `start()`: the bucket is full and a refill task runs. */
  function Start(b: Bucket): (r: Bucket)
    requires Inv(b)
    ensures Inv(r) && r.tokens == r.size && r.task && r.refillers == b.refillers + 1
  {
    b.(tokens := b.size, refillers := b.refillers + 1, task := true)
  }

  /** `stop()`: cancels the recorded refill task and empties the bucket;
      without a recorded task `None.cancel` is an AttributeError. */
  function Stop(b: Bucket): (r: Result<Bucket>)
    requires Inv(b)
    ensures r.Ok? <==> b.task
    ensures r.Err? ==> r.error == AttributeError
    ensures r.Ok? ==> Inv(r.value) && r.value.tokens == 0 && !r.value.task && r.value.refillers == b.refillers - 1
  {
    if !b.task then Err(AttributeError) else Ok(b.(tokens := 0, refillers := b.refillers - 1, task := false))
  }

  /** One pass of a refill loop: add `qps`, clamp at `size`. Only a live
      refill task ticks. */
  function Tick(b: Bucket): (r: Bucket)
    requires Inv(b) && b.refillers >= 1
    ensures Inv(r) && r.refillers == b.refillers && r.task == b.task
    ensures r.tokens >= b.tokens && (r.tokens == r.size || r.tokens == b.tokens + b.qps)
  {
    var t := b.tokens + b.qps;
    b.(tokens := if t > b.size then b.size else t)
  }

  /** One turn of `acquire`: take a token if there is one, else wait. */
  function TryAcquire(b: Bucket): (r: Option<Bucket>)
    requires Inv(b)
    ensures r.Some? <==> b.tokens >= 1
    ensures r.Some? ==> Inv(r.value) && r.value.tokens == b.tokens - 1 && r.value == b.(tokens := b.tokens - 1)
  {
    if b.tokens >= 1 then Some(b.(tokens := b.tokens - 1)) else None
  }

  /** `n` refill passes in a row. */
  function Ticks(b: Bucket, n: nat): (r: Bucket)
    requires Inv(b) && b.refillers >= 1
    ensures Inv(r) && r.refillers == b.refillers && r.task == b.task && r.qps == b.qps && r.size == b.size
    decreases n
  {
    if n == 0 then b else Tick(Ticks(b, n - 1))
  }

  /** Refill saturates: after `n` passes the bucket holds the old count
      plus `n * qps` tokens, or is full. */
  lemma {:induction false} TicksSaturate(b: Bucket, n: nat)
    requires Inv(b) && b.refillers >= 1
    ensures Ticks(b, n).tokens == if b.tokens + n * b.qps > b.size then b.size else b.tokens + n * b.qps
    decreases n
  {
    if n > 0 {
      TicksSaturate(b, n - 1);
      var prev := Ticks(b, n - 1);
      assert Ticks(b, n) == Tick(prev);
      var m := (n - 1) * b.qps;
      MulStep(n, b.qps);
      assert m + b.qps == n * b.qps;
      assert m <= n * b.qps;
    }
  }

  lemma MulStep(n: nat, q: int)
    requires n > 0
    ensures (n - 1) * q + q == n * q
  {
  }

  /** A waiting `acquire` is served by the next refill pass. */
  lemma AcquireAfterTick(b: Bucket)
    requires Inv(b) && b.refillers >= 1
    ensures TryAcquire(Tick(b)).Some?
  {
  }

  /** `n` acquires with no refill in between. */
  function AcquireN(b: Bucket, n: nat): (r: Option<Bucket>)
    requires Inv(b)
    ensures r.Some? ==> Inv(r.value)
    decreases n
  {
    if n == 0 then Some(b)
    else match AcquireN(b, n - 1)
      case None => None
      case Some(b') => TryAcquire(b')
  }

  /** Each acquire takes exactly one token: `n` acquires without a refill
      succeed exactly when `n` tokens are there, and leave `n` fewer. */
  lemma {:induction false} AcquireNCounts(b: Bucket, n: nat)
    requires Inv(b)
    ensures AcquireN(b, n).Some? <==> n <= b.tokens
    ensures AcquireN(b, n).Some? ==> AcquireN(b, n).value == b.(tokens := b.tokens - n)
    decreases n
  {
    if n > 0 {
      AcquireNCounts(b, n - 1);
    }
  }

  /** The legacy fetcher's rates: `settings.get('qps', 100)` and
      `settings.get('max_qps', 200)`; `open()` builds its bucket from them. */
  const DefaultQps := 100
  const DefaultMaxQps := 200

  function FetcherBucket(settings: map<string, int>): (r: Result<Bucket>)
    ensures var qps := if "qps" in settings then settings["qps"] else DefaultQps;
      var size := if "max_qps" in settings then settings["max_qps"] else DefaultMaxQps;
      r == NewBucket(qps, size)
    ensures "qps" !in settings && "max_qps" !in settings ==> r.Ok? && r.value.qps == 100 && r.value.size == 200
  {
    var qps := if "qps" in settings then settings["qps"] else DefaultQps;
    var size := if "max_qps" in settings then settings["max_qps"] else DefaultMaxQps;
    NewBucket(qps, size)
  }

  /** `TokenBucketRP`: rates read from the fetcher's settings without any
      check, bucket starting full. */
  datatype RPBucket = RPBucket(qps: int, maxQps: int, tokens: int)

  ghost predicate RPInv(b: RPBucket) {
    0 <= b.tokens <= b.maxQps
  }

  /** `TokenBucketRP(fetcher)`: `settings['qps']` and `settings['max_qps']`
      must both be present. */
  function NewRP(settings: map<string, int>): (r: Result<RPBucket>)
    ensures r.Ok? <==> "qps" in settings && "max_qps" in settings
    ensures r.Err? ==> r.error == KeyError
    ensures r.Ok? ==> r.value.qps == settings["qps"] && r.value.maxQps == settings["max_qps"] && r.value.tokens == r.value.maxQps
    ensures r.Ok? && settings["max_qps"] >= 0 ==> RPInv(r.value)
  {
    if "qps" !in settings || "max_qps" !in settings then Err(KeyError)
    else Ok(RPBucket(settings["qps"], settings["max_qps"], settings["max_qps"]))
  }

  /** One pass of `_add_token`: `min(tokens + qps, max_qps)`. */
  function RPTick(b: RPBucket): (r: RPBucket)
    ensures r.tokens <= b.maxQps && r.qps == b.qps && r.maxQps == b.maxQps
    ensures b.qps >= 0 && RPInv(b) ==> RPInv(r) && r.tokens >= b.tokens
  {
    var t := b.tokens + b.qps;
    if t > b.maxQps then b.(tokens := b.maxQps) else b.(tokens := t)
  }

  /** One turn of `acquire` (and so of `process`): wait for a token, then
      take exactly one. */
  function RPTryAcquire(b: RPBucket): (r: Option<RPBucket>)
    ensures r.Some? <==> b.tokens >= 1
    ensures r.Some? ==> r.value == b.(tokens := b.tokens - 1) && r.value.tokens >= 0
    ensures r.Some? && RPInv(b) ==> RPInv(r.value)
  {
    if b.tokens >= 1 then Some(b.(tokens := b.tokens - 1)) else None
  }

  /** The rates are never checked: a negative `qps` drains the bucket
      below zero on a refill pass, after which every `acquire` waits. */
  lemma RPNegativeQpsBreaksBound()
    ensures var b := RPTick(RPBucket(-1, 1, 0)); !RPInv(b) && RPTryAcquire(b).None?
  {
  }

  /** Both buckets refill and serve alike: with equal rates and count,
      a refill pass reaches the same count and an acquire succeeds in the
      same cases. */
  lemma BucketsAgree(b: Bucket)
    requires Inv(b) && b.refillers >= 1
    ensures RPTick(RPBucket(b.qps, b.size, b.tokens)).tokens == Tick(b).tokens
    ensures RPTryAcquire(RPBucket(b.qps, b.size, b.tokens)).Some? <==> TryAcquire(b).Some?
  {
  }
}

=== FILE: trace.dfy ===
/** What an executor's `_run` does, as a sequence of events. Each event is
    stamped with the executor's observable status `S` at the moment it
    happens: the `ExecutorState` of AsyncSpider/base.py or the flag triple
    of AsyncSpider/core/base.py. */
module Trace {
  import opened Callbacks

  /** How `_clean_loop` treats the tasks still on the loop: executors
      cancel them and wait for the cancellations; a `Saver` waits for them
      to finish instead. */
  datatype CleanPolicy = CancelPending | AwaitPending

  datatype Event<S> =
    | Entered(status: S)
    | Ran(cb: Callback, at: S)
    | Cleaned(policy: CleanPolicy, tasks: nat, at: S)
    | LoopClosed(at: S)

  /** The callbacks that ran while the status was `s`, in order. */
  function RanIn<S(==)>(t: seq<Event<S>>, s: S): seq<Callback>
    decreases |t|
  {
    if t == [] then []
    else
      var init := RanIn(t[..|t| - 1], s);
      var ev := t[|t| - 1];
      if ev.Ran? && ev.at == s then init + [ev.cb] else init
  }

  /** One `Ran` event per callback, all stamped `s`. */
  function RanEvents<S>(cs: seq<Callback>, s: S): (evs: seq<Event<S>>)
    ensures |evs| == |cs|
    ensures forall i :: 0 <= i < |evs| ==> evs[i] == Ran(cs[i], s)
  {
    seq(|cs|, i requires 0 <= i < |cs| => Ran(cs[i], s))
  }

  lemma RanInSnoc<S>(t: seq<Event<S>>, ev: Event<S>, s: S)
    ensures RanIn(t + [ev], s) == if ev.Ran? && ev.at == s then RanIn(t, s) + [ev.cb] else RanIn(t, s)
  {
    assert (t + [ev])[..|t|] == t;
  }

  lemma {:induction false} RanInAppend<S>(a: seq<Event<S>>, b: seq<Event<S>>, s: S)
    ensures RanIn(a + b, s) == RanIn(a, s) + RanIn(b, s)
    decreases |b|
  {
    if b == [] {
      assert a + b == a;
    } else {
      var b', ev := b[..|b| - 1], b[|b| - 1];
      assert b == b' + [ev];
      RanInAppend(a, b', s);
      Assoc(a, b', [ev]);
      RanInSnoc(a + b', ev, s);
      RanInSnoc(b', ev, s);
      if ev.Ran? && ev.at == s {
        Assoc(RanIn(a, s), RanIn(b', s), [ev.cb]);
      }
    }
  }

  /** The `Ran` events of a drain give back exactly the drained callbacks. */
  lemma {:induction false} RanInEvents<S>(cs: seq<Callback>, s: S)
    ensures RanIn(RanEvents(cs, s), s) == cs
    decreases |cs|
  {
    if cs != [] {
      var init := cs[..|cs| - 1];
      RanInEvents(init, s);
      assert RanEvents(cs, s) == RanEvents(init, s) + [Ran(cs[|cs| - 1], s)];
      RanInSnoc(RanEvents(init, s), Ran(cs[|cs| - 1], s), s);
      assert cs == init + [cs[|cs| - 1]];
    }
  }

  /** Events stamped with another status contribute nothing. */
  lemma {:induction false} RanInElsewhere<S>(cs: seq<Callback>, s: S, s': S)
    requires s != s'
    ensures RanIn(RanEvents(cs, s'), s) == []
    decreases |cs|
  {
    if cs != [] {
      var init := cs[..|cs| - 1];
      RanInElsewhere(init, s, s');
      assert RanEvents(cs, s') == RanEvents(init, s') + [Ran(cs[|cs| - 1], s')];
      RanInSnoc(RanEvents(init, s'), Ran(cs[|cs| - 1], s'), s);
    }
  }

  /** A trace with no `Ran` event contributes nothing. */
  lemma {:induction false} RanInNone<S>(t: seq<Event<S>>, s: S)
    requires forall i :: 0 <= i < |t| ==> !t[i].Ran?
    ensures RanIn(t, s) == []
    decreases |t|
  {
    if t != [] {
      RanInNone(t[..|t| - 1], s);
    }
  }
}

=== FILE: wrappers.dfy ===
/** Failure-carrying results shared by every module of the model.
    Python exceptions raised by the crawler become `Err` values whose
    `PyError` names the exception class the source raises. */
module Wrappers {

  /** Python's `None` versus a present value. */
  datatype Option<+T> = None | Some(value: T) {
    function GetOr(default: T): T {
      match this
      case Some(v) => v
      case None => default
    }
  }

  /** The exception classes the modelled code raises. `AssertionError`
      stands for a failing `assert` guard in the source. */
  datatype PyError =
    | KeyError
    | ValueError
    | TypeError
    | RuntimeError
    | AttributeError
    | AssertionError
    | LookupError

  datatype Result<+T> = Ok(value: T) | Err(error: PyError) {
    predicate IsFailure() {
      Err?
    }

    function PropagateFailure<U>(): Result<U>
      requires Err?
    {
      Err(error)
    }

    function Extract(): T
      requires Ok?
    {
      value
    }
  }

  /** Distinct elements: the shape of a Python declaration tuple. */
  predicate NoDuplicates<T(==)>(s: seq<T>) {
    forall i, j :: 0 <= i < j < |s| ==> s[i] != s[j]
  }

  /** Position of `x` in `s` (first occurrence). */
  function IndexOf<T(==)>(s: seq<T>, x: T): (i: nat)
    requires x in s
    ensures i < |s| && s[i] == x
    ensures forall j :: 0 <= j < i ==> s[j] != x
  {
    if s[0] == x then 0 else 1 + IndexOf(s[1..], x)
  }

  /** `s` with the first occurrence of `x` removed (Python `list.remove`). */
  function RemoveFirst<T(==)>(s: seq<T>, x: T): (r: seq<T>)
    requires x in s
    ensures |r| == |s| - 1
    ensures r == s[..IndexOf(s, x)] + s[IndexOf(s, x) + 1..]
  {
    if s[0] == x then s[1..] else [s[0]] + RemoveFirst(s[1..], x)
  }
}
